=== FILE: README.md ===
# crumble: a Dafny model of the mental-poker core

crumble deals Texas hold'em without a trusted dealer. Every seat masks the
deck with its own BLS12-381 scalar key and shuffles it in turn. Cards are
revealed by each seat in turn peeling its own layer off them. At the end of
the hand the seats reveal their public keys, and the whole log is audited
with pairing checks.

This project models two crates:

- `crum_bls`: signing, masking, unmasking, verification by pairing checks,
  and Lagrange interpolation of threshold shares.
- `crum_pkr`: the deck, the betting ledger, the phase counters, the hand
  state machine with its end-of-hand unmasking audit, the table, and the
  older engine in `poker_game.rs` with the two-seat hand its test plays.

Group elements are modelled by their discrete logarithms. A G1 or G2 point
is a scalar of `Z_R`, where `R` is the BLS12-381 group order, and a pairing
`e(a, b)` is the product `a * b`. So masking is multiplication by the key,
unmasking is multiplication by its inverse, and a product of pairings is the
identity exactly when the exponent sum is zero. Hash-to-curve and
point decoding are function parameters.

Module layout, one file per source module:

- `wrappers.dfy`: `Option`, `Result`, `Outcome` and u64 wrapping. `Outcome` is a value or a Rust panic.
- `field.dfy`: `Z_R` arithmetic and inversion by extended Euclid.
- `pairing.dfy`: the pairing abstraction.
- `bls_sign.dfy`, `bls_util.dfy`, `bls_verify.dfy`, `lagrange.dfy`: `crum_bls`.
- `poker_deck.dfy`, `poker_bets.dfy`, `poker_state.dfy`, `poker_hand.dfy`, `unmask_audit.dfy`, `poker_table.dfy`: the current `crum_pkr` engine.
- `poker_game.dfy`: the older engine and its end-to-end two-seat hand.

A `&mut self` call is modelled as a pure function that returns a `Step`,
which holds the hand after the call together with the call's result. A
mutation made before an early `?` return stays visible, as in the source.
A Rust panic (index out of bounds, a drain past the end, an `unwrap` on an
error) is the `Panic` outcome.

## Model

| member | source | states |
|---|---|---|
| BlsSign.Mask | lib/crum_bls/src/sign.rs:22-25 | masking by a unit key is undone by unmasking with that key |
| BlsSign.Unmask | lib/crum_bls/src/sign.rs:27-31 | re-masking the unmasked point with the key gives the original point back |
| BlsSign.Sign | lib/crum_bls/src/sign.rs:16-20 | a signature is the message's hash point masked by the key: unmasking it gives the hash point; key 1 signs as the hash point itself and key 0 as the identity |
| BlsSign.MaskAll | lib/crum_pkr/src/poker_deck.rs:76-80 | masking a vector masks every point with the same key, in place |
| BlsSign.MaskCommutes | lib/crum_bls/src/sign.rs:22-25 | masking by two keys gives the same point in either order, so seats may mask in any order |
| BlsSign.MaskInjective | lib/crum_bls/src/sign.rs:22-25 | masking by a unit key maps distinct points to distinct points |
| BlsSign.MaskLayersIsProduct | lib/crum_bls/src/sign.rs:22-25 | applying several masking layers is masking once by the product of the keys |
| BlsSign.PeelLayersIsProduct | lib/crum_bls/src/sign.rs:27-31 | peeling several layers is masking once by the product of the inverses |
| BlsSign.ProductPermutation | lib/crum_bls/src/sign.rs:22-31 | the combined key of several layers does not depend on their order |
| BlsSign.PeelInAnyOrder | lib/crum_bls/src/sign.rs:22-31 | layers applied in one order can be peeled in any other order and give back the original point |
| BlsUtil.MakePublicKeyFromSigningKey | lib/crum_bls/src/util.rs:39-41 | the public key pairs with any point exactly as the point masked by the signing key pairs with the generator |
| BlsUtil.MakePublicKeyFromCompressedSlice | lib/crum_bls/src/util.rs:17-26 | a slice that is not 96 bytes is a length error; otherwise the result is the decoder's point, or a decode error when the bytes encode none |
| BlsUtil.MakeSignatureFromCompressedSlice | lib/crum_bls/src/util.rs:28-37 | a slice that is not 48 bytes is a length error; otherwise the result is the decoder's point, or a decode error when the bytes encode none |
| Pairing.MultiPairingAppend | lib/crum_bls/src/verify.rs:152-155 | the batched pairing product over two term lists is the product of the two batches |
| Pairing.TwoTermCheck | lib/crum_bls/src/verify.rs:40-49 | `e(a, b) * e(c, -d)` is the identity exactly when `e(a, b) == e(c, d)` |
| Pairing.TwoTermCheckNegFirst | lib/crum_bls/src/verify.rs:76-82 | the same check with the negated term first |
| BlsVerify.Verify | lib/crum_bls/src/verify.rs:23-36 | the check accepts exactly the signature that is the message's hash masked by the key behind the public key |
| BlsVerify.VerifyUnmasking | lib/crum_bls/src/verify.rs:40-49 | the check accepts exactly when the masked point is the unmasked point masked by the key behind the public key |
| BlsVerify.VerifySigned | lib/crum_bls/src/verify.rs:23-36 | a signature made with a key verifies against the public key derived from that key |
| BlsVerify.VerifyUnmaskingHonest | lib/crum_bls/src/verify.rs:40-49 | an honest unmasking with a unit key passes the unmasking check against its public key |
| BlsVerify.IsMaskedPairIff | lib/crum_bls/src/verify.rs:76-82 | the single-pair check of the brute-force verifier holds exactly when the after-point is the before-point masked |
| BlsVerify.MaskAllRemove | lib/crum_bls/src/verify.rs:90-93 | removing a matched slot from the available points and masking commute, as multisets |
| BlsVerify.VerifyShuffle | lib/crum_bls/src/verify.rs:56-101 | too long an output is a length error; otherwise the greedy matching succeeds exactly when the output is a sub-multiset of the masked input, and fails with the forgery error |
| BlsVerify.FindMatch | lib/crum_bls/src/verify.rs:74-88 | the inner search returns the first remaining input slot whose masking is the output point, and finds none exactly when no remaining slot masks to it |
| BlsVerify.CollectTraceTerms | lib/crum_bls/src/verify.rs:130-148 | the trace loop succeeds exactly when every trace is in bounds and no input slot is claimed twice, yielding two terms per trace; errors are the bounds or duplicate messages |
| BlsVerify.VerifyShuffleTraced | lib/crum_bls/src/verify.rs:113-162 | acceptance implies every trace in bounds with distinct input slots; an out-of-bounds or duplicated input slot is refused; once those checks pass, acceptance holds exactly when the batched pairing product is the identity, and a failed batch is refused with the forgery error; traces that are all honest are accepted |
| BlsVerify.RepeatedAfterIndexAccepted | lib/crum_bls/src/verify.rs:130-148 | two traces naming the same output slot are not refused: only input slots are checked for reuse |
| Field.Inverse | lib/crum_bls/src/lagrange.rs:20-23 | an inverse, when one is found, multiplies the scalar to one |
| Lagrange.Labels | lib/crum_bls/src/lagrange.rs:9-12 | one scalar per share, the share's label |
| Lagrange.CombineCoefficient | lib/crum_bls/src/lagrange.rs:17-26 | the only error of the inner loop is the inversion failure |
| Lagrange.CombineFrom | lib/crum_bls/src/lagrange.rs:13-29 | the only error of `combine` is the inversion failure |
| Lagrange.RecoverCoefficient | lib/crum_bls/src/lagrange.rs:38-48 | the only error of the inner loop is the inversion failure |
| Lagrange.RecoverFrom | lib/crum_bls/src/lagrange.rs:34-51 | the only error of `recover` is the inversion failure |
| Lagrange.CombineCoefficientIsBasis | lib/crum_bls/src/lagrange.rs:16-26 | the accumulating loop succeeds exactly when the Lagrange basis value at zero exists, and it computes that value |
| Lagrange.SameCoefficients | lib/crum_bls/src/lagrange.rs:7-52 | `combine` and `recover` compute the same coefficient for shares with the same labels |
| Lagrange.CoefficientFailsOnDuplicate | lib/crum_bls/src/lagrange.rs:17-26 | a label repeated at another index makes the coefficient fail with the inversion error |
| Lagrange.CombineFromFails | lib/crum_bls/src/lagrange.rs:13-28 | one failing coefficient makes the whole of `combine` fail |
| Lagrange.CombineDuplicateLabelFails | lib/crum_bls/src/lagrange.rs:7-30 | two shares with the same label make `combine` fail |
| Lagrange.RecoverDuplicateLabelFails | lib/crum_bls/src/lagrange.rs:32-52 | two shares with the same label make `recover` fail |
| Lagrange.CombineRecoverAgree | lib/crum_bls/src/lagrange.rs:7-52 | on the same labels and values the two interpolations give the same result |
| Lagrange.CombineSingleAndEmpty | lib/crum_bls/src/lagrange.rs:7-30 | a single share is returned unchanged, and no shares give the identity |
| Lagrange.CoefficientSucceedsOnDistinct | lib/crum_bls/src/lagrange.rs:17-26 | with a prime group order and a label unique among the shares, the coefficient exists |
| Lagrange.CombineFromSucceeds | lib/crum_bls/src/lagrange.rs:13-28 | with pairwise distinct labels the outer loop succeeds |
| Lagrange.CombineDistinctLabelsSucceeds | lib/crum_bls/src/lagrange.rs:7-30 | with pairwise distinct labels `combine` succeeds |
| Lagrange.SignatureShares | lib/crum_bls/src/sign.rs:16-20 | the labelled signature shares of one message, one per key |
| Lagrange.PublicKeyShares | lib/crum_bls/src/util.rs:39-41 | the labelled public-key shares, one per key |
| Lagrange.ThresholdLoop | lib/crum_bls/src/lagrange.rs:13-28 | running both loops over shares of the same keys keeps the combined signature equal to the hash masked by the recovered key |
| Lagrange.ThresholdSignatureVerifies | lib/crum_bls/src/lagrange.rs:7-52 | the combined signature shares of a message verify against the recovered public key of the same keys, and the two interpolations fail together |
| PokerDeck.CardName | lib/crum_pkr/src/poker_deck.rs:24-28 | every card name is two bytes, rank then suit |
| PokerDeck.RankCards | lib/crum_pkr/src/poker_deck.rs:24-28 | one card per suit of a rank, in suit order |
| PokerDeck.FlatMapRanksIndex | lib/crum_pkr/src/poker_deck.rs:24-28 | the nested iteration puts rank `i / 4` and suit `i % 4` at position `i` |
| PokerDeck.CardNames | lib/crum_pkr/src/poker_deck.rs:24-28 | 52 names, the `i`-th being rank `i / 4` with suit `i % 4` |
| PokerDeck.NewDeck | lib/crum_pkr/src/poker_deck.rs:23-39 | 52 cards in rank-major order, each slot holding the hash point of its card's name |
| PokerDeck.Position | lib/crum_pkr/src/poker_deck.rs:41-47 | the first slot holding the point, or none when no slot does |
| PokerDeck.FindCard | lib/crum_pkr/src/poker_deck.rs:41-47 | a point not in the deck decodes to nothing; a point present decodes to the name at the first slot holding it (nothing when that slot has no name); a decoded name is always such a name |
| PokerDeck.FindCardOfNewDeck | lib/crum_pkr/src/poker_deck.rs:23-47 | decoding inverts encoding: the point of card `i` of the reference deck decodes to card `i` |
| PokerDeck.DecodeCards | lib/crum_pkr/src/poker_deck.rs:57-63 | one decoding per point, in order |
| PokerDeck.DecodeAfterAllLayersPeeled | lib/crum_pkr/src/poker_deck.rs:57-115 | a card masked by every seat and then unmasked by every seat, in any order, decodes to its own name |
| PokerDeck.MaskCards | lib/crum_pkr/src/poker_deck.rs:76-80 | masking a vector by a unit key is undone by unmasking it with that key |
| PokerDeck.UnmaskCards | lib/crum_pkr/src/poker_deck.rs:110-115 | every point is unmasked by the key, so re-masking the unmasked vector gives the original vector |
| PokerDeck.Swap | lib/crum_pkr/src/poker_deck.rs:82-84 | a swap exchanges two slots, keeps the others and permutes the vector |
| PokerDeck.ShuffleFrom | lib/crum_pkr/src/poker_deck.rs:82-84 | the Fisher-Yates passes permute the vector |
| PokerDeck.Shuffle | lib/crum_pkr/src/poker_deck.rs:82-84 | shuffling only permutes the cards, whatever the draws |
| PokerDeck.MaskShuffleFromCommute | lib/crum_pkr/src/poker_deck.rs:76-84 | masking commutes with every Fisher-Yates prefix |
| PokerDeck.MaskShuffleCommute | lib/crum_pkr/src/poker_deck.rs:76-84 | masking then shuffling gives the same deck as shuffling then masking, for the same draws |
| PokerDeck.Deal | lib/crum_pkr/src/poker_deck.rs:94-97 | the dealt cards are the first `count` cards and the rest of the deck follows them |
| PokerBets.New | lib/crum_pkr/src/poker_bets.rs:15-23 | every seat active with the initial chips and no bet; the pot and the highest bet are zero |
| PokerBets.NewKeepsLedger | lib/crum_pkr/src/poker_bets.rs:15-23 | a fresh ledger satisfies the ledger invariant, and its chip total is seats times initial chips |
| PokerBets.CallAmountRequired | lib/crum_pkr/src/poker_bets.rs:25-34 | a folded seat is an error; otherwise the amount brings the seat's street bet up to the highest bet |
| PokerBets.ProcessAction | lib/crum_pkr/src/poker_bets.rs:47-90 | a folded seat is refused; zero is a check when matched and a fold otherwise; too small a payment is refused, a short stack is refused exactly when the chips do not cover the amount, and a covered payment is accepted with the exact paid ledger (stack down, street bet and pot up by the amount, highest bet raised to the seat's bet when exceeded); no other seat's stack, bet or activity changes |
| PokerBets.ProcessActionKeepsLedger | lib/crum_pkr/src/poker_bets.rs:47-90 | an accepted action keeps the invariant and the chip total, moving exactly the amount from the stack to the pot and raising the highest bet when exceeded, and leaves every other seat as it was |
| PokerBets.CountActive | lib/crum_pkr/src/poker_bets.rs:93 | the number of active seats is at most the number of seats |
| PokerBets.AllActiveMatchedFrom | lib/crum_pkr/src/poker_bets.rs:101-113 | the scan answers exactly whether every active seat from `p` on has matched the highest bet |
| PokerBets.IsBettingRoundComplete | lib/crum_pkr/src/poker_bets.rs:92-114 | the street is over exactly when at most one seat is active or every active seat has matched the highest bet |
| PokerBets.NextStreet | lib/crum_pkr/src/poker_bets.rs:117-120 | street bets and the highest bet are cleared; stacks, pot and active seats are kept |
| PokerBets.NextStreetKeepsLedger | lib/crum_pkr/src/poker_bets.rs:117-120 | a new street keeps the invariant and the chip total; with two active seats it is not yet complete |
| PokerState.New | lib/crum_pkr/src/poker_state.rs:46-55 | the dealer shuffles first, in round 0 |
| PokerState.IsFinished | lib/crum_pkr/src/poker_state.rs:65-67 | true exactly when the phase decodes to finished |
| PokerState.NextDealer | lib/crum_pkr/src/poker_state.rs:73-75 | the dealer is to act, and nothing else changes |
| PokerState.NextPlayer | lib/crum_pkr/src/poker_state.rs:77-80 | the next seat cyclically is to act, and the flag says the turn is back at the dealer |
| PokerState.Advance | lib/crum_pkr/src/poker_state.rs:77-80 | repeated turn passes change only the seat to act |
| PokerState.AdvanceIsOffset | lib/crum_pkr/src/poker_state.rs:77-80 | `k` turn passes move the turn `k` seats on, cyclically |
| PokerState.RotationReturnsToDealer | lib/crum_pkr/src/poker_state.rs:77-80 | starting at the dealer, the turn comes back to the dealer exactly after as many passes as there are seats |
| PokerState.ScanFrom | lib/crum_pkr/src/poker_state.rs:89-98 | the scan stops at the first masked-in seat after the start, or reports none after a full circle |
| PokerState.SeatsCovered | lib/crum_pkr/src/poker_state.rs:89-98 | a full circle from any seat visits every seat |
| PokerState.NextPlayerMasked | lib/crum_pkr/src/poker_state.rs:82-99 | the flag reports that no seat is masked in; otherwise the seat chosen is the first masked-in seat from the start, with the dealer tried first when asked |
| PokerState.NextRound | lib/crum_pkr/src/poker_state.rs:101-115 | passing the last round is an error; otherwise the round advances by one, flagged when it reaches the limit |
| PokerState.ToEnum | lib/crum_pkr/src/poker_state.rs:121-156 | codes 0 to 9 decode to the phase with that code, with the seat and round to act; other codes are invalid |
| PokerHand.New | lib/crum_pkr/src/poker_hand.rs:37-58 | the reference deck is current, nothing is logged, no key is known, and the dealer shuffles first |
| PokerHand.EmptyPiles | lib/crum_pkr/src/poker_hand.rs:37-58 | one empty card vector per slot |
| PokerHand.NoKeys | lib/crum_pkr/src/poker_hand.rs:37-58 | one missing key per seat |
| PokerHand.NewHandLedger | lib/crum_pkr/src/poker_hand.rs:37-58 | a new hand's ledger satisfies the ledger invariant and holds seats times initial chips |
| PokerHand.GetCommunityCards | lib/crum_pkr/src/poker_hand.rs:87-92 | none before the flop; round `r` reads slot `r - 1` when it exists |
| PokerHand.BigBlind | lib/crum_pkr/src/poker_hand.rs:110-112 | twice the small blind, reduced modulo 2^64 |
| PokerHand.SubmitShuffledDeck | lib/crum_pkr/src/poker_hand.rs:115-144 | outside the shuffle phase or out of turn the hand is unchanged with the matching error; in turn the deck is logged and current, and after a full rotation the blinds begin |
| PokerHand.ShuffleRoundOpensBlinds | lib/crum_pkr/src/poker_hand.rs:115-144 | one deck from each seat in turn logs exactly those decks, leaves the last current and hands the small blind to the dealer's rotation start |
| PokerHand.SubmitSmallBlind | lib/crum_pkr/src/poker_hand.rs:146-163 | the small blind goes through the ledger and the next seat posts the big blind; a refusal leaves the hand unchanged; chips are conserved |
| PokerHand.DealHoleCards | lib/crum_pkr/src/poker_hand.rs:177-179 | seat `i` gets cards `2i` and `2i + 1` of the deck, which keeps the rest |
| PokerHand.DealingMatchesAuditLayout | lib/crum_pkr/src/poker_hand_verify.rs:27-37 | the cards the hand deals, hole then flop, turn and river, are the slots the unmasking audit replays |
| PokerHand.SubmitBigBlind | lib/crum_pkr/src/poker_hand.rs:165-185 | the big blind goes through the ledger; then two cards per seat are dealt and unmasking starts at the dealer; too short a deck panics; nothing else in the hand changes: the shuffle history, the unmasking log, the keys, the community cards, the reference deck and the blind are kept |
| PokerHand.EverySeatUnmasksHoleCards | lib/crum_pkr/src/poker_hand.rs:181 | unmasking of hole cards starts at the dealer, so it returns to the dealer only after every seat has had its turn |
| PokerHand.CheckBettingRoundComplete | lib/crum_pkr/src/poker_hand.rs:406-420 | while betting is open nothing changes; once over, the round advances to the showdown or deals the next street and starts unmasking |
| PokerHand.OpenBetting | lib/crum_pkr/src/poker_hand.rs:216-224 | after an unmasking rotation a new street opens: bets are cleared and chips conserved; with two active seats betting starts at the first active seat after the dealer, in the same round, and only the ledger and the turn change: the current deck and the community cards are left for the next street |
| PokerHand.PassUnmaskTurn | lib/crum_pkr/src/poker_hand.rs:216-226 | the turn passes to the next seat, and after a full rotation betting opens |
| PokerHand.SubmitPlayerCards | lib/crum_pkr/src/poker_hand.rs:188-227 | wrong phase, wrong turn and wrong length are refused; an accepted submission is logged, replaces the hole cards and hands the turn on exactly as the unmasking rotation does, so betting opens on the street after the last seat |
| PokerHand.SubmitPlayerCardsShowdown | lib/crum_pkr/src/poker_hand.rs:230-264 | wrong phase, wrong turn and wrong length are refused; an accepted submission is logged, and after a full rotation the keys are collected |
| PokerHand.SubmitCommunityCards | lib/crum_pkr/src/poker_hand.rs:267-315 | wrong phase, round or turn is refused; a round without a slot panics; an accepted submission replaces that round's cards and is logged |
| PokerHand.PassBetTurn | lib/crum_pkr/src/poker_hand.rs:397-403 | while betting is open the next active seat after the bettor acts; once the street is complete the result is the round-end transition on the updated ledger |
| PokerHand.SubmitBet | lib/crum_pkr/src/poker_hand.rs:384-404 | wrong phase or turn is refused; the bet goes through the ledger and chips are conserved |
| PokerHand.ShuffleStep | lib/crum_pkr/src/poker_hand.rs:372 | a seat's place in the shuffle chain is its distance from the dealer |
| PokerHand.VerifyShuffle | lib/crum_pkr/src/poker_hand.rs:363-382 | a step not yet logged panics; otherwise the step is accepted exactly when the traced shuffle check of the previous deck against this one passes, which needs well-formed traces and a passing batch; honest traces are accepted |
| PokerHand.VerifyUnmaskingHand | lib/crum_pkr/src/poker_hand_verify.rs:17-137 | the hand's result is the audit's; a named cheater marks the hand cheated, anything else leaves it as it was |
| PokerHand.NatToString | lib/crum_pkr/src/poker_hand.rs:348-350 | decimal digits without a leading zero that denote the seat number |
| PokerHand.WithKey | lib/crum_pkr/src/poker_hand.rs:333-334 | the seat's key is stored and no other key changes |
| PokerHand.SubmitPublicKey | lib/crum_pkr/src/poker_hand.rs:318-361 | the key is stored first; a failed shuffle step marks the hand cheated; the last key hands the turn on and then runs exactly the audit step of FinishKeys, which finishes the hand, names a cheater or passes on its error |
| PokerHand.FinishKeys | lib/crum_pkr/src/poker_hand.rs:343-360 | once the last key is in, a clean audit finishes the hand, a named cheater marks it cheated with the seat in the error, and an audit error is passed on with the hand left as it was; only the phase ever changes |
| PokerHand.FinishedOnlyAfterCleanAudit | lib/crum_pkr/src/poker_hand.rs:318-361 | whatever the call returns, a hand left finished by the last key means the seat's shuffle step checked out, the audit found nothing and every key is present |
| UnmaskAudit.InitialReplay | lib/crum_pkr/src/poker_hand_verify.rs:27-37 | the replay starts from seat `i` holding slots `2i` and `2i + 1`, and flop, turn and river after them |
| UnmaskAudit.HoleSlots | lib/crum_pkr/src/poker_hand_verify.rs:27-31 | two slots per seat, in seat order |
| UnmaskAudit.Zip | lib/crum_pkr/src/poker_hand_verify.rs:58-71 | one triple per pair of tracked and submitted points, stopping at the shorter |
| UnmaskAudit.HoleEntry | lib/crum_pkr/src/poker_hand_verify.rs:58-71 | every other seat's tracked cards are replaced by the submitted ones and audited; the actor's own are kept; too short a submission panics |
| UnmaskAudit.CommunityEntry | lib/crum_pkr/src/poker_hand_verify.rs:72-86 | the current street's cards are audited and replaced, and after one entry per seat the next street is tracked; a missing street or vector panics |
| UnmaskAudit.ShowdownEntry | lib/crum_pkr/src/poker_hand_verify.rs:87-96 | only the actor's own tracked hole cards are audited and replaced |
| UnmaskAudit.ReplayEntry | lib/crum_pkr/src/poker_hand_verify.rs:56-99 | replaying an entry keeps the seat and street counts |
| UnmaskAudit.ReplayAll | lib/crum_pkr/src/poker_hand_verify.rs:56-99 | replaying the log keeps the seat and street counts |
| UnmaskAudit.CommunityStreetAdvances | lib/crum_pkr/src/poker_hand_verify.rs:72-86 | after one community entry per seat the street is complete, and the tracked cards are the last seat's submission |
| UnmaskAudit.BatchTerms | lib/crum_pkr/src/poker_hand_verify.rs:102-106 | two pairing terms per triple |
| UnmaskAudit.ValidTriplesPassBatch | lib/crum_pkr/src/poker_hand_verify.rs:102-117 | when every triple is an honest unmasking the batched check passes |
| UnmaskAudit.FirstCheater | lib/crum_pkr/src/poker_hand_verify.rs:121-136 | no seat is named exactly when every triple is valid; a named seat is the actor of an invalid triple with all triples before it valid |
| UnmaskAudit.MissingKey | lib/crum_pkr/src/poker_hand_verify.rs:46-50 | none exactly when every seat has a key; otherwise a seat without one |
| UnmaskAudit.Audit | lib/crum_pkr/src/poker_hand_verify.rs:17-137 | no history and a missing key are errors; a short final deck panics; an honest trail gives no cheater, no cheater is reported exactly when the batch passes, and a named cheater is the first invalid triple's actor |
| PokerTable.New | lib/crum_pkr/src/poker_table.rs:20-28 | nobody seated, button at seat 0, no hand |
| PokerTable.Join | lib/crum_pkr/src/poker_table.rs:31-35 | the id takes the next seat; earlier seats and everything else are kept |
| PokerTable.GetPlayer | lib/crum_pkr/src/poker_table.rs:85-87 | the id at a taken seat, none otherwise |
| PokerTable.JoinThenGetPlayer | lib/crum_pkr/src/poker_table.rs:31-35 | a joined id is read back at its seat, earlier seats are unchanged, and the seat after it is empty |
| PokerTable.StartHand | lib/crum_pkr/src/poker_table.rs:38-61 | refused exactly while a hand is in progress, leaving the table unchanged; otherwise a new hand over the seated ids with the dealer to shuffle |
| PokerTable.SecondStartRefused | lib/crum_pkr/src/poker_table.rs:38-61 | starting twice in a row refuses the second start |
| PokerTable.JoinAllSeats | lib/crum_pkr/src/poker_table.rs:31-35 | joining a list seats the ids in order after the seated ones |
| PokerTable.FirstHandStarts | lib/crum_pkr/src/poker_table.rs:38-61 | on a new table that ids joined, a valid hand starts at once with seat 0 to shuffle |
| PokerGame.ToEnum | lib/crum_pkr/src/poker_game.rs:154-185 | the older decoder agrees with the current one on every valid code, without the dealer flag |
| PokerGame.DecodingsAgree | lib/crum_pkr/src/poker_game.rs:154-185 | the two decoders give the same phase code on every code they share, and a cheated hand is invalid for one and Cheated for the other |
| PokerGame.New | lib/crum_pkr/src/poker_game.rs:199-210 | the older hand starts from the reference deck, no keys and empty piles, with the dealer to shuffle |
| PokerGame.Start | lib/crum_pkr/src/poker_game.rs:37-46 | the older table always starts a new hand over the seated ids |
| PokerGame.StartDiscardsHandInProgress | lib/crum_pkr/src/poker_game.rs:37-46 | starting again mid-hand discards the hand in progress |
| PokerGame.GetCommunityCards | lib/crum_pkr/src/poker_game.rs:239-241 | round `r` reads slot `r - 1`; round 0 wraps to a slot no vector has |
| PokerGame.SubmitShuffledDeck | lib/crum_pkr/src/poker_game.rs:244-268 | the older shuffle submission: wrong phase or turn is refused; the deck becomes current, and after a rotation the blinds begin |
| PokerGame.SubmitSmallBlind | lib/crum_pkr/src/poker_game.rs:270-284 | wrong phase or turn is refused; the next seat posts the big blind |
| PokerGame.SubmitBigBlind | lib/crum_pkr/src/poker_game.rs:286-303 | wrong phase or turn is refused; two cards per seat are dealt and unmasking starts at the seat after the big blind; too short a deck panics |
| PokerGame.PassTurn | lib/crum_pkr/src/poker_game.rs:129-132 | the turn moves one seat on, and the phase changes once it is back at the dealer |
| PokerGame.SubmitPlayerCards | lib/crum_pkr/src/poker_game.rs:306-334 | wrong phase, turn or length is refused; the cards replace the hole cards, and betting begins after a rotation |
| PokerGame.SubmitPlayerCardsShowdown | lib/crum_pkr/src/poker_game.rs:337-365 | wrong phase, turn or length is refused; the cards replace the hole cards, and keys are collected after a rotation |
| PokerGame.SubmitCommunityCards | lib/crum_pkr/src/poker_game.rs:368-404 | wrong phase, round or turn is refused; a round without a slot panics; otherwise the round's slot is replaced |
| PokerGame.SubmitPublicKey | lib/crum_pkr/src/poker_game.rs:407-431 | wrong phase or turn is refused; the key is stored, and after a rotation the hand is finished with no check |
| PokerGame.SubmitBet | lib/crum_pkr/src/poker_game.rs:433-459 | wrong phase or turn is refused; after a rotation the round advances to the showdown or deals the next street; passing the round limit is an error |
| PokerGame.PassTurns | lib/crum_pkr/src/poker_game.rs:129-132 | repeated turn passes keep the hand valid |
| PokerGame.RotationFromDealer | lib/crum_pkr/src/poker_game.rs:129-132 | a phase that starts at the dealer lasts exactly one rotation |
| PokerGame.HoleUnmaskSkipsSeats | lib/crum_pkr/src/poker_game.rs:299-300 | with three seats one submission ends the unmasking of hole cards (see Findings) |
| PokerGame.Apply | lib/crum_pkr/src/poker_game.rs:244-459 | every call keeps the older hand valid |
| PokerGame.Run | lib/crum_pkr/src/tests.rs:226-763 | a run that completes records one phase per move |
| PokerGame.RunAppend | lib/crum_pkr/src/tests.rs:226-763 | running two move lists in turn is running their concatenation |
| PokerGame.ShuffleAndBlinds | lib/crum_pkr/src/tests.rs:226-763 | both seats shuffle, post the blinds and are dealt two cards each from the last deck |
| PokerGame.Street | lib/crum_pkr/src/tests.rs:226-763 | one betting round and one unmasking round of a street deal its cards and return to betting |
| PokerGame.LastStreetToFinish | lib/crum_pkr/src/tests.rs:226-763 | the last betting round, the showdown and the key reveals finish the hand |
| PokerGame.TwoSeatTableStarts | lib/crum_pkr/src/tests.rs:226-237 | the two-seat, four-round table that ids 1 and 2 joined starts the expected hand |
| PokerGame.ScenarioFrom | lib/crum_pkr/src/tests.rs:226-763 | from any two-seat hand about to shuffle with an empty board, the moves pass through the expected phases and finish |
| PokerGame.TwoSeatHandScenario | lib/crum_pkr/src/tests.rs:226-763 | the two-seat hand passes through exactly the expected phases, one per move, and ends finished with both keys, the board and nine cards dealt |
| Wrappers.WrappingSub | lib/crum_pkr/src/poker_game.rs:239-241 | u64 subtraction modulo 2^64 |

## Left out

- The curve arithmetic itself: points are discrete logarithms, so a property here holds for the group structure, not for any encoding of it.
- Hash-to-curve (`lib/crum_bls/src/hash_to_curve.rs`) is a function parameter. The card lemmas assume it separates the 52 card names.
- Compressed-point decoding is a function parameter; only the length checks are modelled.
- The primality of the BLS12-381 group order is not proved; lemmas that need it take it as a hypothesis.
- The Keccak deck hash `MaskedCards::hash` (poker_deck.rs:86-92) is not modelled: it is only a digest.
- The random number generator of `shuffle` is replaced by its sequence of draws.
- Soundness of the batched pairing checks against a dishonest prover is not modelled: a random linear combination is not part of the source, so the model states that each batched check accepts exactly when its unweighted product is the identity, that honest inputs pass, and the exact single-pair checks; that a passing batch implies every individual step was valid is not claimed.
- Winner selection and pot payout are not modelled: both hand engines leave them as TODOs (poker_hand.rs:354-356, poker_game.rs:423-426).
- Plain accessors are not modelled: `get_current_hand(_mut)`, `get_max_players`, `get_max_rounds`, `get_current_player_count`, `get_small_blind`, `chips_remaining`, `get_call_amount_required`, `to_tuple`, `get_poker_deck`, `get_shuffled_deck` and `get_player_cards`.
- The `crum_bot` application and the front-ends are not part of this model.
- usize arithmetic is unbounded in the model. Seat and round counters never come near 2^64.
- BigBlind wraps as a release build does; a debug build would panic instead.
- BlsSign.Unmask: requires a unit key, where the source aborts with "Failed to invert".
- PokerDeck.UnmaskCards: requires a unit key, where the source aborts.
- PokerDeck.Deal: requires enough cards. Every caller checks the deck length first and returns `Panic` for the drain that would panic.
- PokerBets.CallAmountRequired: requires a seat index below the seat count, where the source would panic on the index. Every caller passes the seat to act, which is always in range.
- PokerBets.ProcessAction: requires a seat index below the seat count, for the same reason.
- PokerState.NextPlayer: requires at least one seat, where the source would panic on `% 0`. An empty table can start a hand (lib/crum_pkr/src/poker_table.rs:38-61, lib/crum_pkr/src/poker_game.rs:37-46); its first submission panics on `% 0` at lib/crum_pkr/src/poker_state.rs:78, and that panic is not modelled: the hand contracts promise validity only when at least one seat has joined.
- PokerGame.GetCommunityCards: requires fewer than 2^64 community slots so that the wrapped index can be compared. Round 0 is modelled as the release-build `usize` wrap of `round - 1`; a debug build panics on that subtraction instead, and that panic is not modelled.
- PokerGame.Run: treats an `Err` result as the test's `unwrap` panic rather than continuing.
- PokerGame.TwoSeatHandScenario: covers the two-seat, four-round hand of the test. The masking and unmasking arithmetic the test performs on the cards is covered separately by PokerDeck.DecodeAfterAllLayersPeeled, since the older engine never looks at the cards.

## Findings

| source | as written | input that shows it | evidently intended | confidence | as-written member | corrected member |
|---|---|---|---|---|---|---|
| lib/crum_pkr/src/poker_game.rs:299-300 | after the big blind the older hand calls `next_player`, so unmasking of hole cards starts at the seat after the big blind and ends when the turn first reaches the dealer | three seats, dealer at seat 0, big blind posted by seat 1: the phase becomes unmasking at seat 2, and one submission by seat 2 opens betting, so seats 0 and 1 never remove their layers | every seat unmasks the hole cards, starting at the dealer, as `next_dealer` at poker_hand.rs:181 does and the comment at poker_game.rs:212-218 describes | not executed | PokerGame.HoleUnmaskSkipsSeats | PokerHand.EverySeatUnmasksHoleCards |

=== FILE: bls_sign.dfy ===
/** Signing, masking and unmasking of G1 points (lib/crum_bls/src/sign.rs).
    Masking multiplies a point by a scalar; unmasking multiplies by the
    scalar's inverse and aborts when the scalar has none. */
module BlsSign {

  import opened Wrappers
  import opened Field
  import opened Pairing

  type Message = seq<Byte>

  /** Hash-to-curve: an arbitrary map from byte strings to G1 points. */
  type HashToCurve = Message -> G1

  /** `mask(g1, k) = g1 * k`. Masking by a unit is undone by unmasking. */
  function Mask(g1: G1, k: Fr): (r: G1)
    ensures IsUnit(k) ==> Unmask(r, k) == g1
  {
    var r := Mul(g1, k);
    assert IsUnit(k) ==> Mul(r, Inv(k)) == g1 by {
      if IsUnit(k) {
        MulAssociates(g1, k, Inv(k));
        MulOne(g1);
      }
    }
    r
  }

  /** `unmask(g1, k) = g1 * k^-1`; the source aborts ("Failed to invert")
      when `k` has no inverse, so that is excluded here. */
  function Unmask(g1: G1, k: Fr): (r: G1)
    requires IsUnit(k)
    ensures Mul(r, k) == g1
  {
    var r := Mul(g1, Inv(k));
    assert Mul(r, k) == g1 by {
      MulAssociates(g1, Inv(k), k);
      MulCommutes(Inv(k), k);
      MulOne(g1);
    }
    r
  }

  /** `sign(data, k) = H(data) * k`: a signature is the masked hash point,
      and the key recovers the hash from it. */
  function Sign(hash: HashToCurve, data: Message, k: Fr): (r: G1)
    ensures IsUnit(k) ==> Unmask(r, k) == hash(data)
    ensures k == 1 ==> r == hash(data)
    ensures k == 0 ==> r == Identity
  {
    MulOne(hash(data));
    Mask(hash(data), k)
  }

  /** Masks every point of a vector with the same key. */
  function MaskAll(points: seq<G1>, k: Fr): (r: seq<G1>)
    ensures |r| == |points|
    ensures forall i :: 0 <= i < |points| ==> r[i] == Mask(points[i], k)
  {
    seq(|points|, i requires 0 <= i < |points| => Mask(points[i], k))
  }

  /** Masking by two keys gives the same point in either order. */
  lemma MaskCommutes(x: G1, a: Fr, b: Fr)
    ensures Mask(Mask(x, a), b) == Mask(Mask(x, b), a)
  {
    MulAssociates(x, a, b);
    MulAssociates(x, b, a);
    MulCommutes(a, b);
  }

  /** Masking by a unit keeps distinct points distinct. */
  lemma MaskInjective(x: G1, y: G1, k: Fr)
    requires IsUnit(k)
    requires Mask(x, k) == Mask(y, k)
    ensures x == y
  {
    MulUnitCancel(x, y, k);
  }

  /** Applies masking layers in the order given. */
  function MaskLayers(x: G1, keys: seq<Fr>): G1
    decreases |keys|
  {
    if |keys| == 0 then x else MaskLayers(Mask(x, keys[0]), keys[1..])
  }

  predicate AllUnits(keys: seq<Fr>) {
    forall i :: 0 <= i < |keys| ==> IsUnit(keys[i])
  }

  /** Removes masking layers in the order given. */
  function PeelLayers(y: G1, keys: seq<Fr>): G1
    requires AllUnits(keys)
    decreases |keys|
  {
    if |keys| == 0 then y else PeelLayers(Unmask(y, keys[0]), keys[1..])
  }

  function Product(keys: seq<Fr>): Fr {
    if |keys| == 0 then 1 else Mul(keys[0], Product(keys[1..]))
  }

  function Inverses(keys: seq<Fr>): (r: seq<Fr>)
    requires AllUnits(keys)
    ensures |r| == |keys|
  {
    if |keys| == 0 then [] else [Inv(keys[0])] + Inverses(keys[1..])
  }

  lemma {:induction false} MaskLayersIsProduct(x: G1, keys: seq<Fr>)
    ensures MaskLayers(x, keys) == Mul(x, Product(keys))
    decreases |keys|
  {
    if |keys| == 0 {
      MulOne(x);
    } else {
      MaskLayersIsProduct(Mask(x, keys[0]), keys[1..]);
      MulAssociates(x, keys[0], Product(keys[1..]));
    }
  }

  lemma {:induction false} PeelLayersIsProduct(y: G1, keys: seq<Fr>)
    requires AllUnits(keys)
    ensures PeelLayers(y, keys) == Mul(y, Product(Inverses(keys)))
    decreases |keys|
  {
    if |keys| == 0 {
      MulOne(y);
    } else {
      PeelLayersIsProduct(Unmask(y, keys[0]), keys[1..]);
      assert Inverses(keys)[1..] == Inverses(keys[1..]);
      MulAssociates(y, Inv(keys[0]), Product(Inverses(keys[1..])));
    }
  }

  /** Swaps the middle two factors of a product of four. */
  lemma MulInterchange(a: Fr, b: Fr, c: Fr, d: Fr)
    ensures Mul(Mul(a, b), Mul(c, d)) == Mul(Mul(a, c), Mul(b, d))
  {
    calc {
      Mul(Mul(a, b), Mul(c, d));
      { MulAssociates(a, b, Mul(c, d)); }
      Mul(a, Mul(b, Mul(c, d)));
      { MulAssociates(b, c, d); MulCommutes(b, c); MulAssociates(c, b, d); }
      Mul(a, Mul(c, Mul(b, d)));
      { MulAssociates(a, c, Mul(b, d)); }
      Mul(Mul(a, c), Mul(b, d));
    }
  }

  lemma {:induction false} ProductTimesInverses(keys: seq<Fr>)
    requires AllUnits(keys)
    ensures Mul(Product(keys), Product(Inverses(keys))) == 1
  {
    if |keys| > 0 {
      ProductTimesInverses(keys[1..]);
      assert Product(Inverses(keys)) == Mul(Inv(keys[0]), Product(Inverses(keys[1..]))) by {
        assert Inverses(keys)[0] == Inv(keys[0]);
        assert Inverses(keys)[1..] == Inverses(keys[1..]);
      }
      MulInterchange(keys[0], Product(keys[1..]), Inv(keys[0]), Product(Inverses(keys[1..])));
      assert Mul(keys[0], Inv(keys[0])) == 1;
      MulOne(1);
    }
  }

  /** Taking one factor out of the middle of a product. */
  lemma {:induction false} ProductRemove(s: seq<Fr>, j: nat)
    requires j < |s|
    ensures Product(s) == Mul(s[j], Product(s[..j] + s[j + 1..]))
  {
    if j == 0 {
      assert s[..0] + s[1..] == s[1..];
    } else {
      ProductRemove(s[1..], j - 1);
      assert s[1..][..j - 1] + s[1..][j..] == (s[..j] + s[j + 1..])[1..];
      assert (s[..j] + s[j + 1..])[0] == s[0];
      calc {
        Product(s);
        Mul(s[0], Product(s[1..]));
        Mul(s[0], Mul(s[j], Product(s[1..][..j - 1] + s[1..][j..])));
        { MulAssociates(s[0], s[j], Product(s[1..][..j - 1] + s[1..][j..]));
          MulCommutes(s[0], s[j]);
          MulAssociates(s[j], s[0], Product(s[1..][..j - 1] + s[1..][j..])); }
        Mul(s[j], Mul(s[0], Product((s[..j] + s[j + 1..])[1..])));
      }
    }
  }

  /** A product does not depend on the order of its factors. */
  lemma {:induction false} ProductPermutation(s: seq<Fr>, t: seq<Fr>)
    requires multiset(s) == multiset(t)
    ensures Product(s) == Product(t)
    decreases |s|
  {
    if |s| > 0 {
      assert s[0] in multiset(t);
      var j :| 0 <= j < |t| && t[j] == s[0];
      var t' := t[..j] + t[j + 1..];
      assert t == t[..j] + [t[j]] + t[j + 1..];
      assert s == [s[0]] + s[1..];
      assert multiset(t) == multiset(t') + multiset{t[j]} by {
        assert multiset(t) == multiset(t[..j]) + multiset{t[j]} + multiset(t[j + 1..]);
      }
      assert multiset(s) == multiset(s[1..]) + multiset{s[0]};
      assert multiset(s[1..]) == multiset(s) - multiset{s[0]};
      assert multiset(t') == multiset(t) - multiset{t[j]};
      ProductPermutation(s[1..], t');
      ProductRemove(t, j);
    } else {
      assert |t| == 0;
    }
  }

  /** Layers can be peeled in any order, not only the one they were applied
      in, and the original point is recovered. */
  lemma PeelInAnyOrder(x: G1, keys: seq<Fr>, order: seq<Fr>)
    requires AllUnits(keys) && AllUnits(order)
    requires multiset(order) == multiset(keys)
    ensures PeelLayers(MaskLayers(x, keys), order) == x
  {
    MaskLayersIsProduct(x, keys);
    PeelLayersIsProduct(MaskLayers(x, keys), order);
    ProductPermutation(keys, order);
    ProductTimesInverses(order);
    MulAssociates(x, Product(order), Product(Inverses(order)));
    MulOne(x);
  }
}

=== FILE: bls_util.dfy ===
/** Key derivation and the length-checked decoders of compressed points
    (lib/crum_bls/src/util.rs). The curve-point decoders themselves
    (`from_compressed`) are foreign code and are passed in as functions. */
module BlsUtil {

  import opened Wrappers
  import opened Field
  import opened Pairing
  import opened BlsSign

  const SIGNING_KEY_LEN: nat := 32
  const SIGNATURE_COMPRESSED_LEN: nat := 48
  const PUBLIC_KEY_COMPRESSED_LEN: nat := 96

  const LEN_ERROR := "Len Error"
  const DECODE_ERROR := "Decode Error"

  /** A decoder of compressed points: `None` when the bytes encode no point. */
  type Decoder<T> = seq<Byte> -> Option<T>

  /** The public key of a signing key is the G2 generator times the key: for
      every G1 point `x`, `e(x, pk) == e(x * sk, g2)`. */
  function MakePublicKeyFromSigningKey(sk: Fr): (pk: G2)
    ensures forall x: G1 :: Pair(x, pk) == Pair(Mask(x, sk), G2Generator)
  {
    var pk := Mul(G2Generator, sk);
    assert pk == sk by {
      MulOne(sk);
    }
    assert forall x: G1 :: Pair(x, pk) == Pair(Mask(x, sk), G2Generator) by {
      forall x: G1 ensures Pair(x, pk) == Pair(Mask(x, sk), G2Generator) {
        MulOne(Mask(x, sk));
      }
    }
    pk
  }

  /** Decodes a compressed public key: only a 96-byte slice is handed to the
      point decoder, and its verdict decides the result. */
  function MakePublicKeyFromCompressedSlice(decode: Decoder<G2>, data: seq<Byte>): (r: Result<G2>)
    ensures |data| != PUBLIC_KEY_COMPRESSED_LEN ==> r == Err(LEN_ERROR)
    ensures r.Ok? <==> |data| == PUBLIC_KEY_COMPRESSED_LEN && decode(data).Some?
    ensures r.Ok? ==> decode(data) == Some(r.value)
    ensures |data| == PUBLIC_KEY_COMPRESSED_LEN && r.Err? ==> r.error == DECODE_ERROR
  {
    if |data| != PUBLIC_KEY_COMPRESSED_LEN then Err(LEN_ERROR)
    else
      match decode(data)
      case Some(p) => Ok(p)
      case None => Err(DECODE_ERROR)
  }

  /** Decodes a compressed signature: only a 48-byte slice is handed to the
      point decoder, and its verdict decides the result. */
  function MakeSignatureFromCompressedSlice(decode: Decoder<G1>, data: seq<Byte>): (r: Result<G1>)
    ensures |data| != SIGNATURE_COMPRESSED_LEN ==> r == Err(LEN_ERROR)
    ensures r.Ok? <==> |data| == SIGNATURE_COMPRESSED_LEN && decode(data).Some?
    ensures r.Ok? ==> decode(data) == Some(r.value)
    ensures |data| == SIGNATURE_COMPRESSED_LEN && r.Err? ==> r.error == DECODE_ERROR
  {
    if |data| != SIGNATURE_COMPRESSED_LEN then Err(LEN_ERROR)
    else
      match decode(data)
      case Some(p) => Ok(p)
      case None => Err(DECODE_ERROR)
  }
}

=== FILE: bls_verify.dfy ===
/** Signature, unmasking and shuffle verification by pairing checks
    (lib/crum_bls/src/verify.rs). Every check is a product of pairings that
    must be the identity, which in this model is a linear equation over Fr. */
module BlsVerify {

  import opened Wrappers
  import opened Field
  import opened Pairing
  import opened BlsSign
  import opened BlsUtil

  const SHUFFLE_LENGTH_ERROR := "Masked before must at least same length as masked after"
  const SHUFFLE_FORGERY_ERROR := "Cryptographic forgery detected"
  const TRACE_BOUNDS_ERROR := "Trace index out of bounds"
  const TRACE_DUPLICATE_ERROR := "Duplicate input index! Cheater attempted to clone a card."
  const TRACE_BATCH_ERROR := "Cryptographic forgery: The batched trace verification failed."

  /** `verify`: `e(sig, g2) * e(H(m), -pk) == 1`. It accepts exactly the
      signature that is the message hash masked by the key behind `pk`. */
  function Verify(hash: HashToCurve, message: Message, pk: G2, sig: G1): (r: bool)
    ensures r <==> sig == Mask(hash(message), pk)
  {
    TwoTermCheck(sig, G2Generator, hash(message), pk);
    MulOne(sig);
    ProductIsIdentity([(sig, G2Generator), (hash(message), NegG2(pk))])
  }

  /** `verify_unmasking`: `e(unmasked, pk) * e(masked, -g2) == 1`. It accepts
      exactly when masking `unmasked` by the key behind `pk` gives `masked`. */
  function VerifyUnmasking(masked: G1, unmasked: G1, pk: G2): (r: bool)
    ensures r <==> masked == Mask(unmasked, pk)
  {
    TwoTermCheck(unmasked, pk, masked, G2Generator);
    MulOne(masked);
    ProductIsIdentity([(unmasked, pk), (masked, NegG2(G2Generator))])
  }

  /** A signature made with a key verifies against that key's public key. */
  lemma VerifySigned(hash: HashToCurve, message: Message, k: Fr)
    ensures Verify(hash, message, MakePublicKeyFromSigningKey(k), Sign(hash, message, k))
  {
    MulOne(k);
  }

  /** An honest unmasking passes the unmasking audit. */
  lemma VerifyUnmaskingHonest(masked: G1, k: Fr)
    requires IsUnit(k)
    ensures VerifyUnmasking(masked, Unmask(masked, k), MakePublicKeyFromSigningKey(k))
  {
    MulOne(k);
  }

  /** The single pairing check of the brute-force shuffle verifier:
      `e(after, -g2) * e(before, pk) == 1`. */
  predicate IsMaskedPair(after: G1, before: G1, pk: G2)
  {
    ProductIsIdentity([(after, NegG2(G2Generator)), (before, pk)])
  }

  lemma IsMaskedPairIff(after: G1, before: G1, pk: G2)
    ensures IsMaskedPair(after, before, pk) <==> after == Mask(before, pk)
  {
    TwoTermCheckNegFirst(before, pk, after, G2Generator);
    MulOne(after);
  }

  /** Removing an element from a vector and masking commute. */
  lemma MaskAllRemove(s: seq<G1>, k: Fr, idx: nat)
    requires idx < |s|
    ensures multiset(MaskAll(s[..idx] + s[idx + 1..], k)) == multiset(MaskAll(s, k)) - multiset{Mask(s[idx], k)}
  {
    var m := MaskAll(s, k);
    assert MaskAll(s[..idx] + s[idx + 1..], k) == m[..idx] + m[idx + 1..];
    assert m == m[..idx] + [m[idx]] + m[idx + 1..];
    assert multiset(m) == multiset(m[..idx]) + multiset{m[idx]} + multiset(m[idx + 1..]);
  }

  /** The inner loop of `verify_shuffle`: the first still-available point
      whose mask is `pointAfter`, if any. */
  method FindMatch(available: seq<G1>, pointAfter: G1, pk: G2) returns (matched: Option<nat>)
    ensures matched.Some? ==> matched.value < |available| && pointAfter == Mask(available[matched.value], pk)
    ensures matched.Some? ==> forall m :: 0 <= m < matched.value ==> pointAfter != Mask(available[m], pk)
    ensures matched.None? <==> pointAfter !in MaskAll(available, pk)
  {
    matched := None;
    var j := 0;
    while j < |available| && matched.None?
      invariant 0 <= j <= |available|
      invariant matched.Some? ==> matched.value == j - 1 && pointAfter == Mask(available[matched.value], pk)
      invariant forall m :: 0 <= m < j && (matched.None? || m < j - 1) ==> pointAfter != Mask(available[m], pk)
    {
      var isMatch := IsMaskedPair(pointAfter, available[j], pk);
      IsMaskedPairIff(pointAfter, available[j], pk);
      if isMatch {
        matched := Some(j);
      }
      j := j + 1;
    }
    if matched.None? {
      var masked := MaskAll(available, pk);
      assert forall m :: 0 <= m < |masked| ==> masked[m] != pointAfter;
    }
  }

  /** An after-point with no available match is one too many: the
      after-points are not among the masked before-points. */
  lemma NoMatchRefutes(maskedAfter: seq<G1>, i: nat, rest: multiset<G1>, total: multiset<G1>)
    requires i < |maskedAfter|
    requires rest + multiset(maskedAfter[..i]) == total
    requires maskedAfter[i] !in rest
    ensures !(multiset(maskedAfter) <= total)
  {
    var p := maskedAfter[i];
    assert maskedAfter[..i + 1] == maskedAfter[..i] + [p];
    assert multiset(maskedAfter[..i + 1])[p] > total[p];
    assert maskedAfter == maskedAfter[..i + 1] + maskedAfter[i + 1..];
    assert multiset(maskedAfter)[p] >= multiset(maskedAfter[..i + 1])[p];
  }

  /** `verify_shuffle`: greedy matching of every after-point with the first
      still-unused before-point that it is the mask of. It succeeds exactly
      when the after-points, counted with multiplicity, are among the masked
      before-points: in particular when `after` is a permutation of `before`
      masked by the key behind `pk`. */
  method VerifyShuffle(maskedBefore: seq<G1>, maskedAfter: seq<G1>, pk: G2) returns (r: Result<()>)
    ensures |maskedBefore| < |maskedAfter| ==> r == Err(SHUFFLE_LENGTH_ERROR)
    ensures |maskedBefore| >= |maskedAfter| ==>
      (r.Ok? <==> multiset(maskedAfter) <= multiset(MaskAll(maskedBefore, pk)))
    ensures |maskedBefore| >= |maskedAfter| && r.Err? ==> r.error == SHUFFLE_FORGERY_ERROR
  {
    if |maskedBefore| < |maskedAfter| {
      return Err(SHUFFLE_LENGTH_ERROR);
    }
    var total := multiset(MaskAll(maskedBefore, pk));
    var availableBefore := maskedBefore;
    var i := 0;
    while i < |maskedAfter|
      invariant 0 <= i <= |maskedAfter|
      invariant multiset(MaskAll(availableBefore, pk)) + multiset(maskedAfter[..i]) == total
    {
      var pointAfter := maskedAfter[i];
      var matchedIndex := FindMatch(availableBefore, pointAfter, pk);
      match matchedIndex {
        case Some(idx) =>
          MaskAllRemove(availableBefore, pk, idx);
          assert maskedAfter[..i + 1] == maskedAfter[..i] + [pointAfter];
          availableBefore := availableBefore[..idx] + availableBefore[idx + 1..];
        case None =>
          NoMatchRefutes(maskedAfter, i, multiset(MaskAll(availableBefore, pk)), total);
          return Err(SHUFFLE_FORGERY_ERROR);
      }
      i := i + 1;
    }
    assert maskedAfter[..i] == maskedAfter;
    return Ok(());
  }

  /** One claimed correspondence between an output slot and an input slot. */
  datatype ShuffleTrace = ShuffleTrace(afterIndex: nat, claimedBeforeIndex: nat)

  predicate TraceInBounds(t: ShuffleTrace, maskedBefore: seq<G1>, maskedAfter: seq<G1>) {
    t.afterIndex < |maskedAfter| && t.claimedBeforeIndex < |maskedBefore|
  }

  predicate AllInBounds(traces: seq<ShuffleTrace>, maskedBefore: seq<G1>, maskedAfter: seq<G1>) {
    forall i :: 0 <= i < |traces| ==> TraceInBounds(traces[i], maskedBefore, maskedAfter)
  }

  /** No two traces claim the same input slot. */
  predicate DistinctBeforeIndices(traces: seq<ShuffleTrace>) {
    forall i, j :: 0 <= i < j < |traces| ==> traces[i].claimedBeforeIndex != traces[j].claimedBeforeIndex
  }

  /** The traced output point is the traced input point masked by the key behind `pk`. */
  predicate TraceHonest(t: ShuffleTrace, maskedBefore: seq<G1>, maskedAfter: seq<G1>, pk: G2)
    requires TraceInBounds(t, maskedBefore, maskedAfter)
  {
    maskedAfter[t.afterIndex] == Mask(maskedBefore[t.claimedBeforeIndex], pk)
  }

  /** The pairing terms a trace contributes to the batch. */
  function TraceTerms(t: ShuffleTrace, maskedBefore: seq<G1>, maskedAfter: seq<G1>, pk: G2): seq<(G1, G2)>
    requires TraceInBounds(t, maskedBefore, maskedAfter)
  {
    [(maskedAfter[t.afterIndex], NegG2(G2Generator)), (maskedBefore[t.claimedBeforeIndex], pk)]
  }

  /** The traces pass the first loop of `verify_shuffle_traced` when the
      input slots in `used` are already taken: every trace is in bounds and
      claims an input slot that no earlier trace and nothing in `used` claims. */
  predicate Admissible(traces: seq<ShuffleTrace>, maskedBefore: seq<G1>, maskedAfter: seq<G1>, used: set<nat>) {
    AllInBounds(traces, maskedBefore, maskedAfter) && DistinctBeforeIndices(traces)
    && forall i :: 0 <= i < |traces| ==> traces[i].claimedBeforeIndex !in used
  }

  /** One step of the loop: the first trace is admissible, and the others are
      with its input slot taken. */
  lemma AdmissibleStep(traces: seq<ShuffleTrace>, maskedBefore: seq<G1>, maskedAfter: seq<G1>, used: set<nat>)
    requires |traces| > 0
    ensures Admissible(traces, maskedBefore, maskedAfter, used) <==>
      TraceInBounds(traces[0], maskedBefore, maskedAfter) && traces[0].claimedBeforeIndex !in used
      && Admissible(traces[1..], maskedBefore, maskedAfter, used + {traces[0].claimedBeforeIndex})
  {
    var t := traces[0];
    var tail := traces[1..];
    if TraceInBounds(t, maskedBefore, maskedAfter) && t.claimedBeforeIndex !in used
       && Admissible(tail, maskedBefore, maskedAfter, used + {t.claimedBeforeIndex}) {
      forall i, j | 0 <= i < j < |traces|
        ensures traces[i].claimedBeforeIndex != traces[j].claimedBeforeIndex
      {
        assert traces[j] == tail[j - 1];
        if i > 0 { assert traces[i] == tail[i - 1]; }
      }
      forall i | 0 <= i < |traces|
        ensures TraceInBounds(traces[i], maskedBefore, maskedAfter) && traces[i].claimedBeforeIndex !in used
      {
        if i > 0 { assert traces[i] == tail[i - 1]; }
      }
    }
    if Admissible(traces, maskedBefore, maskedAfter, used) {
      forall i | 0 <= i < |tail|
        ensures tail[i].claimedBeforeIndex !in used + {t.claimedBeforeIndex}
      {
        assert tail[i] == traces[i + 1];
      }
      forall i, j | 0 <= i < j < |tail|
        ensures tail[i].claimedBeforeIndex != tail[j].claimedBeforeIndex
      {
        assert tail[i] == traces[i + 1] && tail[j] == traces[j + 1];
      }
    }
  }

  /** The pairing terms of an honest trace cancel. */
  lemma HonestTraceCancels(t: ShuffleTrace, maskedBefore: seq<G1>, maskedAfter: seq<G1>, pk: G2)
    requires TraceInBounds(t, maskedBefore, maskedAfter)
    requires TraceHonest(t, maskedBefore, maskedAfter, pk)
    ensures MultiPairing(TraceTerms(t, maskedBefore, maskedAfter, pk)) == 0
  {
    IsMaskedPairIff(maskedAfter[t.afterIndex], maskedBefore[t.claimedBeforeIndex], pk);
  }

  /** The first loop of `verify_shuffle_traced`: bounds and duplicate checks,
      trace by trace, collecting the batch terms. */
  function CollectTraceTerms(maskedBefore: seq<G1>, maskedAfter: seq<G1>, pk: G2,
                             traces: seq<ShuffleTrace>, used: set<nat>): (r: Result<seq<(G1, G2)>>)
    ensures r.Ok? <==> Admissible(traces, maskedBefore, maskedAfter, used)
    ensures r.Ok? ==> |r.value| == 2 * |traces|
    ensures r.Ok? && (forall i :: 0 <= i < |traces| ==> TraceHonest(traces[i], maskedBefore, maskedAfter, pk))
      ==> MultiPairing(r.value) == 0
    ensures r.Err? ==> r.error == TRACE_BOUNDS_ERROR || r.error == TRACE_DUPLICATE_ERROR
    decreases |traces|
  {
    if |traces| == 0 then Ok([])
    else
      var t := traces[0];
      AdmissibleStep(traces, maskedBefore, maskedAfter, used);
      if !TraceInBounds(t, maskedBefore, maskedAfter) then Err(TRACE_BOUNDS_ERROR)
      else if t.claimedBeforeIndex in used then Err(TRACE_DUPLICATE_ERROR)
      else
        match CollectTraceTerms(maskedBefore, maskedAfter, pk, traces[1..], used + {t.claimedBeforeIndex})
        case Err(e) => Err(e)
        case Ok(rest) =>
          var terms := TraceTerms(t, maskedBefore, maskedAfter, pk);
          assert (forall i :: 0 <= i < |traces| ==> TraceHonest(traces[i], maskedBefore, maskedAfter, pk))
                 ==> MultiPairing(terms) == 0 && MultiPairing(rest) == 0 by {
            if forall i :: 0 <= i < |traces| ==> TraceHonest(traces[i], maskedBefore, maskedAfter, pk) {
              HonestTraceCancels(t, maskedBefore, maskedAfter, pk);
              assert forall i :: 0 <= i < |traces| - 1 ==> traces[1..][i] == traces[i + 1];
            }
          }
          MultiPairingAppend(terms, rest);
          Ok(terms + rest)
  }

  /** `verify_shuffle_traced`: every trace must be in bounds and claim a
      distinct input slot, and the batched pairing check over all traced pairs
      must hold. Output slots may repeat and need not all be traced. */
  function VerifyShuffleTraced(maskedBefore: seq<G1>, maskedAfter: seq<G1>, pk: G2,
                               traces: seq<ShuffleTrace>): (r: Result<()>)
    ensures r.Ok? ==> AllInBounds(traces, maskedBefore, maskedAfter) && DistinctBeforeIndices(traces)
    ensures !AllInBounds(traces, maskedBefore, maskedAfter) ==> r.Err?
    ensures !DistinctBeforeIndices(traces) ==> r.Err?
    ensures AllInBounds(traces, maskedBefore, maskedAfter) && DistinctBeforeIndices(traces)
      && (forall i :: 0 <= i < |traces| ==> TraceHonest(traces[i], maskedBefore, maskedAfter, pk))
      ==> r == Ok(())
    ensures var terms := CollectTraceTerms(maskedBefore, maskedAfter, pk, traces, {});
      terms.Ok? ==> (r.Ok? <==> ProductIsIdentity(terms.value))
    ensures r.Err? && r.error == TRACE_BATCH_ERROR <==>
      AllInBounds(traces, maskedBefore, maskedAfter) && DistinctBeforeIndices(traces)
      && !ProductIsIdentity(CollectTraceTerms(maskedBefore, maskedAfter, pk, traces, {}).value)
  {
    match CollectTraceTerms(maskedBefore, maskedAfter, pk, traces, {})
    case Err(e) => Err(e)
    case Ok(terms) =>
      if !ProductIsIdentity(terms) then Err(TRACE_BATCH_ERROR) else Ok(())
  }

  /** A trace naming an output slot twice is not rejected on that ground. */
  lemma RepeatedAfterIndexAccepted(before: G1, pk: G2)
    ensures VerifyShuffleTraced([before, before], [Mask(before, pk)], pk,
                                [ShuffleTrace(0, 0), ShuffleTrace(0, 1)]) == Ok(())
  {
    var traces := [ShuffleTrace(0, 0), ShuffleTrace(0, 1)];
    assert forall i :: 0 <= i < |traces| ==> TraceHonest(traces[i], [before, before], [Mask(before, pk)], pk);
  }
}

=== FILE: field.dfy ===
/** The scalar field of BLS12-381, Z_R, in which this model represents both
    signing keys and (as discrete logarithms) curve points. Arithmetic is plain
    integer arithmetic reduced modulo R; the inverse is computed by the extended
    Euclidean algorithm, standing in for `Scalar::invert`. */
module Field {

  import opened Wrappers

  /** The order of the BLS12-381 scalar field (and of G1, G2 and GT). */
  const R: int := 0x73eda753_299d7d48_3339d808_09a1d805_53bda402_fffe5bfe_ffffffff_00000001

  type Fr = x: int | 0 <= x < R

  function Add(a: Fr, b: Fr): Fr { (a + b) % R }

  function Neg(a: Fr): Fr { (R - a) % R }

  function Sub(a: Fr, b: Fr): Fr { Add(a, Neg(b)) }

  function Mul(a: Fr, b: Fr): Fr { (a * b) % R }

  /** `d` divides `n`. */
  ghost predicate Divides(d: int, n: int) {
    exists c :: n == d * c
  }

  ghost predicate IsPrime(p: int) {
    p > 1 && forall d :: 1 < d < p ==> !Divides(d, p)
  }

  /** Extended Euclid: the gcd `g` of `a` and `b` with Bezout cofactors. */
  function ExtGcd(a: nat, b: nat): (r: (nat, int, int))
    ensures a * r.1 + b * r.2 == r.0
    decreases b
  {
    if b == 0 then (a, 1, 0)
    else
      var rec := ExtGcd(b, a % b);
      var q := a / b;
      assert a * rec.2 + b * (rec.1 - q * rec.2) == rec.0 by {
        assert a == q * b + a % b;
        calc {
          a * rec.2 + b * (rec.1 - q * rec.2);
          (q * b + a % b) * rec.2 + b * rec.1 - b * (q * rec.2);
          { assert (q * b + a % b) * rec.2 == q * b * rec.2 + (a % b) * rec.2; }
          b * rec.1 + (a % b) * rec.2;
        }
      }
      (rec.0, rec.2, rec.1 - q * rec.2)
  }

  /** `Scalar::invert`: `None` when `k` has no inverse modulo R. */
  function Inverse(k: Fr): (r: Option<Fr>)
    ensures r.Some? ==> Mul(k, r.value) == 1
  {
    var e := ExtGcd(k, R);
    if e.0 == 1 then
      BezoutInverse(k, e.1, e.2);
      Some(e.1 % R)
    else None
  }

  /** A Bezout identity `k*u + R*v == 1` makes `u mod R` the inverse of `k`. */
  lemma BezoutInverse(k: Fr, u: int, v: int)
    requires k * u + R * v == 1
    ensures Mul(k, u % R) == 1
  {
    ModMulRight(k, u);
    ModAddMultiple(k * u, v);
  }

  predicate IsUnit(k: Fr) {
    Inverse(k).Some?
  }

  /** The inverse of a unit; only called where the source would otherwise abort. */
  function Inv(k: Fr): (r: Fr)
    requires IsUnit(k)
    ensures Mul(k, r) == 1
  {
    Inverse(k).value
  }

  lemma ModAddMultiple(x: int, m: int)
    ensures (x + R * m) % R == x % R
  {
  }

  lemma ModMulRight(a: int, x: int)
    ensures (a * (x % R)) % R == (a * x) % R
  {
    var q := x / R;
    assert x == q * R + x % R;
    assert a * x == a * (x % R) + R * (a * q) by {
      assert a * (q * R + x % R) == a * (x % R) + R * (a * q);
    }
    ModAddMultiple(a * (x % R), a * q);
  }

  lemma ModAddBoth(x: int, y: int)
    ensures (x % R + y % R) % R == (x + y) % R
  {
    var qx, qy := x / R, y / R;
    assert x == qx * R + x % R && y == qy * R + y % R;
    assert x + y == (x % R + y % R) + R * (qx + qy);
    ModAddMultiple(x % R + y % R, qx + qy);
  }

  lemma MulCommutes(a: Fr, b: Fr)
    ensures Mul(a, b) == Mul(b, a)
  {
    assert a * b == b * a;
  }

  lemma MulAssociates(a: Fr, b: Fr, c: Fr)
    ensures Mul(Mul(a, b), c) == Mul(a, Mul(b, c))
  {
    calc {
      Mul(Mul(a, b), c);
      ((a * b) % R * c) % R;
      { MulCommutes(Mul(a, b), c); }
      (c * ((a * b) % R)) % R;
      { ModMulRight(c, a * b); }
      (c * (a * b)) % R;
      { assert c * (a * b) == a * (b * c); }
      (a * (b * c)) % R;
      { ModMulRight(a, b * c); }
      (a * ((b * c) % R)) % R;
    }
  }

  lemma DistributesOverSum(a: int, b: int, c: int)
    ensures a * (b + c) == a * b + a * c
  {
  }

  lemma MulDistributes(a: Fr, b: Fr, c: Fr)
    ensures Mul(a, Add(b, c)) == Add(Mul(a, b), Mul(a, c))
  {
    var x, y := a * b, a * c;
    assert Mul(a, Add(b, c)) == (a * ((b + c) % R)) % R;
    ModMulRight(a, b + c);
    assert a * (b + c) == x + y by { DistributesOverSum(a, b, c); }
    ModAddBoth(x, y);
    assert Add(Mul(a, b), Mul(a, c)) == (x % R + y % R) % R;
  }

  lemma MulNeg(a: Fr, b: Fr)
    ensures Mul(a, Neg(b)) == Neg(Mul(a, b))
  {
    ModMulRight(a, R - b);
    SubDistributes(a, R, b);
    ModAddMultiple(-(a * b), a);
    NegMod(a * b);
  }

  lemma SubDistributes(a: int, x: int, y: int)
    ensures a * (x - y) == x * a - a * y
  {
  }

  lemma NegMod(p: int)
    ensures (-p) % R == (R - p % R) % R
  {
    var q := p / R;
    assert -p == (R - p % R) + R * (-q - 1);
    ModAddMultiple(R - p % R, -q - 1);
  }

  /** Subtraction is zero exactly on equal elements. */
  lemma SubZeroIff(a: Fr, b: Fr)
    ensures Add(a, Neg(b)) == 0 <==> a == b
  {
  }

  lemma MulOne(a: Fr)
    ensures Mul(a, 1) == a && Mul(1, a) == a
  {
  }

  /** Multiplication by a unit can be undone, hence it is injective. */
  lemma MulUnitCancel(a: Fr, b: Fr, k: Fr)
    requires IsUnit(k)
    requires Mul(a, k) == Mul(b, k)
    ensures a == b
  {
    var i := Inv(k);
    calc {
      a;
      { MulOne(a); }
      Mul(a, Mul(k, i));
      { MulAssociates(a, k, i); }
      Mul(Mul(a, k), i);
      Mul(Mul(b, k), i);
      { MulAssociates(b, k, i); }
      Mul(b, Mul(k, i));
      { MulOne(b); }
      b;
    }
  }

  /** Zero (the label difference of a duplicated share, or an all-zero key) has no inverse. */
  lemma ZeroIsNotUnit()
    ensures !IsUnit(0)
  {
    assert ExtGcd(0, R).0 == R;
  }

  lemma OneIsUnit()
    ensures IsUnit(1)
  {
    assert ExtGcd(R, 1 % R) == ExtGcd(R, 1);
    assert ExtGcd(1, R % 1).0 == 1;
  }

  /** The gcd computed by `ExtGcd` divides both arguments. */
  lemma {:induction false} ExtGcdDivides(a: nat, b: nat)
    requires a > 0 || b > 0
    ensures ExtGcd(a, b).0 > 0
    ensures Divides(ExtGcd(a, b).0, a) && Divides(ExtGcd(a, b).0, b)
    decreases b
  {
    var g := ExtGcd(a, b).0;
    if b == 0 {
      assert a == g * 1 && b == g * 0;
    } else {
      var m := a % b;
      ExtGcdDivides(b, m);
      assert g == ExtGcd(b, m).0;
      var u :| b == g * u;
      var v :| m == g * v;
      var q := a / b;
      DivModSplit(a, b);
      LinearCombination(g, u, v, q);
      assert a == g * (q * u + v);
    }
  }

  lemma DivModSplit(a: nat, b: nat)
    requires b > 0
    ensures a == (a / b) * b + a % b
  {
  }

  lemma LinearCombination(g: int, u: int, v: int, q: int)
    ensures q * (g * u) + g * v == g * (q * u + v)
  {
  }

  /** In a prime field every nonzero element is a unit. */
  lemma NonzeroIsUnit(k: Fr)
    requires IsPrime(R)
    requires k != 0
    ensures IsUnit(k)
  {
    ExtGcdDivides(k, R);
    var g := ExtGcd(k, R).0;
    var c :| k == g * c;
    PositiveFactor(g, c);
    assert g <= k by {
      assert g * c == g + g * (c - 1);
    }
  }

  lemma PositiveFactor(g: int, c: int)
    requires g > 0 && g * c > 0
    ensures c >= 1 && g * (c - 1) >= 0
  {
  }
}

=== FILE: lagrange.dfy ===
/** Lagrange interpolation at zero of signature shares and public-key shares
    (lib/crum_bls/src/lagrange.rs). The coefficient of share i is the product
    over j != i of x_j / (x_j - x_i); a repeated label makes a denominator
    zero, which cannot be inverted. */
module Lagrange {

  import opened Wrappers
  import opened Field
  import opened Pairing
  import opened BlsSign
  import opened BlsUtil
  import opened BlsVerify

  const INVERT_ERROR := "Failed to invert denominator"

  /** `Scalar::from(label)`: every u64 is already below R. */
  function LabelScalar(tag: U64): Fr {
    assert U64_LIMIT < R;
    tag
  }

  /** The interpolation points of `combine`, computed once up front. */
  function Labels(shares: seq<(U64, G1)>): (xs: seq<Fr>)
    ensures |xs| == |shares|
    ensures forall i :: 0 <= i < |shares| ==> xs[i] == LabelScalar(shares[i].0)
  {
    seq(|shares|, i requires 0 <= i < |shares| => LabelScalar(shares[i].0))
  }

  /** The inner loop of `combine` from index `j` on, with accumulator `l`. */
  function CombineCoefficient(xs: seq<Fr>, i: nat, j: nat, l: Fr): (r: Result<Fr>)
    requires i < |xs| && j <= |xs|
    ensures r.Err? ==> r.error == INVERT_ERROR
    decreases |xs| - j
  {
    if j == |xs| then Ok(l)
    else if i == j then CombineCoefficient(xs, i, j + 1, l)
    else
      match Inverse(Sub(xs[j], xs[i]))
      case None => Err(INVERT_ERROR)
      case Some(d) => CombineCoefficient(xs, i, j + 1, Mul(l, Mul(xs[j], d)))
  }

  /** The outer loop of `combine` from share `i` on. */
  function CombineFrom(shares: seq<(U64, G1)>, xs: seq<Fr>, i: nat, combined: G1): (r: Result<G1>)
    requires |xs| == |shares| && i <= |shares|
    ensures r.Err? ==> r.error == INVERT_ERROR
    decreases |shares| - i
  {
    if i == |shares| then Ok(combined)
    else
      match CombineCoefficient(xs, i, 0, 1)
      case Err(e) => Err(e)
      case Ok(l) => CombineFrom(shares, xs, i + 1, Add(combined, Mask(shares[i].1, l)))
  }

  /** `combine`: the signature shares weighted by their Lagrange coefficients. */
  function Combine(shares: seq<(U64, G1)>): Result<G1>
  {
    CombineFrom(shares, Labels(shares), 0, Identity)
  }

  /** The inner loop of `recover`, which reads the labels from the shares directly. */
  function RecoverCoefficient(shares: seq<(U64, G2)>, i: nat, j: nat, l: Fr): (r: Result<Fr>)
    requires i < |shares| && j <= |shares|
    ensures r.Err? ==> r.error == INVERT_ERROR
    decreases |shares| - j
  {
    if j == |shares| then Ok(l)
    else if i == j then RecoverCoefficient(shares, i, j + 1, l)
    else
      var xI := LabelScalar(shares[i].0);
      var xJ := LabelScalar(shares[j].0);
      match Inverse(Sub(xJ, xI))
      case None => Err(INVERT_ERROR)
      case Some(d) => RecoverCoefficient(shares, i, j + 1, Mul(l, Mul(xJ, d)))
  }

  /** The outer loop of `recover` from share `i` on. */
  function RecoverFrom(shares: seq<(U64, G2)>, i: nat, a: G2): (r: Result<G2>)
    requires i <= |shares|
    ensures r.Err? ==> r.error == INVERT_ERROR
    decreases |shares| - i
  {
    if i == |shares| then Ok(a)
    else
      match RecoverCoefficient(shares, i, 0, 1)
      case Err(e) => Err(e)
      case Ok(l) => RecoverFrom(shares, i + 1, Add(a, Mask(shares[i].1, l)))
  }

  /** `recover`: the public-key shares weighted by their Lagrange coefficients. */
  function Recover(shares: seq<(U64, G2)>): Result<G2>
  {
    RecoverFrom(shares, 0, Identity)
  }

  /** Reference definition of the Lagrange coefficient at zero:
      the product of x_j / (x_j - x_i) over j >= `j`, j != i, or `None`
      when some denominator has no inverse. */
  function LagrangeBasis(xs: seq<Fr>, i: nat, j: nat): Option<Fr>
    requires i < |xs| && j <= |xs|
    decreases |xs| - j
  {
    if j == |xs| then Some(1)
    else if i == j then LagrangeBasis(xs, i, j + 1)
    else
      match (Inverse(Sub(xs[j], xs[i])), LagrangeBasis(xs, i, j + 1))
      case (Some(d), Some(rest)) => Some(Mul(Mul(xs[j], d), rest))
      case _ => None
  }

  /** The accumulating loop of `combine` computes the reference coefficient. */
  lemma {:induction false} CombineCoefficientIsBasis(xs: seq<Fr>, i: nat, j: nat, l: Fr)
    requires i < |xs| && j <= |xs|
    ensures CombineCoefficient(xs, i, j, l).Ok? <==> LagrangeBasis(xs, i, j).Some?
    ensures LagrangeBasis(xs, i, j).Some? ==>
      CombineCoefficient(xs, i, j, l).value == Mul(l, LagrangeBasis(xs, i, j).value)
    decreases |xs| - j
  {
    if j == |xs| {
      MulOne(l);
    } else if i == j {
      CombineCoefficientIsBasis(xs, i, j + 1, l);
    } else {
      match Inverse(Sub(xs[j], xs[i])) {
        case None =>
        case Some(d) =>
          var f := Mul(xs[j], d);
          CombineCoefficientIsBasis(xs, i, j + 1, Mul(l, f));
          CombineCoefficientIsBasis(xs, i, j + 1, l);
          if LagrangeBasis(xs, i, j + 1).Some? {
            MulAssociates(l, f, LagrangeBasis(xs, i, j + 1).value);
          }
      }
    }
  }

  /** `combine` and `recover` compute the same coefficient for shares that
      carry the same labels. */
  lemma {:induction false} SameCoefficients(sigs: seq<(U64, G1)>, pks: seq<(U64, G2)>, i: nat, j: nat, l: Fr)
    requires |sigs| == |pks| && i < |sigs| && j <= |sigs|
    requires forall n :: 0 <= n < |sigs| ==> sigs[n].0 == pks[n].0
    ensures CombineCoefficient(Labels(sigs), i, j, l) == RecoverCoefficient(pks, i, j, l)
    decreases |sigs| - j
  {
    if j < |sigs| {
      var xs := Labels(sigs);
      if i == j {
        SameCoefficients(sigs, pks, i, j + 1, l);
      } else {
        match Inverse(Sub(xs[j], xs[i])) {
          case None =>
          case Some(d) => SameCoefficients(sigs, pks, i, j + 1, Mul(l, Mul(xs[j], d)));
        }
      }
    }
  }

  /** A repeated label makes the coefficient of the first of the two shares fail. */
  lemma {:induction false} CoefficientFailsOnDuplicate(xs: seq<Fr>, i: nat, j0: nat, j: nat, l: Fr)
    requires i < |xs| && j0 <= j < |xs| && i != j && xs[i] == xs[j]
    ensures CombineCoefficient(xs, i, j0, l) == Err(INVERT_ERROR)
    decreases |xs| - j0
  {
    if j0 == j {
      ZeroIsNotUnit();
      assert Sub(xs[j], xs[i]) == 0;
    } else if i == j0 {
      CoefficientFailsOnDuplicate(xs, i, j0 + 1, j, l);
    } else {
      match Inverse(Sub(xs[j0], xs[i])) {
        case None =>
        case Some(d) => CoefficientFailsOnDuplicate(xs, i, j0 + 1, j, Mul(l, Mul(xs[j0], d)));
      }
    }
  }

  lemma {:induction false} CombineFromFails(shares: seq<(U64, G1)>, xs: seq<Fr>, i0: nat, i: nat, combined: G1)
    requires |xs| == |shares| && i0 <= i < |shares|
    requires CombineCoefficient(xs, i, 0, 1).Err?
    ensures CombineFrom(shares, xs, i0, combined) == Err(INVERT_ERROR)
    decreases |shares| - i0
  {
    if i0 < i {
      match CombineCoefficient(xs, i0, 0, 1) {
        case Err(_) =>
        case Ok(l) => CombineFromFails(shares, xs, i0 + 1, i, Add(combined, Mask(shares[i0].1, l)));
      }
    }
  }

  /** Two shares with the same label make `combine` fail. */
  lemma CombineDuplicateLabelFails(shares: seq<(U64, G1)>, i: nat, j: nat)
    requires i < |shares| && j < |shares| && i != j
    requires shares[i].0 == shares[j].0
    ensures Combine(shares) == Err(INVERT_ERROR)
  {
    CoefficientFailsOnDuplicate(Labels(shares), i, 0, j, 1);
    CombineFromFails(shares, Labels(shares), 0, i, Identity);
  }

  /** Two shares with the same label make `recover` fail. */
  lemma RecoverDuplicateLabelFails(shares: seq<(U64, G2)>, i: nat, j: nat)
    requires i < |shares| && j < |shares| && i != j
    requires shares[i].0 == shares[j].0
    ensures Recover(shares) == Err(INVERT_ERROR)
  {
    var sigs: seq<(U64, G1)> := shares;
    CombineDuplicateLabelFails(sigs, i, j);
    CombineRecoverAgree(sigs, shares, 0, Identity, Identity);
  }

  /** Running both loops on shares with the same labels and values keeps the
      same accumulator. */
  lemma {:induction false} CombineRecoverAgree(sigs: seq<(U64, G1)>, pks: seq<(U64, G2)>, i: nat, c: G1, a: G2)
    requires sigs == pks && i <= |sigs| && c == a
    ensures CombineFrom(sigs, Labels(sigs), i, c) == RecoverFrom(pks, i, a)
    decreases |sigs| - i
  {
    if i < |sigs| {
      SameCoefficients(sigs, pks, i, 0, 1);
      match CombineCoefficient(Labels(sigs), i, 0, 1) {
        case Err(_) =>
        case Ok(l) => CombineRecoverAgree(sigs, pks, i + 1, Add(c, Mask(sigs[i].1, l)), Add(a, Mask(pks[i].1, l)));
      }
    }
  }

  /** A single share is returned unchanged, and no shares give the identity. */
  lemma CombineSingleAndEmpty(tag: U64, s: G1)
    ensures Combine([(tag, s)]) == Ok(s)
    ensures Combine([]) == Ok(Identity)
  {
    var xs := Labels([(tag, s)]);
    assert CombineCoefficient(xs, 0, 1, 1) == Ok(1);
    assert CombineCoefficient(xs, 0, 0, 1) == Ok(1);
    MulOne(s);
    assert CombineFrom([(tag, s)], xs, 1, s) == Ok(s);
  }

  lemma {:induction false} CoefficientSucceedsOnDistinct(xs: seq<Fr>, i: nat, j: nat, l: Fr)
    requires IsPrime(R)
    requires i < |xs| && j <= |xs|
    requires forall n :: 0 <= n < |xs| && n != i ==> xs[n] != xs[i]
    ensures CombineCoefficient(xs, i, j, l).Ok?
    decreases |xs| - j
  {
    if j < |xs| {
      if i == j {
        CoefficientSucceedsOnDistinct(xs, i, j + 1, l);
      } else {
        SubZeroIff(xs[j], xs[i]);
        NonzeroIsUnit(Sub(xs[j], xs[i]));
        CoefficientSucceedsOnDistinct(xs, i, j + 1, Mul(l, Mul(xs[j], Inverse(Sub(xs[j], xs[i])).value)));
      }
    }
  }

  lemma {:induction false} CombineFromSucceeds(shares: seq<(U64, G1)>, i: nat, combined: G1)
    requires IsPrime(R)
    requires i <= |shares|
    requires forall m, n :: 0 <= m < n < |shares| ==> shares[m].0 != shares[n].0
    ensures CombineFrom(shares, Labels(shares), i, combined).Ok?
    decreases |shares| - i
  {
    if i < |shares| {
      var xs := Labels(shares);
      CoefficientSucceedsOnDistinct(xs, i, 0, 1);
      var l := CombineCoefficient(xs, i, 0, 1).value;
      CombineFromSucceeds(shares, i + 1, Add(combined, Mask(shares[i].1, l)));
    }
  }

  /** With pairwise distinct labels `combine` succeeds (R being prime). */
  lemma CombineDistinctLabelsSucceeds(shares: seq<(U64, G1)>)
    requires IsPrime(R)
    requires forall m, n :: 0 <= m < n < |shares| ==> shares[m].0 != shares[n].0
    ensures Combine(shares).Ok?
  {
    CombineFromSucceeds(shares, 0, Identity);
  }

  /** The signature shares of one message under keys `keys`, labelled `labels`. */
  function SignatureShares(hash: HashToCurve, message: Message, labels: seq<U64>, keys: seq<Fr>): (r: seq<(U64, G1)>)
    requires |labels| == |keys|
    ensures |r| == |keys|
    ensures forall n :: 0 <= n < |keys| ==> r[n] == (labels[n], Sign(hash, message, keys[n]))
  {
    seq(|keys|, n requires 0 <= n < |keys| => (labels[n], Sign(hash, message, keys[n])))
  }

  /** The public-key shares of `keys`, labelled `labels`. */
  function PublicKeyShares(labels: seq<U64>, keys: seq<Fr>): (r: seq<(U64, G2)>)
    requires |labels| == |keys|
    ensures |r| == |keys|
    ensures forall n :: 0 <= n < |keys| ==> r[n] == (labels[n], MakePublicKeyFromSigningKey(keys[n]))
  {
    seq(|keys|, n requires 0 <= n < |keys| => (labels[n], MakePublicKeyFromSigningKey(keys[n])))
  }

  lemma {:induction false} ThresholdLoop(hash: HashToCurve, message: Message, labels: seq<U64>, keys: seq<Fr>,
                                         i: nat, c: G1, a: G2)
    requires |labels| == |keys| && i <= |keys|
    requires c == Mask(hash(message), a)
    ensures var sigs := SignatureShares(hash, message, labels, keys);
            var pks := PublicKeyShares(labels, keys);
            var rc := CombineFrom(sigs, Labels(sigs), i, c);
            var rr := RecoverFrom(pks, i, a);
            (rc.Ok? <==> rr.Ok?) && (rc.Ok? ==> rc.value == Mask(hash(message), rr.value))
    decreases |keys| - i
  {
    var sigs := SignatureShares(hash, message, labels, keys);
    var pks := PublicKeyShares(labels, keys);
    if i < |keys| {
      SameCoefficients(sigs, pks, i, 0, 1);
      match CombineCoefficient(Labels(sigs), i, 0, 1) {
        case Err(_) =>
        case Ok(l) =>
          var h := hash(message);
          var k := keys[i];
          MulOne(k);
          assert pks[i].1 == k;
          var a' := Add(a, Mask(k, l));
          var c' := Add(c, Mask(sigs[i].1, l));
          assert c' == Mask(h, a') by {
            MulAssociates(h, k, l);
            MulDistributes(h, a, Mul(k, l));
          }
          ThresholdLoop(hash, message, labels, keys, i + 1, c', a');
      }
    }
  }

  /** Threshold signing: the combined signature shares of a message verify
      against the recovered public key of the same labelled keys, and the two
      interpolations fail together. */
  lemma ThresholdSignatureVerifies(hash: HashToCurve, message: Message, labels: seq<U64>, keys: seq<Fr>)
    requires |labels| == |keys|
    ensures var combined := Combine(SignatureShares(hash, message, labels, keys));
            var recovered := Recover(PublicKeyShares(labels, keys));
            (combined.Ok? <==> recovered.Ok?)
            && (combined.Ok? ==> Verify(hash, message, recovered.value, combined.value))
  {
    var sigs := SignatureShares(hash, message, labels, keys);
    var pks := PublicKeyShares(labels, keys);
    assert Mask(hash(message), Identity) == Identity;
    ThresholdLoop(hash, message, labels, keys, 0, Identity, Identity);
    assert Combine(sigs) == CombineFrom(sigs, Labels(sigs), 0, Identity);
    assert Recover(pks) == RecoverFrom(pks, 0, Identity);
  }
}

=== FILE: pairing.dfy ===
/** The algebraic abstraction of the BLS12-381 groups. A point of G1 or G2 is
    represented by its discrete logarithm with respect to the group's fixed
    generator, so a point is an element of Fr; scalar multiplication is field
    multiplication. The pairing e(a, b) = gT^(a*b) is represented by its
    exponent a*b, and a product of pairings by the sum of the exponents. */
module Pairing {

  import opened Field

  /** A G1 point, as its discrete log. */
  type G1 = Fr

  /** A G2 point, as its discrete log. */
  type G2 = Fr

  const G1Generator: G1 := 1

  const G2Generator: G2 := 1

  /** The identity point of either group. */
  const Identity: Fr := 0

  /** `-P` in G2. */
  function NegG2(p: G2): G2 { Neg(p) }

  /** The exponent of `e(a, b)`. */
  function Pair(a: G1, b: G2): Fr { Mul(a, b) }

  /** `multi_miller_loop(terms).final_exponentiation()`: the exponent of the
      product of the pairings of all terms. */
  function MultiPairing(terms: seq<(G1, G2)>): Fr {
    if |terms| == 0 then 0
    else Add(Pair(terms[0].0, terms[0].1), MultiPairing(terms[1..]))
  }

  /** `.is_identity()` of a product of pairings. */
  predicate ProductIsIdentity(terms: seq<(G1, G2)>) {
    MultiPairing(terms) == 0
  }

  lemma AddAssociates(a: Fr, b: Fr, c: Fr)
    ensures Add(Add(a, b), c) == Add(a, Add(b, c))
  {
    assert a % R == a && c % R == c;
    ModAddBoth(a + b, c);
    ModAddBoth(a, b + c);
    assert (a + b) + c == a + (b + c);
  }

  /** Batching: the product over a concatenation multiplies the two products. */
  lemma {:induction false} MultiPairingAppend(s: seq<(G1, G2)>, t: seq<(G1, G2)>)
    ensures MultiPairing(s + t) == Add(MultiPairing(s), MultiPairing(t))
  {
    if |s| == 0 {
      assert s + t == t;
    } else {
      assert (s + t)[1..] == s[1..] + t;
      MultiPairingAppend(s[1..], t);
      AddAssociates(Pair(s[0].0, s[0].1), MultiPairing(s[1..]), MultiPairing(t));
    }
  }

  /** The product of two pairings. */
  lemma MultiPairingTwo(p: (G1, G2), q: (G1, G2))
    ensures MultiPairing([p, q]) == Add(Pair(p.0, p.1), Pair(q.0, q.1))
  {
    var y := Pair(q.0, q.1);
    assert [p, q][1..] == [q];
    assert [q][1..] == [];
    assert MultiPairing([q]) == Add(y, 0);
    assert Add(y, 0) == y by { assert 0 <= y < R; }
  }

  /** The two-term check `e(a, b) * e(c, -d) == 1` holds exactly when `a*b == c*d`. */
  lemma TwoTermCheck(a: G1, b: G2, c: G1, d: G2)
    ensures ProductIsIdentity([(a, b), (c, NegG2(d))]) <==> Pair(a, b) == Pair(c, d)
  {
    MultiPairingTwo((a, b), (c, NegG2(d)));
    MulNeg(c, d);
    SubZeroIff(Pair(a, b), Pair(c, d));
  }


  /** The same check with the negated term first: `e(c, -d) * e(a, b) == 1`. */
  lemma TwoTermCheckNegFirst(a: G1, b: G2, c: G1, d: G2)
    ensures ProductIsIdentity([(c, NegG2(d)), (a, b)]) <==> Pair(a, b) == Pair(c, d)
  {
    var x := Pair(a, b);
    var y := Pair(c, d);
    MultiPairingTwo((c, NegG2(d)), (a, b));
    MulNeg(c, d);
    assert Add(Neg(y), x) == Add(x, Neg(y));
    SubZeroIff(x, y);
  }

}

=== FILE: poker_bets.dfy ===
/** The betting ledger of one hand (lib/crum_pkr/src/poker_bets.rs): chip
    stacks, this street's bets, the pot, the active seats and the highest
    bet. An action is classified by its amount alone: zero checks or folds,
    a positive amount calls or raises. Amounts are u64; the model writes the
    source's unsigned subtraction and additions as wrapping operations and
    proves that under the ledger invariant none of them wraps. */
module PokerBets {

  import opened Wrappers

  const FOLDED_ERROR := "Player has already folded"
  const BELOW_CALL_ERROR := "Amount is less than the required call amount"
  const STACK_ERROR := "Not enough chips in stack"

  datatype BettingState = BettingState(
    playerChips: seq<U64>,
    currentRoundBets: seq<Option<U64>>,
    pot: U64,
    activePlayers: seq<bool>,
    currentHighestBet: U64)
  {
    /** One entry per seat in every per-seat vector. */
    predicate WellFormed() {
      |currentRoundBets| == |playerChips| && |activePlayers| == |playerChips|
    }

    function NumPlayers(): nat { |playerChips| }

    /** `current_round_bets[p].unwrap_or(0)`. */
    function BetOf(p: nat): U64
      requires WellFormed() && p < NumPlayers()
    {
      match currentRoundBets[p]
      case None => 0
      case Some(b) => b
    }
  }

  function SumChips(chips: seq<U64>): nat {
    if |chips| == 0 then 0 else chips[0] + SumChips(chips[1..])
  }

  function SumBets(bets: seq<Option<U64>>): nat {
    if |bets| == 0 then 0
    else (if bets[0].Some? then bets[0].value else 0) + SumBets(bets[1..])
  }

  /** Every chip of the hand: the stacks plus the pot. */
  function TotalChips(s: BettingState): nat {
    SumChips(s.playerChips) + s.pot
  }

  /** The ledger invariant: no seat's street bet exceeds the highest bet,
      this street's bets are in the pot, and all chips fit in a u64. */
  predicate Ledger(s: BettingState) {
    s.WellFormed()
    && (forall p :: 0 <= p < s.NumPlayers() ==> s.BetOf(p) <= s.currentHighestBet)
    && SumBets(s.currentRoundBets) <= s.pot
    && TotalChips(s) < U64_LIMIT
  }

  /** `new`: every seat active with `initialChips`, nothing bet, empty pot. */
  function New(numPlayers: nat, initialChips: U64): (s: BettingState)
    ensures s.WellFormed() && s.NumPlayers() == numPlayers
    ensures forall p :: 0 <= p < numPlayers ==>
      s.playerChips[p] == initialChips && s.currentRoundBets[p].None? && s.activePlayers[p]
    ensures s.pot == 0 && s.currentHighestBet == 0
  {
    BettingState(seq(numPlayers, _ => initialChips), NoBets(numPlayers), 0,
                 seq(numPlayers, _ => true), 0)
  }

  lemma {:induction false} SumChipsConstant(n: nat, c: U64)
    ensures SumChips(seq(n, _ => c)) == n * c
  {
    if n > 0 {
      assert seq(n, _ => c)[1..] == seq(n - 1, _ => c);
      SumChipsConstant(n - 1, c);
    }
  }

  /** `n` seats that have not bet on this street. */
  function NoBets(n: nat): (r: seq<Option<U64>>)
    ensures |r| == n && forall p :: 0 <= p < n ==> r[p].None?
  {
    seq(n, _ => None)
  }

  lemma {:induction false} SumBetsNone(n: nat)
    ensures SumBets(NoBets(n)) == 0
  {
    if n > 0 {
      assert NoBets(n)[1..] == NoBets(n - 1);
      SumBetsNone(n - 1);
    }
  }

  /** A fresh ledger satisfies the invariant when all stacks together fit in a u64. */
  lemma NewKeepsLedger(numPlayers: nat, initialChips: U64)
    requires numPlayers * initialChips < U64_LIMIT
    ensures Ledger(New(numPlayers, initialChips))
    ensures TotalChips(New(numPlayers, initialChips)) == numPlayers * initialChips
  {
    SumChipsConstant(numPlayers, initialChips);
    SumBetsNone(numPlayers);
  }

  /** `call_amount_required`: what the seat must add to match the highest
      bet; a folded seat is refused. */
  function CallAmountRequired(s: BettingState, player: nat): (r: Result<U64>)
    requires s.WellFormed() && player < s.NumPlayers()
    ensures r.Err? <==> !s.activePlayers[player]
    ensures r.Err? ==> r.error == FOLDED_ERROR
    ensures Ledger(s) && r.Ok? ==> s.BetOf(player) + r.value == s.currentHighestBet
  {
    if !s.activePlayers[player] then Err(FOLDED_ERROR)
    else Ok(WrappingSub(s.currentHighestBet, s.BetOf(player)))
  }

  /** `process_action`. Zero folds a seat that owes chips and records a
      check otherwise; a positive amount must cover the call and fit in the
      stack, moves from the stack to the pot, and raises the highest bet
      when it exceeds the call. An error leaves the ledger as it was. */
  function ProcessAction(s: BettingState, player: nat, amount: U64): (r: Result<BettingState>)
    requires s.WellFormed() && player < s.NumPlayers()
    ensures !s.activePlayers[player] ==> r == Err(FOLDED_ERROR)
    ensures s.activePlayers[player] && amount == 0 && s.BetOf(player) != s.currentHighestBet ==>
      r == Ok(s.(activePlayers := s.activePlayers[player := false]))
    ensures s.activePlayers[player] && amount == 0 && s.BetOf(player) == s.currentHighestBet ==>
      r == Ok(s.(currentRoundBets := s.currentRoundBets[player := Some(0)]))
    ensures Ledger(s) && s.activePlayers[player] && 0 < amount && s.BetOf(player) + amount < s.currentHighestBet ==>
      r == Err(BELOW_CALL_ERROR)
    ensures Ledger(s) && s.activePlayers[player] && 0 < amount && s.currentHighestBet <= s.BetOf(player) + amount ==>
      (s.playerChips[player] < amount <==> r == Err(STACK_ERROR))
    ensures Ledger(s) && s.activePlayers[player] && 0 < amount && s.currentHighestBet <= s.BetOf(player) + amount
            && amount <= s.playerChips[player] ==>
      r == Ok(Paid(s, player, amount))
    ensures r.Ok? ==> r.value.WellFormed() && r.value.NumPlayers() == s.NumPlayers()
    ensures r.Ok? ==> forall q :: 0 <= q < s.NumPlayers() && q != player ==>
      r.value.playerChips[q] == s.playerChips[q] && r.value.currentRoundBets[q] == s.currentRoundBets[q]
      && r.value.activePlayers[q] == s.activePlayers[q]
  {
    if !s.activePlayers[player] then Err(FOLDED_ERROR)
    else
      PaymentFits(s, player, amount);
      var needed := WrappingSub(s.currentHighestBet, s.BetOf(player));
      if amount == 0 then
        if needed > 0 then Ok(s.(activePlayers := s.activePlayers[player := false]))
        else Ok(s.(currentRoundBets := s.currentRoundBets[player := Some(0)]))
      else if amount < needed then Err(BELOW_CALL_ERROR)
      else if s.playerChips[player] < amount then Err(STACK_ERROR)
      else
        var newBet := WrappingAdd(amount, s.BetOf(player));
        var paid := s.(playerChips := s.playerChips[player := s.playerChips[player] - amount],
                       currentRoundBets := s.currentRoundBets[player := Some(newBet)],
                       pot := WrappingAdd(s.pot, amount));
        if amount > needed then Ok(paid.(currentHighestBet := newBet)) else Ok(paid)
  }

  /** The ledger after `player` pays `amount` out of its stack: the seat's
      street bet and the pot grow by the amount, and the highest bet rises
      to the seat's bet when that exceeds it. */
  function Paid(s: BettingState, player: nat, amount: U64): (t: BettingState)
    requires Ledger(s) && player < s.NumPlayers() && amount <= s.playerChips[player]
    ensures t.WellFormed() && t.NumPlayers() == s.NumPlayers() && t.activePlayers == s.activePlayers
    ensures t.playerChips[player] + amount == s.playerChips[player]
    ensures t.currentRoundBets[player] == Some(s.BetOf(player) + amount)
    ensures t.pot == s.pot + amount
    ensures t.currentHighestBet >= s.currentHighestBet && t.currentHighestBet >= s.BetOf(player) + amount
    ensures t.currentHighestBet == s.currentHighestBet || t.currentHighestBet == s.BetOf(player) + amount
    ensures forall q :: 0 <= q < s.NumPlayers() && q != player ==>
      t.playerChips[q] == s.playerChips[q] && t.currentRoundBets[q] == s.currentRoundBets[q]
  {
    PaymentFits(s, player, amount);
    var bet := s.BetOf(player) + amount;
    s.(playerChips := s.playerChips[player := s.playerChips[player] - amount],
       currentRoundBets := s.currentRoundBets[player := Some(bet)],
       pot := s.pot + amount,
       currentHighestBet := if bet > s.currentHighestBet then bet else s.currentHighestBet)
  }

  /** Under the ledger invariant a payment the stack covers wraps neither
      the seat's street bet nor the pot. */
  lemma PaymentFits(s: BettingState, player: nat, amount: U64)
    requires s.WellFormed() && player < s.NumPlayers()
    ensures Ledger(s) && amount <= s.playerChips[player] ==>
      s.BetOf(player) + amount < U64_LIMIT && s.pot + amount < U64_LIMIT
  {
    if Ledger(s) && amount <= s.playerChips[player] {
      SumChipsBound(s.playerChips, player);
      SumBetsBound(s.currentRoundBets, player);
    }
  }

  lemma {:induction false} SumChipsUpdate(chips: seq<U64>, i: nat, v: U64)
    requires i < |chips|
    ensures SumChips(chips[i := v]) + chips[i] == SumChips(chips) + v
  {
    if i > 0 {
      assert chips[i := v][1..] == chips[1..][i - 1 := v];
      SumChipsUpdate(chips[1..], i - 1, v);
    }
  }

  lemma {:induction false} SumChipsBound(chips: seq<U64>, i: nat)
    requires i < |chips|
    ensures chips[i] <= SumChips(chips)
  {
    if i > 0 {
      SumChipsBound(chips[1..], i - 1);
    }
  }

  lemma {:induction false} SumBetsUpdate(bets: seq<Option<U64>>, i: nat, v: U64)
    requires i < |bets|
    ensures SumBets(bets[i := Some(v)]) + (if bets[i].Some? then bets[i].value else 0) == SumBets(bets) + v
  {
    if i > 0 {
      assert bets[i := Some(v)][1..] == bets[1..][i - 1 := Some(v)];
      SumBetsUpdate(bets[1..], i - 1, v);
    }
  }

  lemma {:induction false} SumBetsBound(bets: seq<Option<U64>>, i: nat)
    requires i < |bets|
    ensures (if bets[i].Some? then bets[i].value else 0) <= SumBets(bets)
  {
    if i > 0 {
      SumBetsBound(bets[1..], i - 1);
    }
  }

  /** Every successful action keeps the ledger invariant and conserves the
      chips: a payment only moves `amount` from the seat's stack to the pot,
      and none of the u64 operations wraps. */
  lemma ProcessActionKeepsLedger(s: BettingState, player: nat, amount: U64)
    requires Ledger(s) && player < s.NumPlayers()
    requires ProcessAction(s, player, amount).Ok?
    ensures var t := ProcessAction(s, player, amount).value;
      Ledger(t) && TotalChips(t) == TotalChips(s)
    ensures var t := ProcessAction(s, player, amount).value;
      amount > 0 ==>
        t.playerChips[player] + amount == s.playerChips[player]
        && t.pot == s.pot + amount
        && t.currentRoundBets[player] == Some(s.BetOf(player) + amount)
        && t.currentHighestBet == (if s.BetOf(player) + amount > s.currentHighestBet
                                   then s.BetOf(player) + amount else s.currentHighestBet)
        && t.activePlayers == s.activePlayers
    ensures var t := ProcessAction(s, player, amount).value;
      forall q :: 0 <= q < s.NumPlayers() && q != player ==>
        t.playerChips[q] == s.playerChips[q] && t.currentRoundBets[q] == s.currentRoundBets[q]
        && t.activePlayers[q] == s.activePlayers[q]
  {
    if amount > 0 {
      PayingActionKeepsLedger(s, player, amount);
    } else {
      ZeroActionKeepsLedger(s, player);
    }
  }

  /** The paying half of `ProcessActionKeepsLedger`. */
  lemma PayingActionKeepsLedger(s: BettingState, player: nat, amount: U64)
    requires Ledger(s) && player < s.NumPlayers() && amount > 0
    requires ProcessAction(s, player, amount).Ok?
    ensures var t := ProcessAction(s, player, amount).value;
      Ledger(t) && TotalChips(t) == TotalChips(s)
      && t.playerChips[player] + amount == s.playerChips[player]
      && t.pot == s.pot + amount
      && t.currentRoundBets[player] == Some(s.BetOf(player) + amount)
      && t.currentHighestBet == (if s.BetOf(player) + amount > s.currentHighestBet
                                 then s.BetOf(player) + amount else s.currentHighestBet)
      && t.activePlayers == s.activePlayers
  {
    var t := ProcessAction(s, player, amount).value;
    var prior := s.BetOf(player);
    SumChipsBound(s.playerChips, player);
    SumBetsBound(s.currentRoundBets, player);
    assert prior + amount < U64_LIMIT && s.pot + amount < U64_LIMIT;
    assert s.activePlayers[player];
    assert WrappingSub(s.currentHighestBet, prior) == s.currentHighestBet - prior;
    assert WrappingAdd(amount, prior) == prior + amount;
    assert WrappingAdd(s.pot, amount) == s.pot + amount;
    var high := if prior + amount > s.currentHighestBet then prior + amount else s.currentHighestBet;
    assert t == s.(playerChips := s.playerChips[player := s.playerChips[player] - amount],
                   currentRoundBets := s.currentRoundBets[player := Some(prior + amount)],
                   pot := s.pot + amount, currentHighestBet := high);
    PaymentKeepsLedger(s, player, amount, high);
  }

  /** The check-or-fold half of `ProcessActionKeepsLedger`. */
  lemma ZeroActionKeepsLedger(s: BettingState, player: nat)
    requires Ledger(s) && player < s.NumPlayers()
    requires ProcessAction(s, player, 0).Ok?
    ensures var t := ProcessAction(s, player, 0).value;
      Ledger(t) && TotalChips(t) == TotalChips(s)
  {
    var t := ProcessAction(s, player, 0).value;
    if s.BetOf(player) == s.currentHighestBet {
      SumBetsUpdate(s.currentRoundBets, player, 0);
      forall p | 0 <= p < t.NumPlayers() ensures t.BetOf(p) <= t.currentHighestBet {
        if p != player {
          assert t.BetOf(p) == s.BetOf(p);
        }
      }
    } else {
      assert forall p :: 0 <= p < t.NumPlayers() ==> t.BetOf(p) == s.BetOf(p);
    }
  }

  /** A payment of `amount` by `player` that fits the stack and reaches the
      highest bet moves the chips from the stack to the pot and its street
      bet, and raises the highest bet to `high`. */
  lemma PaymentKeepsLedger(s: BettingState, player: nat, amount: U64, high: U64)
    requires Ledger(s) && player < s.NumPlayers()
    requires 0 < amount <= s.playerChips[player]
    requires s.currentHighestBet <= high && s.BetOf(player) + amount <= high
    requires s.BetOf(player) + amount < U64_LIMIT && s.pot + amount < U64_LIMIT
    ensures var t := s.(playerChips := s.playerChips[player := s.playerChips[player] - amount],
                        currentRoundBets := s.currentRoundBets[player := Some(s.BetOf(player) + amount)],
                        pot := s.pot + amount, currentHighestBet := high);
      Ledger(t) && TotalChips(t) == TotalChips(s)
  {
    var prior := s.BetOf(player);
    var t := s.(playerChips := s.playerChips[player := s.playerChips[player] - amount],
                currentRoundBets := s.currentRoundBets[player := Some(prior + amount)],
                pot := s.pot + amount, currentHighestBet := high);
    SumChipsUpdate(s.playerChips, player, s.playerChips[player] - amount);
    SumBetsUpdate(s.currentRoundBets, player, prior + amount);
    assert SumBets(t.currentRoundBets) + prior == SumBets(s.currentRoundBets) + prior + amount;
    forall p | 0 <= p < t.NumPlayers() ensures t.BetOf(p) <= t.currentHighestBet {
      if p != player {
        assert t.BetOf(p) == s.BetOf(p);
      }
    }
  }

  /** The number of active seats. */
  function CountActive(active: seq<bool>): (c: nat)
    ensures c <= |active|
  {
    if |active| == 0 then 0 else (if active[0] then 1 else 0) + CountActive(active[1..])
  }

  /** Seat `p` has matched the highest bet on this street. */
  predicate HasMatched(s: BettingState, p: nat)
    requires s.WellFormed() && p < s.NumPlayers()
  {
    s.currentRoundBets[p].Some? && s.currentRoundBets[p].value >= s.currentHighestBet
  }

  /** The scan of `is_betting_round_complete` from seat `p` on: the first
      active seat without a bet, or with a bet below the highest, ends it. */
  function AllActiveMatchedFrom(s: BettingState, p: nat): (r: bool)
    requires s.WellFormed() && p <= s.NumPlayers()
    ensures r <==> forall q :: p <= q < s.NumPlayers() && s.activePlayers[q] ==> HasMatched(s, q)
    decreases s.NumPlayers() - p
  {
    if p == s.NumPlayers() then true
    else if !s.activePlayers[p] then AllActiveMatchedFrom(s, p + 1)
    else if s.currentRoundBets[p].None? then false
    else if s.currentRoundBets[p].value < s.currentHighestBet then false
    else AllActiveMatchedFrom(s, p + 1)
  }

  /** `is_betting_round_complete`: at most one seat is left, or every active
      seat has bet at least the highest bet this street. */
  function IsBettingRoundComplete(s: BettingState): (r: bool)
    requires s.WellFormed()
    ensures r <==> (CountActive(s.activePlayers) <= 1
                    || forall p :: 0 <= p < s.NumPlayers() && s.activePlayers[p] ==> HasMatched(s, p))
  {
    CountActive(s.activePlayers) <= 1 || AllActiveMatchedFrom(s, 0)
  }

  /** `next_street`: clears the street's bets and the highest bet; stacks,
      pot and active seats are kept. */
  function NextStreet(s: BettingState): (r: BettingState)
    requires s.WellFormed()
    ensures r.WellFormed() && r.NumPlayers() == s.NumPlayers()
    ensures r.playerChips == s.playerChips && r.pot == s.pot && r.activePlayers == s.activePlayers
    ensures forall p :: 0 <= p < r.NumPlayers() ==> r.currentRoundBets[p].None?
    ensures r.currentHighestBet == 0
  {
    s.(currentRoundBets := NoBets(|s.currentRoundBets|), currentHighestBet := 0)
  }

  /** A new street keeps the ledger and the chip total, and with two or
      more seats still in it is not complete until they act again. */
  lemma NextStreetKeepsLedger(s: BettingState)
    requires Ledger(s)
    ensures Ledger(NextStreet(s)) && TotalChips(NextStreet(s)) == TotalChips(s)
    ensures CountActive(s.activePlayers) >= 2 ==> !IsBettingRoundComplete(NextStreet(s))
  {
    SumBetsNone(|s.currentRoundBets|);
    if CountActive(s.activePlayers) >= 2 {
      var p := FirstActive(s.activePlayers);
      assert !HasMatched(NextStreet(s), p);
    }
  }

  /** The first active seat, when there is one. */
  function FirstActive(active: seq<bool>): (p: nat)
    requires CountActive(active) >= 1
    ensures p < |active| && active[p]
  {
    if active[0] then 0 else 1 + FirstActive(active[1..])
  }
}

=== FILE: poker_deck.dfy ===
/** The card deck (lib/crum_pkr/src/poker_deck.rs): 52 two-byte card names,
    their hash-to-curve points, decoding of a revealed point by linear
    search, pointwise masking and unmasking of card vectors, shuffling and
    dealing from the front. */
module PokerDeck {

  import opened Wrappers
  import opened Field
  import opened Pairing
  import opened BlsSign

  /** A card name: its rank byte followed by its suit byte. */
  type PokerCard = seq<Byte>

  /** The ASCII bytes of the ranks "23456789TJQKA", lowest first. */
  const RANKS: seq<Byte> := [0x32, 0x33, 0x34, 0x35, 0x36, 0x37, 0x38, 0x39, 0x54, 0x4A, 0x51, 0x4B, 0x41]

  /** The ASCII bytes of the suits "shdc". */
  const SUITS: seq<Byte> := [0x73, 0x68, 0x64, 0x63]

  const DECK_SIZE: nat := 52

  /** The reference deck: card names and, slot by slot, their curve points. */
  datatype Deck = Deck(pokerCards: seq<PokerCard>, cardsG1: seq<G1>)

  /** The name of the card in slot `i` of a rank-major deck. */
  function CardName(i: nat): (c: PokerCard)
    requires i < DECK_SIZE
    ensures |c| == 2
  {
    [RANKS[i / 4], SUITS[i % 4]]
  }

  /** The cards of one rank, one per suit in suit order. */
  function RankCards(rank: Byte): (r: seq<PokerCard>)
    ensures |r| == |SUITS|
    ensures forall k :: 0 <= k < |SUITS| ==> r[k] == [rank, SUITS[k]]
  {
    seq(|SUITS|, k requires 0 <= k < |SUITS| => [rank, SUITS[k]])
  }

  /** The nested rank-then-suit iteration that builds the card names. */
  function FlatMapRanks(ranks: seq<Byte>): seq<PokerCard>
  {
    if |ranks| == 0 then [] else RankCards(ranks[0]) + FlatMapRanks(ranks[1..])
  }

  /** The flat map puts rank `i / 4` and suit `i % 4` at position `i`. */
  lemma {:induction false} FlatMapRanksIndex(ranks: seq<Byte>)
    ensures |FlatMapRanks(ranks)| == 4 * |ranks|
    ensures forall i :: 0 <= i < 4 * |ranks| ==> FlatMapRanks(ranks)[i] == [ranks[i / 4], SUITS[i % 4]]
  {
    if |ranks| > 0 {
      FlatMapRanksIndex(ranks[1..]);
      var f := FlatMapRanks(ranks);
      forall i | 0 <= i < 4 * |ranks|
        ensures f[i] == [ranks[i / 4], SUITS[i % 4]]
      {
        if i >= 4 {
          assert f[i] == FlatMapRanks(ranks[1..])[i - 4];
          assert (i - 4) / 4 == i / 4 - 1 && (i - 4) % 4 == i % 4;
        }
      }
    }
  }

  /** The card names in the order the nested iteration produces them:
      every rank, and within a rank every suit. */
  function CardNames(): (names: seq<PokerCard>)
    ensures |names| == DECK_SIZE
    ensures forall i :: 0 <= i < DECK_SIZE ==> names[i] == CardName(i)
  {
    FlatMapRanksIndex(RANKS);
    FlatMapRanks(RANKS)
  }

  /** `PokerDeck::new`: 52 cards in rank-major order, each slot holding the
      hash of its card name. */
  function NewDeck(hash: HashToCurve): (d: Deck)
    ensures |d.pokerCards| == DECK_SIZE && |d.cardsG1| == DECK_SIZE
    ensures forall i :: 0 <= i < DECK_SIZE ==> d.pokerCards[i] == CardName(i)
    ensures forall i :: 0 <= i < DECK_SIZE ==> d.cardsG1[i] == hash(d.pokerCards[i])
  {
    var names := CardNames();
    Deck(names, HashNames(hash, names))
  }

  /** The hash point of every name, slot by slot. */
  function HashNames(hash: HashToCurve, names: seq<PokerCard>): (points: seq<G1>)
    ensures |points| == |names|
    ensures forall i :: 0 <= i < |names| ==> points[i] == hash(names[i])
  {
    seq(|names|, i requires 0 <= i < |names| => hash(names[i]))
  }

  /** The hash separates the 52 card names. */
  ghost predicate HashInjectiveOnNames(hash: HashToCurve) {
    forall a, b :: 0 <= a < b < DECK_SIZE ==> hash(CardName(a)) != hash(CardName(b))
  }

  /** `iter().position(..)` from index `from` on: the first slot holding `p`. */
  function Position(points: seq<G1>, p: G1, from: nat): (r: Option<nat>)
    requires from <= |points|
    ensures r.Some? ==> from <= r.value < |points| && points[r.value] == p
    ensures r.Some? ==> forall j :: from <= j < r.value ==> points[j] != p
    ensures r.None? <==> forall j :: from <= j < |points| ==> points[j] != p
    decreases |points| - from
  {
    if from == |points| then None
    else if points[from] == p then Some(from)
    else Position(points, p, from + 1)
  }

  /** `find_card`: the name at the first slot whose point equals `p`. */
  function FindCard(deck: Deck, p: G1): (r: Option<PokerCard>)
    ensures p !in deck.cardsG1 ==> r.None?
    ensures r.Some? ==> exists i :: (0 <= i < |deck.cardsG1| && i < |deck.pokerCards|
      && deck.cardsG1[i] == p && r.value == deck.pokerCards[i]
      && forall j :: 0 <= j < i ==> deck.cardsG1[j] != p)
    ensures forall i :: 0 <= i < |deck.cardsG1| && deck.cardsG1[i] == p
                        && (forall j :: 0 <= j < i ==> deck.cardsG1[j] != p) ==>
      r == if i < |deck.pokerCards| then Some(deck.pokerCards[i]) else None
  {
    match Position(deck.cardsG1, p, 0)
    case None => None
    case Some(i) => if i < |deck.pokerCards| then Some(deck.pokerCards[i]) else None
  }

  /** Decoding inverts encoding: the point of card `i` decodes to card `i`
      when the hash separates the card names. */
  lemma FindCardOfNewDeck(hash: HashToCurve, i: nat)
    requires HashInjectiveOnNames(hash)
    requires i < DECK_SIZE
    ensures FindCard(NewDeck(hash), hash(CardName(i))) == Some(CardName(i))
  {
    var d := NewDeck(hash);
    var p := hash(CardName(i));
    assert d.cardsG1[i] == p;
    forall j | 0 <= j < i
      ensures d.cardsG1[j] != p
    {
      assert d.cardsG1[j] == hash(CardName(j));
    }
    var pos := Position(d.cardsG1, p, 0);
    assert pos == Some(i);
  }

  /** `unmasked_cards`: decodes every point of a vector. */
  function DecodeCards(deck: Deck, cards: seq<G1>): (r: seq<Option<PokerCard>>)
    ensures |r| == |cards|
    ensures forall k :: 0 <= k < |cards| ==> r[k] == FindCard(deck, cards[k])
  {
    seq(|cards|, k requires 0 <= k < |cards| => FindCard(deck, cards[k]))
  }

  /** Whatever order the masking layers were applied in and whatever order
      they are removed in, the dealt point decodes to its card. */
  lemma DecodeAfterAllLayersPeeled(hash: HashToCurve, i: nat, keys: seq<Fr>, order: seq<Fr>)
    requires HashInjectiveOnNames(hash)
    requires i < DECK_SIZE
    requires AllUnits(keys) && AllUnits(order) && multiset(order) == multiset(keys)
    ensures DecodeCards(NewDeck(hash), [PeelLayers(MaskLayers(NewDeck(hash).cardsG1[i], keys), order)])
      == [Some(CardName(i))]
  {
    PeelInAnyOrder(NewDeck(hash).cardsG1[i], keys, order);
    FindCardOfNewDeck(hash, i);
  }

  /** `MaskedCards::mask`: every point masked by `sk`. */
  function MaskCards(cards: seq<G1>, sk: Fr): (r: seq<G1>)
    ensures |r| == |cards|
    ensures IsUnit(sk) ==> UnmaskCards(r, sk) == cards
  {
    var r := MaskAll(cards, sk);
    assert IsUnit(sk) ==> UnmaskCards(r, sk) == cards by {
      if IsUnit(sk) {
        assert forall k :: 0 <= k < |cards| ==> Unmask(r[k], sk) == cards[k];
      }
    }
    r
  }

  /** `UnmaskedCards::unmask`: every point multiplied by `sk`'s inverse. The
      source aborts ("Invalid signing key") when `sk` has none. */
  function UnmaskCards(cards: seq<G1>, sk: Fr): (r: seq<G1>)
    requires IsUnit(sk)
    ensures |r| == |cards|
    ensures MaskAll(r, sk) == cards
    ensures forall k :: 0 <= k < |cards| ==> r[k] == Unmask(cards[k], sk)
  {
    var r := seq(|cards|, k requires 0 <= k < |cards| => Unmask(cards[k], sk));
    assert forall k :: 0 <= k < |cards| ==> Mask(r[k], sk) == cards[k] by {
      forall k | 0 <= k < |cards| ensures Mask(r[k], sk) == cards[k] {
        MulCommutes(r[k], sk);
      }
    }
    r
  }

  /** Exchanges two slots. */
  function Swap(s: seq<G1>, i: nat, j: nat): (r: seq<G1>)
    requires i < |s| && j < |s|
    ensures |r| == |s| && multiset(r) == multiset(s)
    ensures r[i] == s[j] && r[j] == s[i]
    ensures forall k :: 0 <= k < |s| && k != i && k != j ==> r[k] == s[k]
  {
    s[i := s[j]][j := s[i]]
  }

  /** The Fisher-Yates passes of `SliceRandom::shuffle` for slots `i - 1`
      down to 1: slot `i - 1` is exchanged with slot `draws[i - 1] % i`. */
  function ShuffleFrom(s: seq<G1>, draws: seq<nat>, i: nat): (r: seq<G1>)
    requires i <= |s| && i <= |draws|
    ensures |r| == |s| && multiset(r) == multiset(s)
    decreases i
  {
    if i <= 1 then s else ShuffleFrom(Swap(s, i - 1, draws[i - 1] % i), draws, i - 1)
  }

  /** `MaskedCards::shuffle`, with the random draws as a parameter: it only
      permutes the points. */
  function Shuffle(cards: seq<G1>, draws: seq<nat>): (r: seq<G1>)
    requires |draws| == |cards|
    ensures |r| == |cards| && multiset(r) == multiset(cards)
  {
    ShuffleFrom(cards, draws, |cards|)
  }

  /** Masking and exchanging two slots commute. */
  lemma MaskSwap(s: seq<G1>, i: nat, j: nat, k: Fr)
    requires i < |s| && j < |s|
    ensures MaskAll(Swap(s, i, j), k) == Swap(MaskAll(s, k), i, j)
  {
    var a := MaskAll(Swap(s, i, j), k);
    var b := Swap(MaskAll(s, k), i, j);
    assert |a| == |b|;
    forall m | 0 <= m < |a|
      ensures a[m] == b[m]
    {
    }
  }

  lemma {:induction false} MaskShuffleFromCommute(s: seq<G1>, draws: seq<nat>, i: nat, k: Fr)
    requires i <= |s| && i <= |draws|
    ensures MaskAll(ShuffleFrom(s, draws, i), k) == ShuffleFrom(MaskAll(s, k), draws, i)
    decreases i
  {
    if i > 1 {
      var j := draws[i - 1] % i;
      MaskSwap(s, i - 1, j, k);
      MaskShuffleFromCommute(Swap(s, i - 1, j), draws, i - 1, k);
    }
  }

  /** Masking and shuffling commute: a player may mask then shuffle, or
      shuffle then mask, with the same draws. */
  lemma MaskShuffleCommute(cards: seq<G1>, draws: seq<nat>, k: Fr)
    requires |draws| == |cards|
    ensures MaskAll(Shuffle(cards, draws), k) == Shuffle(MaskAll(cards, k), draws)
  {
    MaskShuffleFromCommute(cards, draws, |cards|, k);
  }

  /** `deal(count)`: drains the first `count` points. The source panics when
      fewer are left. */
  function Deal(cards: seq<G1>, count: nat): (r: (seq<G1>, seq<G1>))
    requires count <= |cards|
    ensures |r.0| == count
    ensures r.0 + r.1 == cards
  {
    (cards[..count], cards[count..])
  }
}

=== FILE: poker_game.dfy ===
/** The older hand machine (lib/crum_pkr/src/poker_game.rs), which the
    end-to-end scenario of lib/crum_pkr/src/tests.rs drives. It shares the
    phase codes and the seat and round counters of the current machine, but
    has no betting ledger, no shuffle or unmasking log and no audit: every
    `submit_*` only checks the phase and the turn, stores what it is given,
    and moves on. */
module PokerGame {

  import opened Wrappers
  import opened Pairing
  import opened BlsSign
  import opened PokerState
  import PokerDeck
  import PokerHand
  import PokerTable

  /** The number of betting rounds of Texas hold'em. */
  const HOLDEM_ROUNDS: nat := 4

  const UNWRAP_PANIC := "called `Result::unwrap()` on an `Err` value"

  /** The older decoded phase: no dealer flag on the shuffle, and no cheated phase. */
  datatype Phase =
    | Shuffle(player: nat)
    | SmallBlind(player: nat)
    | BigBlind(player: nat)
    | Bet(round: nat, player: nat)
    | UnmaskHoleCards(player: nat)
    | UnmaskCommunityCards(round: nat, player: nat)
    | UnmaskShowdown(player: nat)
    | SubmitPublicKey(player: nat)
    | Finished
    | Invalid

  /** The phase code of an older decoded phase; `Invalid` has none. */
  function PhaseCode(p: Phase): Option<Byte> {
    match p
    case Shuffle(_) => Some(SHUFFLE)
    case SmallBlind(_) => Some(SMALL_BLIND)
    case BigBlind(_) => Some(BIG_BLIND)
    case Bet(_, _) => Some(BET)
    case UnmaskHoleCards(_) => Some(UNMASK_HOLE_CARDS)
    case UnmaskCommunityCards(_, _) => Some(UNMASK_COMMUNITY_CARDS)
    case UnmaskShowdown(_) => Some(UNMASK_SHOWDOWN)
    case SubmitPublicKey(_) => Some(SUBMIT_PUBLIC_KEY)
    case Finished => Some(FINISHED)
    case Invalid => None
  }

  /** The older `to_enum`: codes 0 to 8 decode to the phase with that code,
      carrying the seat to act (and the round for the betting and community
      phases); any other code is invalid. */
  function ToEnum(s: HandState): (r: Phase)
    ensures r.Invalid? <==> s.currentState > FINISHED
    ensures s.currentState <= FINISHED ==> PhaseCode(r) == Some(s.currentState)
    ensures !r.Invalid? && !r.Finished? ==> r.player == s.currentPlayer
    ensures r.Bet? || r.UnmaskCommunityCards? ==> r.round == s.currentRound
  {
    var p := s.currentPlayer;
    if s.currentState == SHUFFLE then Phase.Shuffle(p)
    else if s.currentState == SMALL_BLIND then Phase.SmallBlind(p)
    else if s.currentState == BIG_BLIND then Phase.BigBlind(p)
    else if s.currentState == BET then Phase.Bet(s.currentRound, p)
    else if s.currentState == UNMASK_HOLE_CARDS then Phase.UnmaskHoleCards(p)
    else if s.currentState == UNMASK_COMMUNITY_CARDS then Phase.UnmaskCommunityCards(s.currentRound, p)
    else if s.currentState == UNMASK_SHOWDOWN then Phase.UnmaskShowdown(p)
    else if s.currentState == SUBMIT_PUBLIC_KEY then Phase.SubmitPublicKey(p)
    else if s.currentState == FINISHED then Phase.Finished
    else Phase.Invalid
  }

  /** Both decodings agree on every code but the cheated one, which only the
      current machine knows and the older one reads as invalid. */
  lemma DecodingsAgree(s: HandState)
    ensures s.currentState != CHEATED ==> PhaseCode(ToEnum(s)) == PokerState.PhaseCode(PokerState.ToEnum(s))
    ensures s.currentState == CHEATED ==> ToEnum(s) == Phase.Invalid && PokerState.ToEnum(s) == PokerState.Cheated(s.currentPlayer)
  {
  }

  /** The older hand: the reference deck, the current deck, the hole cards
      of every seat, the revealed keys, the cards of every round and the
      counters. */
  datatype Hand = Hand(
    pokerDeck: PokerDeck.Deck,
    shuffledDeck: seq<G1>,
    playerCards: seq<seq<G1>>,
    playerKeys: seq<Option<G2>>,
    communityCards: seq<seq<G1>>,
    currentState: HandState)

  /** The hand after a call, and what the call returned. */
  datatype Step = Step(hand: Hand, result: Result<()>)

  /** The shape every hand built by `new` has and every call keeps. */
  predicate Valid(h: Hand) {
    var s := h.currentState;
    0 < s.numPlayers && s.dealerButton < s.numPlayers && s.currentPlayer < s.numPlayers
    && s.currentRound <= s.maxRounds
    && |h.playerCards| == s.numPlayers && |h.playerKeys| == s.numPlayers
    && |h.communityCards| == s.maxRounds
  }

  predicate InPhase(h: Hand, code: Byte) {
    h.currentState.currentState == code
  }

  predicate Acting(h: Hand, code: Byte, player: nat) {
    InPhase(h, code) && player == h.currentState.currentPlayer
  }

  /** The older `new`: the dealer shuffles first in round 0, from the
      reference deck, with nothing dealt or revealed. */
  function New(hash: HashToCurve, numPlayers: nat, maxRounds: nat, dealerButton: nat): (h: Hand)
    ensures 0 < numPlayers && dealerButton < numPlayers ==> Valid(h)
    ensures ToEnum(h.currentState) == Phase.Shuffle(dealerButton) && h.currentState.currentRound == 0
    ensures h.currentState.numPlayers == numPlayers && h.currentState.maxRounds == maxRounds
    ensures h.currentState.dealerButton == dealerButton
    ensures h.pokerDeck == PokerDeck.NewDeck(hash) && h.shuffledDeck == h.pokerDeck.cardsG1
    ensures |h.playerKeys| == numPlayers && forall i :: 0 <= i < numPlayers ==> h.playerKeys[i].None?
    ensures |h.communityCards| == maxRounds && forall k :: 0 <= k < maxRounds ==> h.communityCards[k] == []
  {
    var deck := PokerDeck.NewDeck(hash);
    Hand(deck, deck.cardsG1, PokerHand.EmptyPiles(numPlayers), PokerHand.NoKeys(numPlayers),
         PokerHand.EmptyPiles(maxRounds), PokerState.New(numPlayers, maxRounds, dealerButton))
  }

  /** The older `PokerTable::start`: a fresh hand over the joined seats,
      whatever hand was there before. */
  function Start(hash: HashToCurve, t: PokerTable.Table<Hand>): (r: PokerTable.Table<Hand>)
    ensures r == t.(hand := r.hand) && r.hand.Some?
    ensures var h := r.hand.value;
      ToEnum(h.currentState) == Phase.Shuffle(t.dealerButton) && h.currentState.currentRound == 0
      && h.currentState.dealerButton == t.dealerButton && h.currentState.numPlayers == |t.players| && h.currentState.maxRounds == t.maxRounds
      && (0 < |t.players| && t.dealerButton < |t.players| ==> Valid(h))
  {
    t.(hand := Some(New(hash, |t.players|, t.maxRounds, t.dealerButton)))
  }

  /** Unlike the current table, the older one throws away a hand in
      progress: starting again mid-hand goes back to the first shuffle at
      the dealer, with the reference deck, no revealed key and no cards on
      the board. */
  lemma StartDiscardsHandInProgress(hash: HashToCurve, t: PokerTable.Table<Hand>)
    requires t.hand.Some? && !InPhase(t.hand.value, FINISHED)
    ensures var h := Start(hash, t).hand.value;
      InPhase(h, SHUFFLE) && h.currentState.currentPlayer == t.dealerButton && h.currentState.currentRound == 0
      && h.shuffledDeck == PokerDeck.NewDeck(hash).cardsG1
      && (forall i :: 0 <= i < |h.playerKeys| ==> h.playerKeys[i].None?)
      && forall k :: 0 <= k < |h.communityCards| ==> h.communityCards[k] == []
  {
  }

  /** The older `get_community_cards`: round `r` reads slot `r - 1`, computed
      on a 64-bit `usize` that wraps, so round 0 asks for a slot that no
      vector has. */
  function GetCommunityCards(h: Hand, round: U64): (r: Option<seq<G1>>)
    requires |h.communityCards| < U64_LIMIT
    ensures r.Some? <==> 0 < round <= |h.communityCards|
    ensures r.Some? ==> r.value == h.communityCards[round - 1]
  {
    var slot := WrappingSub(round, 1);
    if slot < |h.communityCards| then Some(h.communityCards[slot]) else None
  }

  /** The older `submit_shuffled_deck`: the submitted deck becomes the
      current one (nothing is logged); after a full rotation the blinds
      begin. */
  function SubmitShuffledDeck(h: Hand, player: nat, deck: seq<G1>): (r: Step)
    requires Valid(h)
    ensures Valid(r.hand)
    ensures !InPhase(h, SHUFFLE) ==> r == Step(h, Err(PokerHand.NOT_SHUFFLE_STATE))
    ensures InPhase(h, SHUFFLE) && !Acting(h, SHUFFLE, player) ==> r == Step(h, Err(PokerHand.NOT_SHUFFLE_TURN))
    ensures r.result.Ok? <==> Acting(h, SHUFFLE, player)
    ensures r.result.Ok? ==>
      (var s := h.currentState;
       var next := SeatAfter(player, 1, s.numPlayers);
       r.hand == h.(shuffledDeck := deck,
                    currentState := s.(currentPlayer := next,
                                       currentState := if next == s.dealerButton then SMALL_BLIND else SHUFFLE)))
  {
    match ToEnum(h.currentState)
    case Shuffle(p) =>
      if p != player then Step(h, Err(PokerHand.NOT_SHUFFLE_TURN))
      else
        var (s, wrapped) := NextPlayer(h.currentState);
        Step(h.(shuffledDeck := deck, currentState := if wrapped then s.(currentState := SMALL_BLIND) else s), Ok(()))
    case _ => Step(h, Err(PokerHand.NOT_SHUFFLE_STATE))
  }

  /** The older `submit_small_blind`: the seat after the small blind posts
      the big blind. */
  function SubmitSmallBlind(h: Hand, player: nat): (r: Step)
    requires Valid(h)
    ensures Valid(r.hand)
    ensures !InPhase(h, SMALL_BLIND) ==> r == Step(h, Err(PokerHand.NOT_SMALL_BLIND_STATE))
    ensures InPhase(h, SMALL_BLIND) && !Acting(h, SMALL_BLIND, player) ==>
      r == Step(h, Err(PokerHand.NOT_SMALL_BLIND_TURN))
    ensures r.result.Ok? <==> Acting(h, SMALL_BLIND, player)
    ensures r.result.Ok? ==>
      r.hand == h.(currentState := h.currentState.(currentPlayer := SeatAfter(player, 1, h.currentState.numPlayers),
                                                   currentState := BIG_BLIND))
  {
    match ToEnum(h.currentState)
    case SmallBlind(p) =>
      if p != player then Step(h, Err(PokerHand.NOT_SMALL_BLIND_TURN))
      else Step(h.(currentState := NextPlayer(h.currentState).0.(currentState := BIG_BLIND)), Ok(()))
    case _ => Step(h, Err(PokerHand.NOT_SMALL_BLIND_STATE))
  }

  /** The older `submit_big_blind`: two cards are dealt to every seat from
      the front of the deck, and unmasking starts at the seat after the big
      blind (not at the dealer). Too short a deck panics. */
  function SubmitBigBlind(h: Hand, player: nat): (r: Outcome<Step>)
    requires Valid(h)
    ensures r.Done? ==> Valid(r.value.hand)
    ensures !InPhase(h, BIG_BLIND) ==> r == Done(Step(h, Err(PokerHand.NOT_BIG_BLIND_STATE)))
    ensures InPhase(h, BIG_BLIND) && !Acting(h, BIG_BLIND, player) ==>
      r == Done(Step(h, Err(PokerHand.NOT_BIG_BLIND_TURN)))
    ensures Acting(h, BIG_BLIND, player) ==>
      (var n := h.currentState.numPlayers;
       (r.Panic? <==> |h.shuffledDeck| < 2 * n)
       && (r.Done? ==>
             (r.value.result.Ok?
              && r.value.hand == h.(playerCards := r.value.hand.playerCards, shuffledDeck := h.shuffledDeck[2 * n..],
                                    currentState := h.currentState.(currentPlayer := SeatAfter(player, 1, n),
                                                                    currentState := UNMASK_HOLE_CARDS))
              && forall i :: 0 <= i < n ==> r.value.hand.playerCards[i] == h.shuffledDeck[2 * i..2 * i + 2])))
  {
    match ToEnum(h.currentState)
    case BigBlind(p) =>
      if p != player then Done(Step(h, Err(PokerHand.NOT_BIG_BLIND_TURN)))
      else
        var n := h.currentState.numPlayers;
        if |h.shuffledDeck| < PokerHand.HOLE_CARDS * n then Panic(SLICE_PANIC)
        else
          var (cards, rest) := PokerHand.DealHoleCards(h.shuffledDeck, n);
          Done(Step(h.(playerCards := cards, shuffledDeck := rest,
                       currentState := NextPlayer(h.currentState).0.(currentState := UNMASK_HOLE_CARDS)), Ok(())))
    case _ => Done(Step(h, Err(PokerHand.NOT_BIG_BLIND_STATE)))
  }

  /** The turn passes to the next seat; once it is back at the dealer the
      phase becomes `wrapCode`, otherwise it stays. */
  function PassTurn(h: Hand, wrapCode: Byte): (r: Hand)
    requires Valid(h)
    ensures Valid(r)
    ensures var s := h.currentState;
      var next := SeatAfter(s.currentPlayer, 1, s.numPlayers);
      r == h.(currentState := s.(currentPlayer := next,
                                 currentState := if next == s.dealerButton then wrapCode else s.currentState))
  {
    var (s, wrapped) := NextPlayer(h.currentState);
    h.(currentState := if wrapped then s.(currentState := wrapCode) else s)
  }

  /** The older `submit_player_cards`: the hole cards of every seat, as the
      seat to act leaves them, replace the current ones; after a full
      rotation betting begins. */
  function SubmitPlayerCards(h: Hand, player: nat, cards: seq<seq<G1>>): (r: Step)
    requires Valid(h)
    ensures Valid(r.hand)
    ensures !InPhase(h, UNMASK_HOLE_CARDS) ==> r == Step(h, Err(PokerHand.NOT_HOLE_CARDS_STATE))
    ensures InPhase(h, UNMASK_HOLE_CARDS) && !Acting(h, UNMASK_HOLE_CARDS, player) ==>
      r == Step(h, Err(PokerHand.NOT_HOLE_CARDS_TURN))
    ensures Acting(h, UNMASK_HOLE_CARDS, player) && |cards| != |h.playerCards| ==>
      r == Step(h, Err(PokerHand.WRONG_CARDS_LENGTH))
    ensures r.result.Ok? <==> Acting(h, UNMASK_HOLE_CARDS, player) && |cards| == |h.playerCards|
    ensures r.result.Ok? ==> r.hand == PassTurn(h.(playerCards := cards), BET)
  {
    match ToEnum(h.currentState)
    case UnmaskHoleCards(p) =>
      if p != player then Step(h, Err(PokerHand.NOT_HOLE_CARDS_TURN))
      else if |cards| != |h.playerCards| then Step(h, Err(PokerHand.WRONG_CARDS_LENGTH))
      else Step(PassTurn(h.(playerCards := cards), BET), Ok(()))
    case _ => Step(h, Err(PokerHand.NOT_HOLE_CARDS_STATE))
  }

  /** The older `submit_player_cards_showdown`: as for the hole cards, but
      after a full rotation the keys are collected. */
  function SubmitPlayerCardsShowdown(h: Hand, player: nat, cards: seq<seq<G1>>): (r: Step)
    requires Valid(h)
    ensures Valid(r.hand)
    ensures !InPhase(h, UNMASK_SHOWDOWN) ==> r == Step(h, Err(PokerHand.NOT_HOLE_CARDS_STATE))
    ensures InPhase(h, UNMASK_SHOWDOWN) && !Acting(h, UNMASK_SHOWDOWN, player) ==>
      r == Step(h, Err(PokerHand.NOT_HOLE_CARDS_TURN))
    ensures Acting(h, UNMASK_SHOWDOWN, player) && |cards| != |h.playerCards| ==>
      r == Step(h, Err(PokerHand.WRONG_CARDS_LENGTH))
    ensures r.result.Ok? <==> Acting(h, UNMASK_SHOWDOWN, player) && |cards| == |h.playerCards|
    ensures r.result.Ok? ==> r.hand == PassTurn(h.(playerCards := cards), SUBMIT_PUBLIC_KEY)
  {
    match ToEnum(h.currentState)
    case UnmaskShowdown(p) =>
      if p != player then Step(h, Err(PokerHand.NOT_HOLE_CARDS_TURN))
      else if |cards| != |h.playerCards| then Step(h, Err(PokerHand.WRONG_CARDS_LENGTH))
      else Step(PassTurn(h.(playerCards := cards), SUBMIT_PUBLIC_KEY), Ok(()))
    case _ => Step(h, Err(PokerHand.NOT_HOLE_CARDS_STATE))
  }

  /** The older `submit_community_cards`: the cards of the named round, as
      the seat to act leaves them, replace slot `round - 1`; after a full
      rotation betting resumes. A round with no slot panics. */
  function SubmitCommunityCards(h: Hand, player: nat, round: nat, cards: seq<G1>): (r: Outcome<Step>)
    requires Valid(h)
    ensures r.Done? ==> Valid(r.value.hand)
    ensures !InPhase(h, UNMASK_COMMUNITY_CARDS) ==> r == Done(Step(h, Err(PokerHand.NOT_BET_STATE)))
    ensures InPhase(h, UNMASK_COMMUNITY_CARDS) && round != h.currentState.currentRound ==>
      r == Done(Step(h, Err(PokerHand.NOT_THIS_ROUND)))
    ensures (InPhase(h, UNMASK_COMMUNITY_CARDS) && round == h.currentState.currentRound
             && !Acting(h, UNMASK_COMMUNITY_CARDS, player)) ==>
      r == Done(Step(h, Err(PokerHand.NOT_BET_TURN)))
    ensures (Acting(h, UNMASK_COMMUNITY_CARDS, player) && round == h.currentState.currentRound) ==>
      (r.Panic? <==> round == 0 || round > |h.communityCards|)
    ensures (Acting(h, UNMASK_COMMUNITY_CARDS, player) && round == h.currentState.currentRound
             && 0 < round <= |h.communityCards|) ==>
      r == Done(Step(PassTurn(h.(communityCards := h.communityCards[round - 1 := cards]), BET), Ok(())))
  {
    match ToEnum(h.currentState)
    case UnmaskCommunityCards(rd, p) =>
      if rd != round then Done(Step(h, Err(PokerHand.NOT_THIS_ROUND)))
      else if p != player then Done(Step(h, Err(PokerHand.NOT_BET_TURN)))
      else if round == 0 || round - 1 >= |h.communityCards| then Panic(PokerHand.NO_ROUND_CARDS)
      else Done(Step(PassTurn(h.(communityCards := h.communityCards[round - 1 := cards]), BET), Ok(())))
    case _ => Done(Step(h, Err(PokerHand.NOT_BET_STATE)))
  }

  /** The older `submit_public_key`: the seat's key is stored; after a full
      rotation the hand is finished, with no check of any kind. */
  function SubmitPublicKey(h: Hand, player: nat, pk: G2): (r: Step)
    requires Valid(h)
    ensures Valid(r.hand)
    ensures !InPhase(h, SUBMIT_PUBLIC_KEY) ==> r == Step(h, Err(PokerHand.NOT_PUBLIC_KEY_STATE))
    ensures InPhase(h, SUBMIT_PUBLIC_KEY) && !Acting(h, SUBMIT_PUBLIC_KEY, player) ==>
      r == Step(h, Err(PokerHand.NOT_PUBLIC_KEY_TURN))
    ensures r.result.Ok? <==> Acting(h, SUBMIT_PUBLIC_KEY, player)
    ensures r.result.Ok? ==>
      |r.hand.playerKeys| == |h.playerKeys| && r.hand.playerKeys[player] == Some(pk)
      && (forall q :: 0 <= q < |h.playerKeys| && q != player ==> r.hand.playerKeys[q] == h.playerKeys[q])
      && r.hand == PassTurn(h.(playerKeys := r.hand.playerKeys), FINISHED)
  {
    match ToEnum(h.currentState)
    case SubmitPublicKey(p) =>
      if p != player then Step(h, Err(PokerHand.NOT_PUBLIC_KEY_TURN))
      else Step(PassTurn(h.(playerKeys := h.playerKeys[player := Some(pk)]), FINISHED), Ok(()))
    case _ => Step(h, Err(PokerHand.NOT_PUBLIC_KEY_STATE))
  }

  /** The older `submit_bet`, which checks no amount: the turn passes on,
      and after a full rotation the round advances. Past the last round
      comes the showdown; otherwise the next street's cards are dealt (three
      after the preflop round, one later) into the slot of the round just
      played and unmasking starts. Advancing past the round limit is an
      error that keeps the turn move; running out of cards panics. */
  function SubmitBet(h: Hand, player: nat): (r: Outcome<Step>)
    requires Valid(h)
    ensures r.Done? ==> Valid(r.value.hand)
    ensures !InPhase(h, BET) ==> r == Done(Step(h, Err(PokerHand.NOT_BET_STATE)))
    ensures InPhase(h, BET) && !Acting(h, BET, player) ==> r == Done(Step(h, Err(PokerHand.NOT_BET_TURN)))
    ensures Acting(h, BET, player) ==>
      (var s := h.currentState;
       var next := SeatAfter(player, 1, s.numPlayers);
       var round := s.currentRound;
       var count := if round == PREFLOP then 3 else 1;
       var moved := s.(currentPlayer := next);
       if next != s.dealerButton then r == Done(Step(h.(currentState := moved), Ok(())))
       else if round >= s.maxRounds then r == Done(Step(h.(currentState := moved), Err(NO_NEXT_ROUND_ERROR)))
       else if round + 1 == s.maxRounds then
         r == Done(Step(h.(currentState := moved.(currentRound := round + 1, currentState := UNMASK_SHOWDOWN)), Ok(())))
       else
         (r.Panic? <==> |h.shuffledDeck| < count)
         && (r.Done? ==>
               r.value == Step(h.(communityCards := h.communityCards[round := h.shuffledDeck[..count]],
                                  shuffledDeck := h.shuffledDeck[count..],
                                  currentState := moved.(currentRound := round + 1,
                                                         currentState := UNMASK_COMMUNITY_CARDS)), Ok(()))))
  {
    match ToEnum(h.currentState)
    case Bet(rd, p) =>
      if p != player then Done(Step(h, Err(PokerHand.NOT_BET_TURN)))
      else
        var (s, wrapped) := NextPlayer(h.currentState);
        if !wrapped then Done(Step(h.(currentState := s), Ok(())))
        else
          (match NextRound(s)
           case Err(e) => Done(Step(h.(currentState := s), Err(e)))
           case Ok((s2, last)) =>
             if last then Done(Step(h.(currentState := s2.(currentState := UNMASK_SHOWDOWN)), Ok(())))
             else
               var count := if rd == PREFLOP then 3 else 1;
               if |h.shuffledDeck| < count then Panic(SLICE_PANIC)
               else
                 var (dealt, rest) := PokerDeck.Deal(h.shuffledDeck, count);
                 Done(Step(h.(communityCards := h.communityCards[rd := dealt], shuffledDeck := rest,
                              currentState := s2.(currentState := UNMASK_COMMUNITY_CARDS)), Ok(()))))
    case _ => Done(Step(h, Err(PokerHand.NOT_BET_STATE)))
  }

  /** `k` turn passes in a phase that ends with a full rotation. */
  function PassTurns(h: Hand, wrapCode: Byte, k: nat): (r: Hand)
    requires Valid(h)
    ensures Valid(r)
    decreases k
  {
    if k == 0 then h else PassTurn(PassTurns(h, wrapCode, k - 1), wrapCode)
  }

  /** A phase whose turn starts at the dealer lasts exactly one rotation:
      after `k` passes the seat `k` places after the dealer acts, and the
      phase has moved on exactly when `k` is the seat count. */
  lemma {:induction false} RotationFromDealer(h: Hand, wrapCode: Byte, k: nat)
    requires Valid(h) && IsCurrentDealer(h.currentState) && h.currentState.currentState != wrapCode
    requires k <= h.currentState.numPlayers
    ensures var s := h.currentState;
      var r := PassTurns(h, wrapCode, k);
      r == h.(currentState := s.(currentPlayer := SeatAfter(s.dealerButton, k, s.numPlayers),
                                 currentState := if k == s.numPlayers then wrapCode else s.currentState))
    decreases k
  {
    if k > 0 {
      RotationFromDealer(h, wrapCode, k - 1);
      SeatAfterStep(h.currentState.dealerButton, k - 1, h.currentState.numPlayers);
    }
  }

  /** With three seats the older big blind hands the first unmasking turn
      to the seat after the big blind, so a single submission ends the
      unmasking of hole cards and betting begins: the dealer and the big
      blind never remove their layers from the other seats' cards. */
  lemma HoleUnmaskSkipsSeats(h: Hand, cards: seq<seq<G1>>)
    requires Valid(h) && h.currentState == HandState(0, 3, HOLDEM_ROUNDS, 1, 0, BIG_BLIND)
    requires |h.shuffledDeck| >= 6 && |cards| == 3
    ensures var bb := SubmitBigBlind(h, 1);
      bb.Done? && bb.value.result.Ok? && ToEnum(bb.value.hand.currentState) == Phase.UnmaskHoleCards(2)
      && SubmitPlayerCards(bb.value.hand, 2, cards).result.Ok?
      && ToEnum(SubmitPlayerCards(bb.value.hand, 2, cards).hand.currentState) == Phase.Bet(0, 0)
  {
  }

  /** One call of the scenario, with its arguments. */
  datatype Move =
    | ShuffleDeck(player: nat, deck: seq<G1>)
    | PostSmallBlind(player: nat)
    | PostBigBlind(player: nat)
    | UnmaskHole(player: nat, cards: seq<seq<G1>>)
    | PlaceBet(player: nat)
    | UnmaskCommunity(player: nat, round: nat, roundCards: seq<G1>)
    | UnmaskAtShowdown(player: nat, cards: seq<seq<G1>>)
    | RevealKey(player: nat, pk: G2)

  /** The call a move stands for. Every call keeps the hand valid. */
  function Apply(h: Hand, m: Move): (r: Outcome<Step>)
    requires Valid(h)
    ensures r.Done? ==> Valid(r.value.hand)
  {
    match m
    case ShuffleDeck(p, deck) => Done(SubmitShuffledDeck(h, p, deck))
    case PostSmallBlind(p) => Done(SubmitSmallBlind(h, p))
    case PostBigBlind(p) => SubmitBigBlind(h, p)
    case UnmaskHole(p, cards) => Done(SubmitPlayerCards(h, p, cards))
    case PlaceBet(p) => SubmitBet(h, p)
    case UnmaskCommunity(p, round, cards) => SubmitCommunityCards(h, p, round, cards)
    case UnmaskAtShowdown(p, cards) => Done(SubmitPlayerCardsShowdown(h, p, cards))
    case RevealKey(p, pk) => Done(SubmitPublicKey(h, p, pk))
  }

  /** One move on a hand that keeps the invariant. Runs start from such a
      hand and every move keeps it, so the panic is never reached. */
  function Play(h: Hand, m: Move): (r: Outcome<Step>)
    ensures Valid(h) ==> r == Apply(h, m)
  {
    if Valid(h) then Apply(h, m) else Panic(UNWRAP_PANIC)
  }

  /** Plays the moves in order with `play`, each result unwrapped: the phase
      decoded before each move, and the hand at the end. An error aborts
      the run as the unwrap does. */
  function RunWith(play: (Hand, Move) -> Outcome<Step>, h: Hand, moves: seq<Move>): (r: Outcome<(Hand, seq<Phase>)>)
    ensures r.Done? ==> |r.value.1| == |moves|
    decreases |moves|
  {
    if |moves| == 0 then Done((h, []))
    else
      match play(h, moves[0])
      case Panic(e) => Panic(e)
      case Done(Step(_, Err(_))) => Panic(UNWRAP_PANIC)
      case Done(Step(h1, Ok(_))) =>
        (match RunWith(play, h1, moves[1..])
         case Panic(e) => Panic(e)
         case Done((h2, phases)) => Done((h2, [ToEnum(h.currentState)] + phases)))
  }

  /** The older game's moves played in order from a valid hand. */
  function Run(h: Hand, moves: seq<Move>): (r: Outcome<(Hand, seq<Phase>)>)
    requires Valid(h)
    ensures r.Done? ==> |r.value.1| == |moves|
  {
    RunWith(Play, h, moves)
  }

  /** The moves take the hand from `h` to `h2` without error, and the
      phases decoded before them are `phases`. */
  predicate ReachesWith(play: (Hand, Move) -> Outcome<Step>, h: Hand, moves: seq<Move>, h2: Hand, phases: seq<Phase>) {
    var r := RunWith(play, h, moves);
    r.Done? && r.value.0 == h2 && r.value.1 == phases
  }

  predicate Reaches(h: Hand, moves: seq<Move>, h2: Hand, phases: seq<Phase>)
    requires Valid(h)
  {
    ReachesWith(Play, h, moves, h2, phases)
  }

  /** A first move that succeeds, then the rest. */
  lemma RunStep(h: Hand, moves: seq<Move>, h1: Hand, h2: Hand, phases: seq<Phase>)
    requires Valid(h) && Valid(h1) && |moves| > 0
    requires Apply(h, moves[0]) == Done(Step(h1, Ok(())))
    requires Reaches(h1, moves[1..], h2, phases)
    ensures Reaches(h, moves, h2, [ToEnum(h.currentState)] + phases)
  {
    assert Play(h, moves[0]) == Done(Step(h1, Ok(())));
  }

  /** Running two lists of moves one after the other, both without error,
      is running their concatenation: the phases seen add up. */
  lemma {:induction false} AppendWith(play: (Hand, Move) -> Outcome<Step>, h: Hand, a: seq<Move>, h1: Hand,
                                      pa: seq<Phase>, b: seq<Move>, h2: Hand, pb: seq<Phase>)
    requires ReachesWith(play, h, a, h1, pa) && ReachesWith(play, h1, b, h2, pb)
    ensures ReachesWith(play, h, a + b, h2, pa + pb)
    decreases |a|
  {
    if |a| == 0 {
      assert a + b == b;
    } else {
      var step := play(h, a[0]).value.hand;
      AppendWith(play, step, a[1..], h1, pa[1..], b, h2, pb);
      assert (a + b)[0] == a[0] && (a + b)[1..] == a[1..] + b;
      assert [ToEnum(h.currentState)] + (pa[1..] + pb) == pa + pb;
    }
  }

  lemma RunAppend(h: Hand, a: seq<Move>, h1: Hand, pa: seq<Phase>, b: seq<Move>, h2: Hand, pb: seq<Phase>)
    requires Valid(h) && Valid(h1)
    requires Reaches(h, a, h1, pa) && Reaches(h1, b, h2, pb)
    ensures Reaches(h, a + b, h2, pa + pb)
  {
    AppendWith(Play, h, a, h1, pa, b, h2, pb);
  }

  /** The counters of a two-seat hand with the button at seat 0. */
  function TwoSeats(player: nat, round: nat, code: Byte): HandState {
    HandState(0, 2, HOLDEM_ROUNDS, player, round, code)
  }

  /** Both seats shuffle, seat 0 posts the small blind and seat 1 the big
      blind, and two cards are dealt to each seat from the last deck. */
  lemma ShuffleAndBlinds(h: Hand, d0: seq<G1>, d1: seq<G1>)
    requires Valid(h) && h.currentState == TwoSeats(0, 0, SHUFFLE)
    requires |d1| >= 4
    ensures Reaches(h, [ShuffleDeck(0, d0), ShuffleDeck(1, d1), PostSmallBlind(0), PostBigBlind(1)],
                    h.(shuffledDeck := d1[4..], playerCards := [d1[0..2], d1[2..4]],
                       currentState := TwoSeats(0, 0, UNMASK_HOLE_CARDS)),
                    [Phase.Shuffle(0), Phase.Shuffle(1), Phase.SmallBlind(0), Phase.BigBlind(1)])
  {
    var ms := [ShuffleDeck(0, d0), ShuffleDeck(1, d1), PostSmallBlind(0), PostBigBlind(1)];
    var h1 := h.(shuffledDeck := d0, currentState := TwoSeats(1, 0, SHUFFLE));
    var h2 := h.(shuffledDeck := d1, currentState := TwoSeats(0, 0, SMALL_BLIND));
    var h3 := h2.(currentState := TwoSeats(1, 0, BIG_BLIND));
    var h4 := h.(shuffledDeck := d1[4..], playerCards := [d1[0..2], d1[2..4]],
                 currentState := TwoSeats(0, 0, UNMASK_HOLE_CARDS));
    assert Apply(h, ms[0]) == Done(Step(h1, Ok(())));
    assert Apply(h1, ms[1]) == Done(Step(h2, Ok(())));
    assert Apply(h2, ms[2]) == Done(Step(h3, Ok(())));
    var bb := SubmitBigBlind(h3, 1);
    assert bb.Done? && bb.value.hand.playerCards == [d1[0..2], d1[2..4]];
    assert Apply(h3, ms[3]) == Done(Step(h4, Ok(())));
    assert ms[3..][1..] == [];
    RunStep(h3, ms[3..], h4, h4, []);
    assert ms[2..][1..] == ms[3..];
    RunStep(h2, ms[2..], h3, h4, [Phase.BigBlind(1)]);
    assert ms[1..][1..] == ms[2..];
    RunStep(h1, ms[1..], h2, h4, [Phase.SmallBlind(0), Phase.BigBlind(1)]);
    RunStep(h, ms, h1, h4, [Phase.Shuffle(1), Phase.SmallBlind(0), Phase.BigBlind(1)]);
  }

  /** Both seats submit the hole cards; betting opens at seat 0. */
  lemma HoleCardsRound(h: Hand, c0: seq<seq<G1>>, c1: seq<seq<G1>>)
    requires Valid(h) && h.currentState == TwoSeats(0, 0, UNMASK_HOLE_CARDS)
    requires |c0| == 2 && |c1| == 2
    ensures Reaches(h, [UnmaskHole(0, c0), UnmaskHole(1, c1)],
                    h.(playerCards := c1, currentState := TwoSeats(0, 0, BET)),
                    [Phase.UnmaskHoleCards(0), Phase.UnmaskHoleCards(1)])
  {
    var ms := [UnmaskHole(0, c0), UnmaskHole(1, c1)];
    var h1 := h.(playerCards := c0, currentState := TwoSeats(1, 0, UNMASK_HOLE_CARDS));
    var h2 := h.(playerCards := c1, currentState := TwoSeats(0, 0, BET));
    assert Apply(h, ms[0]) == Done(Step(h1, Ok(())));
    assert Apply(h1, ms[1]) == Done(Step(h2, Ok(())));
    assert ms[1..][1..] == [];
    RunStep(h1, ms[1..], h2, h2, []);
    RunStep(h, ms, h1, h2, [Phase.UnmaskHoleCards(1)]);
  }

  /** The moves of one street: both seats bet, then both unmask the cards
      of the next round. */
  function StreetMoves(round: nat, x0: seq<G1>, x1: seq<G1>): seq<Move> {
    [PlaceBet(0), PlaceBet(1), UnmaskCommunity(0, round + 1, x0), UnmaskCommunity(1, round + 1, x1)]
  }

  /** The phases seen during one street. */
  function StreetPhases(round: nat): seq<Phase> {
    [Phase.Bet(round, 0), Phase.Bet(round, 1),
     Phase.UnmaskCommunityCards(round + 1, 0), Phase.UnmaskCommunityCards(round + 1, 1)]
  }

  /** One street before the last: both seats bet, the next round's cards are
      dealt into the slot of this round, and both seats unmask them. */
  lemma Street(h: Hand, round: nat, x0: seq<G1>, x1: seq<G1>)
    requires Valid(h) && h.currentState == TwoSeats(0, round, BET) && round + 1 < HOLDEM_ROUNDS
    requires |h.shuffledDeck| >= if round == PREFLOP then 3 else 1
    ensures var count := if round == PREFLOP then 3 else 1;
      Reaches(h, StreetMoves(round, x0, x1),
              h.(communityCards := h.communityCards[round := x1], shuffledDeck := h.shuffledDeck[count..],
                 currentState := TwoSeats(0, round + 1, BET)),
              StreetPhases(round))
  {
    var count := if round == PREFLOP then 3 else 1;
    var dealt := h.communityCards[round := h.shuffledDeck[..count]];
    var h2 := h.(communityCards := dealt, shuffledDeck := h.shuffledDeck[count..],
                 currentState := TwoSeats(0, round + 1, UNMASK_COMMUNITY_CARDS));
    var h4 := h2.(communityCards := h.communityCards[round := x1], currentState := TwoSeats(0, round + 1, BET));
    StreetBets(h, round);
    StreetUnmasks(h2, round, x0, x1);
    assert dealt[round := x1] == h.communityCards[round := x1];
    RunAppend(h, [PlaceBet(0), PlaceBet(1)], h2, [Phase.Bet(round, 0), Phase.Bet(round, 1)],
              [UnmaskCommunity(0, round + 1, x0), UnmaskCommunity(1, round + 1, x1)], h4,
              [Phase.UnmaskCommunityCards(round + 1, 0), Phase.UnmaskCommunityCards(round + 1, 1)]);
  }

  /** The betting half of a street before the last: the two checks close
      the street and deal its cards into this round's slot. */
  lemma StreetBets(h: Hand, round: nat)
    requires Valid(h) && h.currentState == TwoSeats(0, round, BET) && round + 1 < HOLDEM_ROUNDS
    requires |h.shuffledDeck| >= if round == PREFLOP then 3 else 1
    ensures var count := if round == PREFLOP then 3 else 1;
      Reaches(h, [PlaceBet(0), PlaceBet(1)],
              h.(communityCards := h.communityCards[round := h.shuffledDeck[..count]],
                 shuffledDeck := h.shuffledDeck[count..],
                 currentState := TwoSeats(0, round + 1, UNMASK_COMMUNITY_CARDS)),
              [Phase.Bet(round, 0), Phase.Bet(round, 1)])
  {
    var count := if round == PREFLOP then 3 else 1;
    var ms := [PlaceBet(0), PlaceBet(1)];
    var h1 := h.(currentState := TwoSeats(1, round, BET));
    var h2 := h.(communityCards := h.communityCards[round := h.shuffledDeck[..count]],
                 shuffledDeck := h.shuffledDeck[count..],
                 currentState := TwoSeats(0, round + 1, UNMASK_COMMUNITY_CARDS));
    assert Apply(h, ms[0]) == Done(Step(h1, Ok(())));
    assert Apply(h1, ms[1]) == Done(Step(h2, Ok(())));
    assert ms[1..][1..] == [];
    RunStep(h1, ms[1..], h2, h2, []);
    RunStep(h, ms, h1, h2, [Phase.Bet(round, 1)]);
  }

  /** The unmasking half of a street before the last: each seat's
      submission replaces the cards of this round's slot. */
  lemma StreetUnmasks(h: Hand, round: nat, x0: seq<G1>, x1: seq<G1>)
    requires Valid(h) && h.currentState == TwoSeats(0, round + 1, UNMASK_COMMUNITY_CARDS)
    requires round + 1 < HOLDEM_ROUNDS
    ensures Reaches(h, [UnmaskCommunity(0, round + 1, x0), UnmaskCommunity(1, round + 1, x1)],
                    h.(communityCards := h.communityCards[round := x1], currentState := TwoSeats(0, round + 1, BET)),
                    [Phase.UnmaskCommunityCards(round + 1, 0), Phase.UnmaskCommunityCards(round + 1, 1)])
  {
    var ms := [UnmaskCommunity(0, round + 1, x0), UnmaskCommunity(1, round + 1, x1)];
    var h3 := h.(communityCards := h.communityCards[round := x0], currentState := TwoSeats(1, round + 1, UNMASK_COMMUNITY_CARDS));
    var h4 := h.(communityCards := h.communityCards[round := x1], currentState := TwoSeats(0, round + 1, BET));
    assert Apply(h, ms[0]) == Done(Step(h3, Ok(())));
    assert h.communityCards[round := x0][round := x1] == h.communityCards[round := x1];
    assert Apply(h3, ms[1]) == Done(Step(h4, Ok(())));
    assert ms[1..][1..] == [];
    RunStep(h3, ms[1..], h4, h4, []);
    RunStep(h, ms, h3, h4, [Phase.UnmaskCommunityCards(round + 1, 1)]);
  }


  /** The moves of the last street and of the showdown. */
  function LastMoves(s0: seq<seq<G1>>, s1: seq<seq<G1>>, k0: G2, k1: G2): seq<Move> {
    [PlaceBet(0), PlaceBet(1), UnmaskAtShowdown(0, s0), UnmaskAtShowdown(1, s1), RevealKey(0, k0), RevealKey(1, k1)]
  }

  /** The phases seen during the last street and the showdown. */
  const LAST_PHASES: seq<Phase> :=
    [Phase.Bet(3, 0), Phase.Bet(3, 1), Phase.UnmaskShowdown(0), Phase.UnmaskShowdown(1),
     Phase.SubmitPublicKey(0), Phase.SubmitPublicKey(1)]

  /** The last street: both seats bet, the showdown unmasking goes round,
      and both seats reveal their keys, which finishes the hand. */
  lemma LastBets(h: Hand)
    requires Valid(h) && h.currentState == TwoSeats(0, HOLDEM_ROUNDS - 1, BET)
    ensures Reaches(h, [PlaceBet(0), PlaceBet(1)], h.(currentState := TwoSeats(0, 4, UNMASK_SHOWDOWN)),
                    LAST_PHASES[..2])
  {
    var ms := [PlaceBet(0), PlaceBet(1)];
    var h1 := h.(currentState := TwoSeats(1, 3, BET));
    var h2 := h.(currentState := TwoSeats(0, 4, UNMASK_SHOWDOWN));
    assert Apply(h, ms[0]) == Done(Step(h1, Ok(())));
    assert Apply(h1, ms[1]) == Done(Step(h2, Ok(())));
    assert ms[1..][1..] == [];
    RunStep(h1, ms[1..], h2, h2, []);
    RunStep(h, ms, h1, h2, [Phase.Bet(3, 1)]);
  }

  lemma ShowdownAndKeys(h: Hand, s0: seq<seq<G1>>, s1: seq<seq<G1>>, k0: G2, k1: G2)
    requires Valid(h) && h.currentState == TwoSeats(0, HOLDEM_ROUNDS, UNMASK_SHOWDOWN)
    requires |s0| == 2 && |s1| == 2
    ensures Reaches(h, [UnmaskAtShowdown(0, s0), UnmaskAtShowdown(1, s1), RevealKey(0, k0), RevealKey(1, k1)],
                    h.(playerCards := s1, playerKeys := [Some(k0), Some(k1)],
                       currentState := TwoSeats(0, HOLDEM_ROUNDS, FINISHED)),
                    LAST_PHASES[2..])
  {
    var ms := [UnmaskAtShowdown(0, s0), UnmaskAtShowdown(1, s1), RevealKey(0, k0), RevealKey(1, k1)];
    var h3 := h.(playerCards := s0, currentState := TwoSeats(1, 4, UNMASK_SHOWDOWN));
    var h4 := h.(playerCards := s1, currentState := TwoSeats(0, 4, SUBMIT_PUBLIC_KEY));
    var h5 := h4.(playerKeys := h.playerKeys[0 := Some(k0)], currentState := TwoSeats(1, 4, SUBMIT_PUBLIC_KEY));
    var h6 := h.(playerCards := s1, playerKeys := [Some(k0), Some(k1)], currentState := TwoSeats(0, 4, FINISHED));
    assert Apply(h, ms[0]) == Done(Step(h3, Ok(())));
    assert Apply(h3, ms[1]) == Done(Step(h4, Ok(())));
    assert Apply(h4, ms[2]) == Done(Step(h5, Ok(())));
    assert h.playerKeys[0 := Some(k0)][1 := Some(k1)] == [Some(k0), Some(k1)];
    assert Apply(h5, ms[3]) == Done(Step(h6, Ok(())));
    assert ms[3..][1..] == [];
    RunStep(h5, ms[3..], h6, h6, []);
    assert ms[2..][1..] == ms[3..];
    RunStep(h4, ms[2..], h5, h6, LAST_PHASES[5..]);
    assert ms[1..][1..] == ms[2..];
    RunStep(h3, ms[1..], h4, h6, LAST_PHASES[4..]);
    RunStep(h, ms, h3, h6, LAST_PHASES[3..]);
  }

  lemma LastStreetToFinish(h: Hand, s0: seq<seq<G1>>, s1: seq<seq<G1>>, k0: G2, k1: G2)
    requires Valid(h) && h.currentState == TwoSeats(0, HOLDEM_ROUNDS - 1, BET)
    requires |s0| == 2 && |s1| == 2
    ensures Reaches(h, LastMoves(s0, s1, k0, k1),
                    h.(playerCards := s1, playerKeys := [Some(k0), Some(k1)],
                       currentState := TwoSeats(0, HOLDEM_ROUNDS, FINISHED)),
                    LAST_PHASES)
  {
    var h2 := h.(currentState := TwoSeats(0, 4, UNMASK_SHOWDOWN));
    LastBets(h);
    ShowdownAndKeys(h2, s0, s1, k0, k1);
    RunAppend(h, [PlaceBet(0), PlaceBet(1)], h2, LAST_PHASES[..2],
              [UnmaskAtShowdown(0, s0), UnmaskAtShowdown(1, s1), RevealKey(0, k0), RevealKey(1, k1)],
              h2.(playerCards := s1, playerKeys := [Some(k0), Some(k1)],
                  currentState := TwoSeats(0, HOLDEM_ROUNDS, FINISHED)),
              LAST_PHASES[2..]);
    assert LAST_PHASES[..2] + LAST_PHASES[2..] == LAST_PHASES;
  }

  /** Shuffles, blinds and the hole-card round. */
  function OpeningMoves(d0: seq<G1>, d1: seq<G1>, c0: seq<seq<G1>>, c1: seq<seq<G1>>): seq<Move> {
    [ShuffleDeck(0, d0), ShuffleDeck(1, d1), PostSmallBlind(0), PostBigBlind(1),
     UnmaskHole(0, c0), UnmaskHole(1, c1)]
  }

  /** Three streets, then the last betting round, showdown and keys. */
  function ClosingMoves(f0: seq<G1>, f1: seq<G1>, t0: seq<G1>, t1: seq<G1>, v0: seq<G1>, v1: seq<G1>,
                        s0: seq<seq<G1>>, s1: seq<seq<G1>>, k0: G2, k1: G2): seq<Move> {
    StreetMoves(0, f0, f1) + StreetMoves(1, t0, t1) + StreetMoves(2, v0, v1) + LastMoves(s0, s1, k0, k1)
  }

  /** The moves of the two-seat scenario, in order: the shuffles and the
      blinds, the hole cards, the flop, turn and river streets, and the
      last street with the showdown. */
  function ScenarioMoves(d0: seq<G1>, d1: seq<G1>, c0: seq<seq<G1>>, c1: seq<seq<G1>>,
                         f0: seq<G1>, f1: seq<G1>, t0: seq<G1>, t1: seq<G1>, v0: seq<G1>, v1: seq<G1>,
                         s0: seq<seq<G1>>, s1: seq<seq<G1>>, k0: G2, k1: G2): seq<Move>
  {
    OpeningMoves(d0, d1, c0, c1) + ClosingMoves(f0, f1, t0, t1, v0, v1, s0, s1, k0, k1)
  }

  /** The phase the scenario expects before each of its moves. */
  const SCENARIO_PHASES: seq<Phase> := OPENING_PHASES + CLOSING_PHASES

  /** The phases of the shuffles, blinds and hole-card round. */
  const OPENING_PHASES: seq<Phase> := [
    Phase.Shuffle(0), Phase.Shuffle(1), Phase.SmallBlind(0), Phase.BigBlind(1),
    Phase.UnmaskHoleCards(0), Phase.UnmaskHoleCards(1)]

  /** The phases of the three streets, the last street, showdown and keys. */
  const CLOSING_PHASES: seq<Phase> := StreetPhases(0) + StreetPhases(1) + StreetPhases(2) + LAST_PHASES

  /** The three streets before the last, from the first bet of the hand:
      the flop, turn and river cards land in slots 0, 1 and 2 and five
      cards leave the deck. */
  lemma ThreeStreets(h: Hand, f0: seq<G1>, f1: seq<G1>, t0: seq<G1>, t1: seq<G1>, v0: seq<G1>, v1: seq<G1>)
    requires Valid(h) && h.currentState == TwoSeats(0, 0, BET) && |h.shuffledDeck| >= 5
    ensures Reaches(h, StreetMoves(0, f0, f1) + StreetMoves(1, t0, t1) + StreetMoves(2, v0, v1),
                    h.(communityCards := h.communityCards[0 := f1][1 := t1][2 := v1],
                       shuffledDeck := h.shuffledDeck[5..], currentState := TwoSeats(0, 3, BET)),
                    StreetPhases(0) + StreetPhases(1) + StreetPhases(2))
  {
    var h1 := h.(communityCards := h.communityCards[0 := f1], shuffledDeck := h.shuffledDeck[3..],
                 currentState := TwoSeats(0, 1, BET));
    var h2 := h1.(communityCards := h1.communityCards[1 := t1], shuffledDeck := h1.shuffledDeck[1..],
                  currentState := TwoSeats(0, 2, BET));
    var h3 := h2.(communityCards := h2.communityCards[2 := v1], shuffledDeck := h2.shuffledDeck[1..],
                  currentState := TwoSeats(0, 3, BET));
    Street(h, 0, f0, f1);
    Street(h1, 1, t0, t1);
    RunAppend(h, StreetMoves(0, f0, f1), h1, StreetPhases(0), StreetMoves(1, t0, t1), h2, StreetPhases(1));
    Street(h2, 2, v0, v1);
    RunAppend(h, StreetMoves(0, f0, f1) + StreetMoves(1, t0, t1), h2, StreetPhases(0) + StreetPhases(1),
              StreetMoves(2, v0, v1), h3, StreetPhases(2));
    assert h.shuffledDeck[3..][1..][1..] == h.shuffledDeck[5..];
  }

  /** The whole two-seat hand from the first shuffle to the finish. */
  lemma Opening(h: Hand, d0: seq<G1>, d1: seq<G1>, c0: seq<seq<G1>>, c1: seq<seq<G1>>)
    requires Valid(h) && h.currentState == TwoSeats(0, 0, SHUFFLE)
    requires |d1| >= 4 && |c0| == 2 && |c1| == 2
    ensures Reaches(h, OpeningMoves(d0, d1, c0, c1),
                    h.(shuffledDeck := d1[4..], playerCards := c1, currentState := TwoSeats(0, 0, BET)),
                    OPENING_PHASES)
  {
    var m1 := [ShuffleDeck(0, d0), ShuffleDeck(1, d1), PostSmallBlind(0), PostBigBlind(1)];
    var m2 := [UnmaskHole(0, c0), UnmaskHole(1, c1)];
    var p1 := [Phase.Shuffle(0), Phase.Shuffle(1), Phase.SmallBlind(0), Phase.BigBlind(1)];
    var p2 := [Phase.UnmaskHoleCards(0), Phase.UnmaskHoleCards(1)];
    var h1 := h.(shuffledDeck := d1[4..], playerCards := [d1[0..2], d1[2..4]],
                 currentState := TwoSeats(0, 0, UNMASK_HOLE_CARDS));
    ShuffleAndBlinds(h, d0, d1);
    HoleCardsRound(h1, c0, c1);
    RunAppend(h, m1, h1, p1, m2, h1.(playerCards := c1, currentState := TwoSeats(0, 0, BET)), p2);
    assert m1 + m2 == OpeningMoves(d0, d1, c0, c1);
    assert p1 + p2 == OPENING_PHASES;
  }

  lemma Closing(h: Hand, f0: seq<G1>, f1: seq<G1>, t0: seq<G1>, t1: seq<G1>, v0: seq<G1>, v1: seq<G1>,
                s0: seq<seq<G1>>, s1: seq<seq<G1>>, k0: G2, k1: G2)
    requires Valid(h) && h.currentState == TwoSeats(0, 0, BET) && |h.shuffledDeck| >= 5
    requires |s0| == 2 && |s1| == 2
    ensures Reaches(h, ClosingMoves(f0, f1, t0, t1, v0, v1, s0, s1, k0, k1),
                    h.(shuffledDeck := h.shuffledDeck[5..], playerCards := s1, playerKeys := [Some(k0), Some(k1)],
                       communityCards := h.communityCards[0 := f1][1 := t1][2 := v1],
                       currentState := TwoSeats(0, HOLDEM_ROUNDS, FINISHED)),
                    CLOSING_PHASES)
  {
    var m3 := StreetMoves(0, f0, f1) + StreetMoves(1, t0, t1) + StreetMoves(2, v0, v1);
    var p3 := StreetPhases(0) + StreetPhases(1) + StreetPhases(2);
    var h3 := h.(communityCards := h.communityCards[0 := f1][1 := t1][2 := v1],
                 shuffledDeck := h.shuffledDeck[5..], currentState := TwoSeats(0, 3, BET));
    ThreeStreets(h, f0, f1, t0, t1, v0, v1);
    LastStreetToFinish(h3, s0, s1, k0, k1);
    RunAppend(h, m3, h3, p3, LastMoves(s0, s1, k0, k1),
              h3.(playerCards := s1, playerKeys := [Some(k0), Some(k1)], currentState := TwoSeats(0, HOLDEM_ROUNDS, FINISHED)),
              LAST_PHASES);
  }

  lemma WholeHand(h: Hand, d0: seq<G1>, d1: seq<G1>, c0: seq<seq<G1>>, c1: seq<seq<G1>>,
                  f0: seq<G1>, f1: seq<G1>, t0: seq<G1>, t1: seq<G1>, v0: seq<G1>, v1: seq<G1>,
                  s0: seq<seq<G1>>, s1: seq<seq<G1>>, k0: G2, k1: G2)
    requires Valid(h) && h.currentState == TwoSeats(0, 0, SHUFFLE)
    requires |d1| >= 9 && |c0| == 2 && |c1| == 2 && |s0| == 2 && |s1| == 2
    ensures Reaches(h, ScenarioMoves(d0, d1, c0, c1, f0, f1, t0, t1, v0, v1, s0, s1, k0, k1),
                    h.(shuffledDeck := d1[9..], playerCards := s1, playerKeys := [Some(k0), Some(k1)],
                       communityCards := h.communityCards[0 := f1][1 := t1][2 := v1],
                       currentState := TwoSeats(0, HOLDEM_ROUNDS, FINISHED)),
                    SCENARIO_PHASES)
  {
    var h2 := h.(shuffledDeck := d1[4..], playerCards := c1, currentState := TwoSeats(0, 0, BET));
    Opening(h, d0, d1, c0, c1);
    Closing(h2, f0, f1, t0, t1, v0, v1, s0, s1, k0, k1);
    assert d1[4..][5..] == d1[9..];
    RunAppend(h, OpeningMoves(d0, d1, c0, c1), h2, OPENING_PHASES,
              ClosingMoves(f0, f1, t0, t1, v0, v1, s0, s1, k0, k1),
              h2.(shuffledDeck := d1[9..], playerCards := s1, playerKeys := [Some(k0), Some(k1)],
                  communityCards := h.communityCards[0 := f1][1 := t1][2 := v1],
                  currentState := TwoSeats(0, HOLDEM_ROUNDS, FINISHED)),
              CLOSING_PHASES);
  }

  /** The hand started on a new table of two seats and four rounds that
      ids 1 and 2 have joined. */
  function TwoSeatStart(hash: HashToCurve): (h: Hand)
    ensures Valid(h) && h.currentState == TwoSeats(0, 0, SHUFFLE) && h.communityCards == [[], [], [], []]
  {
    var h := New(hash, 2, HOLDEM_ROUNDS, 0);
    assert h.communityCards == [[], [], [], []] by {
      assert |h.communityCards| == 4 && h.communityCards[0] == [] && h.communityCards[1] == [];
      assert h.communityCards[2] == [] && h.communityCards[3] == [];
    }
    h
  }

  /** The two-seat hand is what the table starts once ids 1 and 2 have
      joined a new table. */
  lemma TwoSeatTableStarts(hash: HashToCurve)
    ensures Start(hash, PokerTable.JoinAll(PokerTable.New<Hand>(2, HOLDEM_ROUNDS), [1, 2])).hand
         == Some(TwoSeatStart(hash))
  {
    PokerTable.JoinAllSeats(PokerTable.New<Hand>(2, HOLDEM_ROUNDS), [1, 2]);
  }


  /** The whole scenario from any two-seat hand that is about to shuffle
      with an empty board. */
  lemma ScenarioFrom(h: Hand, d0: seq<G1>, d1: seq<G1>, c0: seq<seq<G1>>, c1: seq<seq<G1>>,
                     f0: seq<G1>, f1: seq<G1>, t0: seq<G1>, t1: seq<G1>, v0: seq<G1>, v1: seq<G1>,
                     s0: seq<seq<G1>>, s1: seq<seq<G1>>, k0: G2, k1: G2)
    requires Valid(h) && h.currentState == TwoSeats(0, 0, SHUFFLE) && h.communityCards == [[], [], [], []]
    requires |d1| >= 9 && |c0| == 2 && |c1| == 2 && |s0| == 2 && |s1| == 2
    ensures var r := Run(h, ScenarioMoves(d0, d1, c0, c1, f0, f1, t0, t1, v0, v1, s0, s1, k0, k1));
      r.Done? && r.value.1 == SCENARIO_PHASES
      && ToEnum(r.value.0.currentState) == Phase.Finished
      && r.value.0.playerKeys == [Some(k0), Some(k1)] && r.value.0.playerCards == s1
      && r.value.0.communityCards == [f1, t1, v1, []] && r.value.0.shuffledDeck == d1[9..]
  {
    var moves := ScenarioMoves(d0, d1, c0, c1, f0, f1, t0, t1, v0, v1, s0, s1, k0, k1);
    var h2 := h.(shuffledDeck := d1[9..], playerCards := s1, playerKeys := [Some(k0), Some(k1)],
                 communityCards := h.communityCards[0 := f1][1 := t1][2 := v1],
                 currentState := TwoSeats(0, HOLDEM_ROUNDS, FINISHED));
    WholeHand(h, d0, d1, c0, c1, f0, f1, t0, t1, v0, v1, s0, s1, k0, k1);
    assert Reaches(h, moves, h2, SCENARIO_PHASES);
    assert h2.communityCards == [f1, t1, v1, []];
    assert ToEnum(h2.currentState) == Phase.Finished;
  }

  /** The end-to-end two-seat hand: on a table of two seats and four rounds
      that ids 1 and 2 have joined, a started hand passes through exactly
      the expected phases, one per move, and ends finished, with both keys
      revealed, the last submitted cards of each round on the board and
      nine cards gone from the last shuffled deck. Only the deck lengths
      matter: nothing in the older machine looks at the cards. */
  lemma TwoSeatHandScenario(hash: HashToCurve, d0: seq<G1>, d1: seq<G1>, c0: seq<seq<G1>>, c1: seq<seq<G1>>,
                            f0: seq<G1>, f1: seq<G1>, t0: seq<G1>, t1: seq<G1>, v0: seq<G1>, v1: seq<G1>,
                            s0: seq<seq<G1>>, s1: seq<seq<G1>>, k0: G2, k1: G2)
    requires |d1| >= 9 && |c0| == 2 && |c1| == 2 && |s0| == 2 && |s1| == 2
    ensures var h := TwoSeatStart(hash);
      Valid(h)
      && (var r := Run(h, ScenarioMoves(d0, d1, c0, c1, f0, f1, t0, t1, v0, v1, s0, s1, k0, k1));
          r.Done? && r.value.1 == SCENARIO_PHASES
          && ToEnum(r.value.0.currentState) == Phase.Finished
          && r.value.0.playerKeys == [Some(k0), Some(k1)] && r.value.0.playerCards == s1
          && r.value.0.communityCards == [f1, t1, v1, []] && r.value.0.shuffledDeck == d1[9..])
  {
    ScenarioFrom(TwoSeatStart(hash), d0, d1, c0, c1, f0, f1, t0, t1, v0, v1, s0, s1, k0, k1);
  }

}

=== FILE: poker_hand.dfy ===
/** One hand of the game (lib/crum_pkr/src/poker_hand.rs): the shuffle
    chain, the blinds, the dealing, the unmasking log, the betting streets and
    the end-of-hand checks, driven by `submit_*` calls that check the phase
    and whose turn it is. A call that fails after it has changed the hand
    keeps those changes, as with Rust's `?`; a panic aborts the whole call. */
module PokerHand {

  import opened Wrappers
  import opened Pairing
  import opened BlsSign
  import opened BlsVerify
  import opened PokerDeck
  import opened PokerBets
  import opened PokerState
  import opened UnmaskAudit

  const NOT_SHUFFLE_STATE := "Not in shuffle state"
  const NOT_SHUFFLE_TURN := "Not your turn to shuffle"
  const NOT_SMALL_BLIND_STATE := "Not in small blind state"
  const NOT_SMALL_BLIND_TURN := "Not your turn to post small blind"
  const NOT_BIG_BLIND_STATE := "Not in big blind state"
  const NOT_BIG_BLIND_TURN := "Not your turn to post big blind"
  const NOT_HOLE_CARDS_STATE := "Not in unmask hole cards state"
  const NOT_HOLE_CARDS_TURN := "Not your turn to unmask hole cards"
  const WRONG_CARDS_LENGTH := "Incorrect length of player cards"
  const NOT_BET_STATE := "Not in bet state"
  const NOT_THIS_ROUND := "Not this round to unmask cards"
  const NOT_BET_TURN := "Not your turn to bet"
  const NOT_PUBLIC_KEY_STATE := "Not in submit public key state"
  const NOT_PUBLIC_KEY_TURN := "Not your turn to submit public key"
  const CHEATED_SHUFFLE := "Player cheated during shuffle"
  const CHEATED_UNMASKING := "Player cheated during unmasking "
  const NO_ROUND_CARDS := "No round cards"

  /** Cards dealt per seat before the first betting round. */
  const HOLE_CARDS: nat := 2

  datatype Hand = Hand(
    pokerDeck: Deck,
    shuffledDeck: seq<G1>,
    shuffleHistory: seq<seq<G1>>,
    playerCards: seq<seq<G1>>,
    playerKeys: seq<Option<G2>>,
    communityCards: seq<seq<G1>>,
    unmaskingSequence: seq<Unmasking>,
    currentState: HandState,
    bettingState: BettingState,
    smallBlind: U64)

  /** The hand after a call, and what the call returned. */
  datatype Step<T> = Step(hand: Hand, result: Result<T>)

  /** The shape every hand built by `new` has and every call keeps: seats
      exist, the dealer and the seat to act are seats, the round is within
      the limit, and the per-seat and per-round vectors have their sizes. */
  predicate Valid(h: Hand) {
    var s := h.currentState;
    0 < s.numPlayers && s.dealerButton < s.numPlayers && s.currentPlayer < s.numPlayers
    && s.currentRound <= s.maxRounds
    && |h.playerCards| == s.numPlayers && |h.playerKeys| == s.numPlayers
    && |h.communityCards| == s.maxRounds
    && h.bettingState.WellFormed() && h.bettingState.NumPlayers() == s.numPlayers
  }

  /** The hand is in phase `code`. */
  predicate InPhase(h: Hand, code: Byte) {
    h.currentState.currentState == code
  }

  /** The hand is in phase `code` and `player` is the seat to act. */
  predicate Acting(h: Hand, code: Byte, player: nat) {
    InPhase(h, code) && player == h.currentState.currentPlayer
  }

  /** The chips of the hand are conserved from `a` to `b`, and the ledger
      invariant is kept. */
  predicate SameChips(a: Hand, b: Hand) {
    Ledger(a.bettingState) ==> Ledger(b.bettingState) && TotalChips(b.bettingState) == TotalChips(a.bettingState)
  }

  /** The logs that only grow by explicit submissions are untouched from `a` to `b`. */
  predicate SameLogs(a: Hand, b: Hand) {
    b.shuffleHistory == a.shuffleHistory && b.unmaskingSequence == a.unmaskingSequence
    && b.playerCards == a.playerCards && b.playerKeys == a.playerKeys
  }

  /** `new`: the reference deck is the current deck, nothing is shuffled,
      dealt, unmasked or keyed yet, and the dealer is to shuffle. */
  function New(hash: HashToCurve, numPlayers: nat, maxRounds: nat, dealerButton: nat,
               initialChips: U64, smallBlind: U64): (h: Hand)
    ensures 0 < numPlayers && dealerButton < numPlayers ==> Valid(h)
    ensures h.pokerDeck == NewDeck(hash) && h.shuffledDeck == h.pokerDeck.cardsG1
    ensures h.shuffleHistory == [] && h.unmaskingSequence == []
    ensures |h.playerKeys| == numPlayers && forall i :: 0 <= i < |h.playerKeys| ==> h.playerKeys[i].None?
    ensures ToEnum(h.currentState) == Shuffle(dealerButton, true)
  {
    var deck := NewDeck(hash);
    Hand(deck, deck.cardsG1, [], EmptyPiles(numPlayers), NoKeys(numPlayers), EmptyPiles(maxRounds), [],
         PokerState.New(numPlayers, maxRounds, dealerButton), PokerBets.New(numPlayers, initialChips), smallBlind)
  }

  /** `count` empty card vectors. */
  function EmptyPiles(count: nat): (r: seq<seq<G1>>)
    ensures |r| == count && forall i :: 0 <= i < count ==> r[i] == []
  {
    seq(count, _ => [])
  }

  /** `count` missing keys. */
  function NoKeys(count: nat): (r: seq<Option<G2>>)
    ensures |r| == count && forall i :: 0 <= i < count ==> r[i].None?
  {
    seq(count, _ => None)
  }

  /** A new hand starts with every seat holding the initial chips, no bets,
      an empty pot, and the ledger invariant in force, as long as the chips
      on the table fit in a u64. */
  lemma NewHandLedger(hash: HashToCurve, numPlayers: nat, maxRounds: nat, dealerButton: nat,
                      initialChips: U64, smallBlind: U64)
    requires numPlayers * initialChips < U64_LIMIT
    ensures var b := New(hash, numPlayers, maxRounds, dealerButton, initialChips, smallBlind).bettingState;
      Ledger(b) && TotalChips(b) == numPlayers * initialChips && b.pot == 0
      && forall p :: 0 <= p < |b.playerChips| ==> b.playerChips[p] == initialChips
  {
    NewKeepsLedger(numPlayers, initialChips);
  }

  /** `get_community_cards`: none before the flop; round `r` reads the
      cards stored for it at `r - 1`, and a round with no slot has none. */
  function GetCommunityCards(h: Hand, round: nat): (r: Option<seq<G1>>)
    ensures round == PREFLOP ==> r.None?
    ensures round > PREFLOP ==> (r.Some? <==> round <= |h.communityCards|)
    ensures r.Some? ==> 0 < round && r.value == h.communityCards[round - 1]
  {
    if round == PREFLOP then None
    else if round - 1 < |h.communityCards| then Some(h.communityCards[round - 1])
    else None
  }

  /** `get_big_blind`: twice the small blind, as a u64 that wraps. */
  function BigBlind(h: Hand): (r: U64)
    ensures 2 * h.smallBlind < U64_LIMIT ==> r == 2 * h.smallBlind
    ensures 2 * h.smallBlind >= U64_LIMIT ==> r + U64_LIMIT == 2 * h.smallBlind
  {
    (h.smallBlind * 2) % U64_LIMIT
  }

  /** `submit_shuffled_deck`: the dealer and then each seat in turn submits
      the deck re-shuffled and re-masked; each deck is logged and becomes the
      current deck. After a full rotation the blinds begin. */
  function SubmitShuffledDeck(h: Hand, player: nat, deck: seq<G1>): (r: Step<()>)
    requires Valid(h)
    ensures Valid(r.hand)
    ensures !InPhase(h, SHUFFLE) ==> r == Step(h, Err(NOT_SHUFFLE_STATE))
    ensures InPhase(h, SHUFFLE) && !Acting(h, SHUFFLE, player) ==> r == Step(h, Err(NOT_SHUFFLE_TURN))
    ensures r.result.Ok? <==> Acting(h, SHUFFLE, player)
    ensures r.result.Ok? ==>
      (var s := h.currentState;
       var next := SeatAfter(s.currentPlayer, 1, s.numPlayers);
       r.hand == h.(shuffleHistory := h.shuffleHistory + [deck], shuffledDeck := deck,
                    currentState := s.(currentPlayer := next,
                                       currentState := if next == s.dealerButton then SMALL_BLIND else SHUFFLE)))
  {
    match ToEnum(h.currentState)
    case Shuffle(p, _) =>
      if p != player then Step(h, Err(NOT_SHUFFLE_TURN))
      else
        var (s, wrapped) := NextPlayer(h.currentState);
        Step(h.(shuffleHistory := h.shuffleHistory + [deck], shuffledDeck := deck,
                currentState := if wrapped then s.(currentState := SMALL_BLIND) else s),
             Ok(()))
    case _ => Step(h, Err(NOT_SHUFFLE_STATE))
  }

  /** Every seat in turn, from the seat to act, submits the next deck of `decks`. */
  function ShuffleRound(h: Hand, decks: seq<seq<G1>>): (r: Hand)
    requires Valid(h)
    ensures Valid(r)
    decreases |decks|
  {
    if |decks| == 0 then h
    else ShuffleRound(SubmitShuffledDeck(h, h.currentState.currentPlayer, decks[0]).hand, decks[1..])
  }

  /** The shuffle phase: one deck from each seat still to shuffle, in turn,
      logs exactly those decks in order, leaves the last one current and
      hands the small blind to the seat after the dealer. */
  lemma {:induction false} ShuffleRoundOpensBlinds(h: Hand, decks: seq<seq<G1>>, k: nat)
    requires Valid(h) && InPhase(h, SHUFFLE)
    requires k < h.currentState.numPlayers && |decks| == h.currentState.numPlayers - k
    requires h.currentState.currentPlayer == SeatAfter(h.currentState.dealerButton, k, h.currentState.numPlayers)
    ensures var r := ShuffleRound(h, decks);
      r.shuffleHistory == h.shuffleHistory + decks
      && r.shuffledDeck == decks[|decks| - 1]
      && r.currentState == h.currentState.(currentPlayer := h.currentState.dealerButton, currentState := SMALL_BLIND)
      && r.bettingState == h.bettingState && r.unmaskingSequence == h.unmaskingSequence
    decreases |decks|
  {
    var s := h.currentState;
    var n := s.numPlayers;
    var step := SubmitShuffledDeck(h, s.currentPlayer, decks[0]);
    SeatAfterStep(s.dealerButton, k, n);
    if k + 1 < n {
      ShuffleRoundOpensBlinds(step.hand, decks[1..], k + 1);
      assert h.shuffleHistory + [decks[0]] + decks[1..] == h.shuffleHistory + decks;
    } else {
      assert ShuffleRound(step.hand, decks[1..]) == step.hand;
    }
  }

  /** `submit_small_blind`: the seat to act posts the small blind through the
      ledger; the next seat then posts the big blind. A refused post leaves
      the hand unchanged. */
  function SubmitSmallBlind(h: Hand, player: nat): (r: Step<()>)
    requires Valid(h)
    ensures Valid(r.hand) && SameChips(h, r.hand) && SameLogs(h, r.hand)
    ensures !InPhase(h, SMALL_BLIND) ==> r == Step(h, Err(NOT_SMALL_BLIND_STATE))
    ensures InPhase(h, SMALL_BLIND) && !Acting(h, SMALL_BLIND, player) ==> r == Step(h, Err(NOT_SMALL_BLIND_TURN))
    ensures Acting(h, SMALL_BLIND, player) ==>
      (match ProcessAction(h.bettingState, player, h.smallBlind)
       case Err(e) => r == Step(h, Err(e))
       case Ok(b) =>
         (r.result.Ok? && r.hand == h.(bettingState := b, currentState := h.currentState.(
            currentPlayer := SeatAfter(player, 1, h.currentState.numPlayers), currentState := BIG_BLIND))))
  {
    match ToEnum(h.currentState)
    case SmallBlind(p) =>
      if p != player then Step(h, Err(NOT_SMALL_BLIND_TURN))
      else
        (match ProcessAction(h.bettingState, player, h.smallBlind)
         case Err(e) => Step(h, Err(e))
         case Ok(b) =>
           assert SameChips(h, h.(bettingState := b)) by {
             if Ledger(h.bettingState) { ProcessActionKeepsLedger(h.bettingState, player, h.smallBlind); }
           }
           Step(h.(bettingState := b, currentState := NextPlayer(h.currentState).0.(currentState := BIG_BLIND)), Ok(())))
    case _ => Step(h, Err(NOT_SMALL_BLIND_STATE))
  }

  /** Deals two cards to every seat in seat order from the front of the deck. */
  function DealHoleCards(deck: seq<G1>, n: nat): (r: (seq<seq<G1>>, seq<G1>))
    requires HOLE_CARDS * n <= |deck|
    ensures |r.0| == n
    ensures forall i :: 0 <= i < n ==> r.0[i] == deck[2 * i..2 * i + 2]
    ensures r.1 == deck[2 * n..]
    decreases n
  {
    if n == 0 then ([], deck)
    else
      var (dealt, rest) := Deal(deck, HOLE_CARDS);
      var (others, left) := DealHoleCards(rest, n - 1);
      assert forall i :: 0 <= i < n - 1 ==> rest[2 * i..2 * i + 2] == deck[2 * (i + 1)..2 * (i + 1) + 2];
      ([dealt] + others, left)
  }

  /** The cards the hand deals sit exactly where the unmasking audit looks
      for them in the final shuffled deck: two per seat, then three for the
      flop, then one for the turn and one for the river. */
  lemma DealingMatchesAuditLayout(deck: seq<G1>, n: nat)
    requires |deck| >= 2 * n + 5
    ensures var hole := DealHoleCards(deck, n);
      var flop := Deal(hole.1, 3);
      var turn := Deal(flop.1, 1);
      var river := Deal(turn.1, 1);
      var layout := InitialReplay(deck, n);
      hole.0 == layout.hole && flop.0 == layout.community[0]
      && turn.0 == layout.community[1] && river.0 == layout.community[2]
  {
    HoleCardsMatchAudit(deck, n);
    CommunityMatchesAudit(deck, n, DealHoleCards(deck, n).1);
  }

  /** The hole-card half of the layout. */
  lemma HoleCardsMatchAudit(deck: seq<G1>, n: nat)
    requires |deck| >= 2 * n + 5
    ensures DealHoleCards(deck, n).0 == InitialReplay(deck, n).hole
  {
    var dealt := DealHoleCards(deck, n).0;
    var slots := InitialReplay(deck, n).hole;
    assert |dealt| == n == |slots|;
    forall i | 0 <= i < n ensures dealt[i] == slots[i] {
      assert dealt[i] == deck[2 * i..2 * i + 2];
    }
  }

  /** The community half: what is left after the hole cards is dealt as
      three, one and one. */
  lemma CommunityMatchesAudit(deck: seq<G1>, n: nat, rest: seq<G1>)
    requires |deck| >= 2 * n + 5 && rest == deck[2 * n..]
    ensures var flop := Deal(rest, 3);
      var turn := Deal(flop.1, 1);
      var river := Deal(turn.1, 1);
      var layout := InitialReplay(deck, n);
      flop.0 == layout.community[0] && turn.0 == layout.community[1] && river.0 == layout.community[2]
  {
    var layout := InitialReplay(deck, n);
    var flop := Deal(rest, 3);
    assert flop.0 == rest[..3] == deck[2 * n..2 * n + 3];
    assert flop.1 == rest[3..] == deck[2 * n + 3..];
    var turn := Deal(flop.1, 1);
    assert turn.0 == deck[2 * n + 3..2 * n + 4];
    assert turn.1 == deck[2 * n + 4..];
    assert Deal(turn.1, 1).0 == deck[2 * n + 4..2 * n + 5];
  }


  /** `submit_big_blind`: the seat to act posts twice the small blind; then
      two cards are dealt to every seat from the front of the deck and
      unmasking starts at the dealer. Dealing from a deck with fewer than two
      cards per seat panics. A refused post leaves the hand unchanged. */
  function SubmitBigBlind(h: Hand, player: nat): (r: Outcome<Step<()>>)
    requires Valid(h)
    ensures r.Done? ==> Valid(r.value.hand) && SameChips(h, r.value.hand)
    ensures !InPhase(h, BIG_BLIND) ==> r == Done(Step(h, Err(NOT_BIG_BLIND_STATE)))
    ensures InPhase(h, BIG_BLIND) && !Acting(h, BIG_BLIND, player) ==> r == Done(Step(h, Err(NOT_BIG_BLIND_TURN)))
    ensures Acting(h, BIG_BLIND, player) ==>
      (match ProcessAction(h.bettingState, player, BigBlind(h))
       case Err(e) => r == Done(Step(h, Err(e)))
       case Ok(b) =>
         var n := h.currentState.numPlayers;
         (r.Panic? <==> |h.shuffledDeck| < 2 * n)
         && (r.Done? ==>
               (r.value.result.Ok? && r.value.hand.bettingState == b
                && (forall i :: 0 <= i < n ==> r.value.hand.playerCards[i] == h.shuffledDeck[2 * i..2 * i + 2])
                && r.value.hand.shuffledDeck == h.shuffledDeck[2 * n..]
                && r.value.hand.currentState == h.currentState.(currentPlayer := h.currentState.dealerButton,
                                                                currentState := UNMASK_HOLE_CARDS)
                && r.value.hand == h.(bettingState := b, playerCards := r.value.hand.playerCards,
                                      shuffledDeck := h.shuffledDeck[2 * n..],
                                      currentState := r.value.hand.currentState))))
  {
    match ToEnum(h.currentState)
    case BigBlind(p) =>
      if p != player then Done(Step(h, Err(NOT_BIG_BLIND_TURN)))
      else
        (match ProcessAction(h.bettingState, player, BigBlind(h))
         case Err(e) => Done(Step(h, Err(e)))
         case Ok(b) =>
           var n := h.currentState.numPlayers;
           if |h.shuffledDeck| < HOLE_CARDS * n then Panic(SLICE_PANIC)
           else
             assert SameChips(h, h.(bettingState := b)) by {
               if Ledger(h.bettingState) { ProcessActionKeepsLedger(h.bettingState, player, BigBlind(h)); }
             }
             var (cards, rest) := DealHoleCards(h.shuffledDeck, n);
             Done(Step(h.(bettingState := b, playerCards := cards, shuffledDeck := rest,
                          currentState := NextDealer(h.currentState).(currentState := UNMASK_HOLE_CARDS)),
                       Ok(()))))
    case _ => Done(Step(h, Err(NOT_BIG_BLIND_STATE)))
  }

  /** The unmasking of hole cards that the big blind opens starts at the
      dealer, so the turn comes back to the dealer, and betting opens, only
      after every seat has had its turn. */
  lemma EverySeatUnmasksHoleCards(h: Hand, player: nat, k: nat)
    requires Valid(h) && Acting(h, BIG_BLIND, player)
    requires SubmitBigBlind(h, player).Done? && SubmitBigBlind(h, player).value.result.Ok?
    requires 0 < k <= h.currentState.numPlayers
    ensures var s := SubmitBigBlind(h, player).value.hand.currentState;
      IsCurrentDealer(s) && s.currentState == UNMASK_HOLE_CARDS
      && (NextPlayer(Advance(s, k - 1)).1 <==> k == s.numPlayers)
  {
    RotationReturnsToDealer(SubmitBigBlind(h, player).value.hand.currentState, k);
  }

  /** `check_betting_round_complete`: while the street's betting is open
      nothing happens. Once it is over the dealer acts next and the round
      advances: past the last round comes the showdown; otherwise the next
      street's cards are dealt (three after the preflop round, one later)
      into that round's slot and unmasking starts. Advancing past the round
      limit is an error that keeps the dealer move; running out of cards
      panics. */
  function CheckBettingRoundComplete(h: Hand): (r: Outcome<Step<()>>)
    requires Valid(h)
    ensures r.Done? ==> Valid(r.value.hand) && r.value.hand.bettingState == h.bettingState && SameLogs(h, r.value.hand)
    ensures !IsBettingRoundComplete(h.bettingState) ==> r == Done(Step(h, Ok(())))
    ensures IsBettingRoundComplete(h.bettingState) ==>
      (var s := h.currentState;
       var round := s.currentRound;
       var count := if round == PREFLOP then 3 else 1;
       if round >= s.maxRounds then
         r == Done(Step(h.(currentState := NextDealer(s)), Err(NO_NEXT_ROUND_ERROR)))
       else if round + 1 == s.maxRounds then
         r == Done(Step(h.(currentState := s.(currentPlayer := s.dealerButton, currentRound := round + 1,
                                              currentState := UNMASK_SHOWDOWN)), Ok(())))
       else
         (r.Panic? <==> |h.shuffledDeck| < count)
         && (r.Done? ==>
               r.value == Step(h.(communityCards := h.communityCards[round := h.shuffledDeck[..count]],
                                  shuffledDeck := h.shuffledDeck[count..],
                                  currentState := s.(currentPlayer := s.dealerButton, currentRound := round + 1,
                                                     currentState := UNMASK_COMMUNITY_CARDS)), Ok(()))))
  {
    if !IsBettingRoundComplete(h.bettingState) then Done(Step(h, Ok(())))
    else
      var s := NextDealer(h.currentState);
      var round := s.currentRound;
      match NextRound(s)
      case Err(e) => Done(Step(h.(currentState := s), Err(e)))
      case Ok((s2, last)) =>
        if last then Done(Step(h.(currentState := s2.(currentState := UNMASK_SHOWDOWN)), Ok(())))
        else
          var count := if round == PREFLOP then 3 else 1;
          if |h.shuffledDeck| < count then Panic(SLICE_PANIC)
          else
            var (dealt, rest) := Deal(h.shuffledDeck, count);
            Done(Step(h.(communityCards := h.communityCards[round := dealt], shuffledDeck := rest,
                         currentState := s2.(currentState := UNMASK_COMMUNITY_CARDS)), Ok(())))
  }

  /** The hand `OpenBetting` hands to the street check: still valid, with
      the same chips and logs, and with two or more seats in, an open street
      whose first seat to act is active. */
  lemma OpenBettingSetup(h: Hand)
    requires Valid(h)
    ensures var s := NextPlayerMasked(h.currentState, h.bettingState.activePlayers, true).0;
      var b := NextStreet(h.bettingState);
      var h1 := h.(currentState := s.(currentState := BET), bettingState := b);
      Valid(h1) && SameChips(h, h1) && SameLogs(h, h1)
      && (CountActive(h.bettingState.activePlayers) >= 2 ==>
            !IsBettingRoundComplete(b) && h.bettingState.activePlayers[s.currentPlayer])
  {
    var mask := h.bettingState.activePlayers;
    var r := NextPlayerMasked(h.currentState, mask, true);
    if Ledger(h.bettingState) { NextStreetKeepsLedger(h.bettingState); }
    if CountActive(mask) >= 2 {
      var p := FirstActive(mask);
      assert !HasMatched(NextStreet(h.bettingState), p);
      assert !r.1;
    }
  }

  /** After a full unmasking rotation: betting opens at the first active
      seat from the dealer, on a fresh street. With two or more seats still
      in, the street is open and it is that seat's turn to bet. */
  function OpenBetting(h: Hand): (r: Outcome<Step<bool>>)
    requires Valid(h)
    ensures r.Done? ==> Valid(r.value.hand) && SameChips(h, r.value.hand) && SameLogs(h, r.value.hand)
    ensures r.Done? ==> r.value.hand.bettingState == NextStreet(h.bettingState)
    ensures r.Done? ==> |r.value.hand.communityCards| == |h.communityCards|
    ensures r.Done? ==> forall k :: 0 <= k < |h.communityCards| && k != h.currentState.currentRound ==>
      r.value.hand.communityCards[k] == h.communityCards[k]
    ensures r.Done? && r.value.result.Ok? ==> r.value.result.value
    ensures CountActive(h.bettingState.activePlayers) >= 2 ==>
      (r.Done? && r.value.result == Ok(true)
       && ToEnum(r.value.hand.currentState) == Bet(h.currentState.currentRound, r.value.hand.currentState.currentPlayer)
       && h.bettingState.activePlayers[r.value.hand.currentState.currentPlayer]
       && r.value.hand.currentState.dealerButton == h.currentState.dealerButton
       && r.value.hand.currentState.currentPlayer
          == NextPlayerMasked(h.currentState, h.bettingState.activePlayers, true).0.currentPlayer
       && r.value.hand == h.(bettingState := NextStreet(h.bettingState), currentState := r.value.hand.currentState))
  {
    var s := NextPlayerMasked(h.currentState, h.bettingState.activePlayers, true).0;
    var b := NextStreet(h.bettingState);
    OpenBettingSetup(h);
    match CheckBettingRoundComplete(h.(currentState := s.(currentState := BET), bettingState := b))
    case Panic(reason) => Panic(reason)
    case Done(Step(h2, Err(e))) => Done(Step(h2, Err(e)))
    case Done(Step(h2, Ok(_))) => Done(Step(h2, Ok(true)))
  }

  /** The end of an unmasking submission: the turn passes to the next seat,
      and once it is back at the dealer betting opens. */
  function PassUnmaskTurn(h: Hand): (r: Outcome<Step<bool>>)
    requires Valid(h)
    ensures r.Done? ==> Valid(r.value.hand) && SameChips(h, r.value.hand) && SameLogs(h, r.value.hand)
    ensures r.Done? ==> |r.value.hand.communityCards| == |h.communityCards|
    ensures r.Done? ==> forall k :: 0 <= k < |h.communityCards| && k != h.currentState.currentRound ==>
      r.value.hand.communityCards[k] == h.communityCards[k]
    ensures var s := h.currentState;
      var next := SeatAfter(s.currentPlayer, 1, s.numPlayers);
      (next != s.dealerButton ==> r == Done(Step(h.(currentState := s.(currentPlayer := next)), Ok(false))))
      && (next == s.dealerButton ==> r == OpenBetting(h.(currentState := s.(currentPlayer := next))))
  {
    var (s, wrapped) := NextPlayer(h.currentState);
    if wrapped then OpenBetting(h.(currentState := s))
    else Done(Step(h.(currentState := s), Ok(false)))
  }

  /** `submit_player_cards`: the seat to act submits, for every seat, its
      hole cards with its own layer removed; the submission is logged and
      becomes the current hole cards. After a full rotation betting opens
      and the call reports `true`. */
  function SubmitPlayerCards(h: Hand, player: nat, cards: seq<seq<G1>>): (r: Outcome<Step<bool>>)
    requires Valid(h)
    ensures r.Done? ==> Valid(r.value.hand) && SameChips(h, r.value.hand)
    ensures !InPhase(h, UNMASK_HOLE_CARDS) ==> r == Done(Step(h, Err(NOT_HOLE_CARDS_STATE)))
    ensures InPhase(h, UNMASK_HOLE_CARDS) && !Acting(h, UNMASK_HOLE_CARDS, player) ==>
      r == Done(Step(h, Err(NOT_HOLE_CARDS_TURN)))
    ensures Acting(h, UNMASK_HOLE_CARDS, player) && |cards| != |h.playerCards| ==>
      r == Done(Step(h, Err(WRONG_CARDS_LENGTH)))
    ensures Acting(h, UNMASK_HOLE_CARDS, player) && |cards| == |h.playerCards| && r.Done? ==>
      (var next := SeatAfter(player, 1, h.currentState.numPlayers);
       var logged := h.unmaskingSequence + [Unmasking(player, UNMASK_HOLE_CARDS, cards)];
       r.value.hand.unmaskingSequence == logged && r.value.hand.playerCards == cards
       && r.value.hand.shuffleHistory == h.shuffleHistory
       && (next != h.currentState.dealerButton ==>
             r.value == Step(h.(unmaskingSequence := logged, playerCards := cards,
                                currentState := h.currentState.(currentPlayer := next)), Ok(false)))
       && (next == h.currentState.dealerButton ==>
             r.value.hand.bettingState == NextStreet(h.bettingState)
             && (r.value.result.Ok? ==> r.value.result.value)))
    ensures Acting(h, UNMASK_HOLE_CARDS, player) && |cards| == |h.playerCards| ==>
      r == PassUnmaskTurn(h.(unmaskingSequence := h.unmaskingSequence + [Unmasking(player, UNMASK_HOLE_CARDS, cards)],
                             playerCards := cards))
  {
    match ToEnum(h.currentState)
    case UnmaskHoleCards(p) =>
      if p != player then Done(Step(h, Err(NOT_HOLE_CARDS_TURN)))
      else if |cards| != |h.playerCards| then Done(Step(h, Err(WRONG_CARDS_LENGTH)))
      else
        PassUnmaskTurn(h.(unmaskingSequence := h.unmaskingSequence + [Unmasking(player, UNMASK_HOLE_CARDS, cards)],
                          playerCards := cards))
    case _ => Done(Step(h, Err(NOT_HOLE_CARDS_STATE)))
  }

  /** `submit_player_cards_showdown`: at showdown each seat in turn removes
      its own layer from the hole cards; after a full rotation the keys are
      collected and the call reports `true`. */
  function SubmitPlayerCardsShowdown(h: Hand, player: nat, cards: seq<seq<G1>>): (r: Step<bool>)
    requires Valid(h)
    ensures Valid(r.hand) && r.hand.bettingState == h.bettingState
    ensures !InPhase(h, UNMASK_SHOWDOWN) ==> r == Step(h, Err(NOT_HOLE_CARDS_STATE))
    ensures InPhase(h, UNMASK_SHOWDOWN) && !Acting(h, UNMASK_SHOWDOWN, player) ==>
      r == Step(h, Err(NOT_HOLE_CARDS_TURN))
    ensures Acting(h, UNMASK_SHOWDOWN, player) && |cards| != |h.playerCards| ==>
      r == Step(h, Err(WRONG_CARDS_LENGTH))
    ensures r.result.Ok? <==> Acting(h, UNMASK_SHOWDOWN, player) && |cards| == |h.playerCards|
    ensures r.result.Ok? ==>
      (var s := h.currentState;
       var next := SeatAfter(player, 1, s.numPlayers);
       r.hand == h.(unmaskingSequence := h.unmaskingSequence + [Unmasking(player, UNMASK_SHOWDOWN, cards)],
                    playerCards := cards,
                    currentState := s.(currentPlayer := next,
                                       currentState := if next == s.dealerButton then SUBMIT_PUBLIC_KEY else UNMASK_SHOWDOWN))
       && (r.result.value <==> next == s.dealerButton))
  {
    match ToEnum(h.currentState)
    case UnmaskShowdown(p) =>
      if p != player then Step(h, Err(NOT_HOLE_CARDS_TURN))
      else if |cards| != |h.playerCards| then Step(h, Err(WRONG_CARDS_LENGTH))
      else
        var h1 := h.(unmaskingSequence := h.unmaskingSequence + [Unmasking(player, UNMASK_SHOWDOWN, cards)],
                     playerCards := cards);
        var (s, wrapped) := NextPlayer(h1.currentState);
        if wrapped then Step(h1.(currentState := s.(currentState := SUBMIT_PUBLIC_KEY)), Ok(true))
        else Step(h1.(currentState := s), Ok(false))
    case _ => Step(h, Err(NOT_HOLE_CARDS_STATE))
  }

  /** `submit_community_cards`: the seat to act removes its layer from the
      cards of the named round, which are stored at `round - 1` and logged.
      After a full rotation betting opens and the call reports `true`. A
      round with no slot (0, or past the round limit) panics. */
  function SubmitCommunityCards(h: Hand, player: nat, round: nat, cards: seq<G1>): (r: Outcome<Step<bool>>)
    requires Valid(h)
    ensures r.Done? ==> Valid(r.value.hand) && SameChips(h, r.value.hand)
    ensures !InPhase(h, UNMASK_COMMUNITY_CARDS) ==> r == Done(Step(h, Err(NOT_BET_STATE)))
    ensures InPhase(h, UNMASK_COMMUNITY_CARDS) && round != h.currentState.currentRound ==>
      r == Done(Step(h, Err(NOT_THIS_ROUND)))
    ensures (InPhase(h, UNMASK_COMMUNITY_CARDS) && round == h.currentState.currentRound
             && !Acting(h, UNMASK_COMMUNITY_CARDS, player)) ==>
      r == Done(Step(h, Err(NOT_BET_TURN)))
    ensures (Acting(h, UNMASK_COMMUNITY_CARDS, player) && round == h.currentState.currentRound
             && (round == 0 || round > |h.communityCards|)) ==> r == Panic(NO_ROUND_CARDS)
    ensures (Acting(h, UNMASK_COMMUNITY_CARDS, player) && round == h.currentState.currentRound
             && 0 < round <= |h.communityCards|) ==>
      (var logged := h.unmaskingSequence + [Unmasking(player, UNMASK_COMMUNITY_CARDS, [cards])];
       r == PassUnmaskTurn(h.(unmaskingSequence := logged, communityCards := h.communityCards[round - 1 := cards]))
       && (r.Done? ==> r.value.hand.unmaskingSequence == logged && r.value.hand.communityCards[round - 1] == cards))
  {
    match ToEnum(h.currentState)
    case UnmaskCommunityCards(rd, p) =>
      if rd != round then Done(Step(h, Err(NOT_THIS_ROUND)))
      else if p != player then Done(Step(h, Err(NOT_BET_TURN)))
      else if round == 0 || round - 1 >= |h.communityCards| then Panic(NO_ROUND_CARDS)
      else
        PassUnmaskTurn(h.(unmaskingSequence := h.unmaskingSequence + [Unmasking(player, UNMASK_COMMUNITY_CARDS, [cards])],
                          communityCards := h.communityCards[round - 1 := cards]))
    case _ => Done(Step(h, Err(NOT_BET_STATE)))
  }

  /** The end of an accepted bet: the turn passes to the next active seat
      after the bettor, and the street may end. */
  function PassBetTurn(h: Hand, b: BettingState): (r: Outcome<Step<()>>)
    requires Valid(h) && b.WellFormed() && b.NumPlayers() == h.currentState.numPlayers
    ensures r.Done? ==> Valid(r.value.hand) && r.value.hand.bettingState == b && SameLogs(h, r.value.hand)
    ensures !IsBettingRoundComplete(b) ==>
      (r.Done? && r.value.result.Ok? && InPhase(r.value.hand, h.currentState.currentState)
       && (CountActive(b.activePlayers) > 0 ==> b.activePlayers[r.value.hand.currentState.currentPlayer]))
    ensures !IsBettingRoundComplete(b) ==>
      r.Done? && r.value.hand.currentState == NextPlayerMasked(h.currentState, b.activePlayers, false).0
    ensures IsBettingRoundComplete(b) ==> r == CheckBettingRoundComplete(h.(bettingState := b))
  {
    var s := NextPlayerMasked(h.currentState, b.activePlayers, false).0;
    assert CountActive(b.activePlayers) > 0 ==> b.activePlayers[s.currentPlayer] by {
      if CountActive(b.activePlayers) > 0 {
        assert b.activePlayers[FirstActive(b.activePlayers)];
      }
    }
    CheckBettingRoundComplete(h.(bettingState := b, currentState := s))
  }

  /** `submit_bet`: the seat to act bets through the ledger; the turn passes
      to the next active seat and the street may end. A refused bet leaves
      the hand unchanged. */
  function SubmitBet(h: Hand, player: nat, amount: U64): (r: Outcome<Step<()>>)
    requires Valid(h)
    ensures r.Done? ==> Valid(r.value.hand) && SameChips(h, r.value.hand) && SameLogs(h, r.value.hand)
    ensures !InPhase(h, BET) ==> r == Done(Step(h, Err(NOT_BET_STATE)))
    ensures InPhase(h, BET) && !Acting(h, BET, player) ==> r == Done(Step(h, Err(NOT_BET_TURN)))
    ensures Acting(h, BET, player) ==>
      (match ProcessAction(h.bettingState, player, amount)
       case Err(e) => r == Done(Step(h, Err(e)))
       case Ok(b) => r == PassBetTurn(h, b))
  {
    match ToEnum(h.currentState)
    case Bet(_, p) =>
      if p != player then Done(Step(h, Err(NOT_BET_TURN)))
      else
        (match ProcessAction(h.bettingState, player, amount)
         case Err(e) => Done(Step(h, Err(e)))
         case Ok(b) =>
           assert SameChips(h, h.(bettingState := b)) by {
             if Ledger(h.bettingState) { ProcessActionKeepsLedger(h.bettingState, player, amount); }
           }
           PassBetTurn(h, b))
    case _ => Done(Step(h, Err(NOT_BET_STATE)))
  }

  /** The seat's place in the shuffle chain, `(player + n - dealer) % n`:
      how many seats after the dealer it sits. */
  function ShuffleStep(player: nat, dealer: nat, n: nat): (step: nat)
    requires player < n && dealer < n
    ensures step < n
    ensures SeatAfter(dealer, step, n) == player
  {
    var x := player + n - dealer;
    ReduceOnce(x, n);
    x % n
  }

  /** A value below twice the modulus reduces by at most one subtraction. */
  lemma ReduceOnce(x: nat, n: nat)
    requires 0 < n && x < 2 * n
    ensures x % n == if x < n then x else x - n
  {
    if x >= n {
      assert x == n + (x - n) && 0 <= x - n < n;
      assert x / n == 1;
    }
  }

  /** `verify_shuffle`: the seat's step of the shuffle chain is checked
      against the deck before it (the reference deck for the dealer's step)
      with the seat's key and traces. A step not yet logged is an index
      panic. */
  function VerifyShuffle(h: Hand, player: nat, pk: G2, traces: seq<ShuffleTrace>): (r: Outcome<bool>)
    requires Valid(h) && player < h.currentState.numPlayers
    ensures var step := ShuffleStep(player, h.currentState.dealerButton, h.currentState.numPlayers);
      (r.Panic? <==> step >= |h.shuffleHistory|)
      && (r.Done? ==>
            (var before := if step == 0 then h.pokerDeck.cardsG1 else h.shuffleHistory[step - 1];
             var after := h.shuffleHistory[step];
             (r.value <==> VerifyShuffleTraced(before, after, pk, traces).Ok?)
             && (r.value ==> AllInBounds(traces, before, after) && DistinctBeforeIndices(traces))
             && ((AllInBounds(traces, before, after) && DistinctBeforeIndices(traces)
                  && forall i :: 0 <= i < |traces| ==> TraceHonest(traces[i], before, after, pk)) ==> r.value)))
  {
    var step := ShuffleStep(player, h.currentState.dealerButton, h.currentState.numPlayers);
    if step >= |h.shuffleHistory| then Panic(INDEX_PANIC)
    else
      var after := h.shuffleHistory[step];
      var before := if step == 0 then h.pokerDeck.cardsG1 else h.shuffleHistory[step - 1];
      Done(VerifyShuffleTraced(before, after, pk, traces).Ok?)
  }

  /** `verify_unmasking` on the hand: runs the unmasking audit and, when it
      names a cheater, marks the hand cheated; otherwise the hand is left
      as it was. */
  function VerifyUnmaskingHand(h: Hand): (r: Outcome<Step<Option<nat>>>)
    requires Valid(h)
    ensures var audit := Audit(h.shuffleHistory, h.currentState.numPlayers, h.playerKeys, h.unmaskingSequence);
      (r.Panic? <==> audit.Panic?)
      && (r.Done? ==>
            (r.value.result == audit.value
             && (r.value.result.Ok? && r.value.result.value.Some? ==>
                   r.value.hand == h.(currentState := h.currentState.(currentState := CHEATED)))
             && (!(r.value.result.Ok? && r.value.result.value.Some?) ==> r.value.hand == h)))
  {
    match Audit(h.shuffleHistory, h.currentState.numPlayers, h.playerKeys, h.unmaskingSequence)
    case Panic(reason) => Panic(reason)
    case Done(Ok(Some(cheater))) =>
      Done(Step(h.(currentState := h.currentState.(currentState := CHEATED)), Ok(Some(cheater))))
    case Done(result) => Done(Step(h, result))
  }

  /** The number a string of decimal digits denotes. */
  function DecimalValue(s: string): nat
    requires forall i :: 0 <= i < |s| ==> '0' <= s[i] <= '9'
  {
    if |s| == 0 then 0 else 10 * DecimalValue(s[..|s| - 1]) + (s[|s| - 1] as int - '0' as int)
  }

  /** The decimal digits of a number, as `format!("{}")` prints it: digits
      only, no leading zero, and they denote the number. */
  function NatToString(n: nat): (s: string)
    ensures |s| > 0 && forall i :: 0 <= i < |s| ==> '0' <= s[i] <= '9'
    ensures |s| > 1 ==> s[0] != '0'
    ensures DecimalValue(s) == n
  {
    var digit := ['0', '1', '2', '3', '4', '5', '6', '7', '8', '9'][n % 10];
    if n < 10 then [digit]
    else
      var prefix := NatToString(n / 10);
      assert (prefix + [digit])[..|prefix|] == prefix;
      prefix + [digit]
  }

  /** The hand with `pk` stored as the seat's key. */
  function WithKey(h: Hand, player: nat, pk: G2): (r: Hand)
    requires player < |h.playerKeys|
    ensures |r.playerKeys| == |h.playerKeys| && r.playerKeys[player] == Some(pk)
    ensures forall q :: 0 <= q < |h.playerKeys| && q != player ==> r.playerKeys[q] == h.playerKeys[q]
    ensures r == h.(playerKeys := r.playerKeys)
  {
    h.(playerKeys := h.playerKeys[player := Some(pk)])
  }

  /** The end of `submit_public_key` once the last key is in: the audit's
      verdict finishes the hand, marks it cheated with the seat in the error,
      or passes its error on. */
  function FinishKeys(h: Hand): (r: Outcome<Step<()>>)
    requires Valid(h)
    ensures r.Done? ==> Valid(r.value.hand) && r.value.hand.bettingState == h.bettingState
    ensures match Audit(h.shuffleHistory, h.currentState.numPlayers, h.playerKeys, h.unmaskingSequence)
      case Panic(_) => r.Panic?
      case Done(Ok(None)) => r.Done? && r.value.result.Ok? && IsFinished(r.value.hand.currentState)
      case Done(Ok(Some(c))) =>
        r.Done? && r.value.result == Err(CHEATED_UNMASKING + NatToString(c))
        && r.value.hand.currentState.currentState == CHEATED
      case Done(Err(e)) => r == Done(Step(h, Err(e)))
    ensures r.Done? ==>
      r.value.hand == h.(currentState := h.currentState.(currentState := r.value.hand.currentState.currentState))
  {
    match VerifyUnmaskingHand(h)
    case Panic(reason) => Panic(reason)
    case Done(Step(h3, Ok(None))) =>
      Done(Step(h3.(currentState := h3.currentState.(currentState := FINISHED)), Ok(())))
    case Done(Step(h3, Ok(Some(cheater)))) =>
      Done(Step(h3, Err(CHEATED_UNMASKING + NatToString(cheater))))
    case Done(Step(h3, Err(e))) => Done(Step(h3, Err(e)))
  }

  /** `submit_public_key`: the seat to act reveals its key, which is stored
      at once. Its own shuffle step is checked first, and a failure marks the
      hand cheated. The last seat's key triggers the unmasking audit: a named
      cheater is an error carrying the seat and the hand is marked cheated,
      an audit error is passed on, and a clean audit finishes the hand. */
  function SubmitPublicKey(h: Hand, player: nat, pk: G2, traces: seq<ShuffleTrace>): (r: Outcome<Step<()>>)
    requires Valid(h)
    ensures r.Done? ==> Valid(r.value.hand) && r.value.hand.bettingState == h.bettingState
    ensures !InPhase(h, SUBMIT_PUBLIC_KEY) ==> r == Done(Step(h, Err(NOT_PUBLIC_KEY_STATE)))
    ensures InPhase(h, SUBMIT_PUBLIC_KEY) && !Acting(h, SUBMIT_PUBLIC_KEY, player) ==>
      r == Done(Step(h, Err(NOT_PUBLIC_KEY_TURN)))
    ensures Acting(h, SUBMIT_PUBLIC_KEY, player) ==>
      (var keyed := WithKey(h, player, pk);
       var s := h.currentState;
       var next := SeatAfter(player, 1, s.numPlayers);
       match VerifyShuffle(keyed, player, pk, traces)
       case Panic(_) => r.Panic?
       case Done(false) => r == Done(Step(keyed.(currentState := s.(currentState := CHEATED)), Err(CHEATED_SHUFFLE)))
       case Done(true) =>
         (next != s.dealerButton ==> r == Done(Step(keyed.(currentState := s.(currentPlayer := next)), Ok(()))))
         && (next == s.dealerButton ==>
               (match Audit(keyed.shuffleHistory, s.numPlayers, keyed.playerKeys, keyed.unmaskingSequence)
                case Panic(_) => r.Panic?
                case Done(Ok(None)) => r.Done? && r.value.result.Ok? && IsFinished(r.value.hand.currentState)
                case Done(Ok(Some(c))) =>
                  (r.Done? && r.value.result == Err(CHEATED_UNMASKING + NatToString(c))
                   && r.value.hand.currentState.currentState == CHEATED)
                case Done(Err(e)) => r.Done? && r.value.result == Err(e))
               && r == FinishKeys(keyed.(currentState := s.(currentPlayer := next)))))
  {
    match ToEnum(h.currentState)
    case SubmitPublicKey(p) =>
      if p != player then Done(Step(h, Err(NOT_PUBLIC_KEY_TURN)))
      else
        var keyed := WithKey(h, player, pk);
        (match VerifyShuffle(keyed, player, pk, traces)
         case Panic(reason) => Panic(reason)
         case Done(false) =>
           Done(Step(keyed.(currentState := h.currentState.(currentState := CHEATED)), Err(CHEATED_SHUFFLE)))
         case Done(true) =>
           var (s, wrapped) := NextPlayer(keyed.currentState);
           var h2 := keyed.(currentState := s);
           if !wrapped then Done(Step(h2, Ok(())))
           else FinishKeys(h2))
    case _ => Done(Step(h, Err(NOT_PUBLIC_KEY_STATE)))
  }

  /** A hand only finishes through a clean audit: when the last key makes
      the hand finished, that seat's shuffle step checked out, the batched
      unmasking check passed, and no seat's key is missing. The batched
      check is an unweighted sum, so it does not by itself show that every
      logged unmasking step was valid. */
  lemma FinishedOnlyAfterCleanAudit(h: Hand, player: nat, pk: G2, traces: seq<ShuffleTrace>)
    requires Valid(h) && Acting(h, SUBMIT_PUBLIC_KEY, player)
    requires var r := SubmitPublicKey(h, player, pk, traces);
      r.Done? && IsFinished(r.value.hand.currentState)
    ensures var keyed := WithKey(h, player, pk);
      VerifyShuffle(keyed, player, pk, traces) == Done(true)
      && Audit(keyed.shuffleHistory, h.currentState.numPlayers, keyed.playerKeys, keyed.unmaskingSequence)
         == Done(Ok(None))
      && AllKeysPresent(keyed.playerKeys)
  {
  }
}

=== FILE: poker_state.dfy ===
/** The phase and turn counters of a hand (lib/crum_pkr/src/poker_state.rs):
    a phase code, the seat to act, the betting round, and the seat rotation
    with and without a mask of active seats. */
module PokerState {

  import opened Wrappers

  const SHUFFLE: Byte := 0
  const SMALL_BLIND: Byte := 1
  const BIG_BLIND: Byte := 2
  const BET: Byte := 3
  const UNMASK_HOLE_CARDS: Byte := 4
  const UNMASK_COMMUNITY_CARDS: Byte := 5
  const UNMASK_SHOWDOWN: Byte := 6
  const SUBMIT_PUBLIC_KEY: Byte := 7
  const FINISHED: Byte := 8
  const CHEATED: Byte := 9

  /** The betting round before any community card is dealt. */
  const PREFLOP: nat := 0

  const NO_NEXT_ROUND_ERROR := "No next round - Hand has finished"

  /** The decoded phase, carrying the seat to act (and the round where it matters). */
  datatype Phase =
    | Shuffle(player: nat, isDealer: bool)
    | SmallBlind(player: nat)
    | BigBlind(player: nat)
    | Bet(round: nat, player: nat)
    | UnmaskHoleCards(player: nat)
    | UnmaskCommunityCards(round: nat, player: nat)
    | UnmaskShowdown(player: nat)
    | SubmitPublicKey(player: nat)
    | Cheated(player: nat)
    | Finished
    | Invalid

  datatype HandState = HandState(
    dealerButton: nat,
    numPlayers: nat,
    maxRounds: nat,
    currentPlayer: nat,
    currentRound: nat,
    currentState: Byte)

  /** `new`: the dealer acts first, in the shuffle phase of round 0. */
  function New(numPlayers: nat, maxRounds: nat, dealerButton: nat): (s: HandState)
    ensures s.numPlayers == numPlayers && s.maxRounds == maxRounds && s.dealerButton == dealerButton
    ensures ToEnum(s) == Shuffle(dealerButton, true) && s.currentRound == 0
  {
    HandState(dealerButton, numPlayers, maxRounds, dealerButton, 0, SHUFFLE)
  }

  predicate IsCurrentDealer(s: HandState) {
    s.currentPlayer == s.dealerButton
  }

  /** `is_finished`: the hand decodes to the finished phase. */
  function IsFinished(s: HandState): (r: bool)
    ensures r <==> ToEnum(s) == Finished
  {
    s.currentState == FINISHED
  }

  /** `next_dealer`: the dealer is to act; nothing else changes. */
  function NextDealer(s: HandState): (r: HandState)
    ensures IsCurrentDealer(r)
    ensures r == s.(currentPlayer := r.currentPlayer)
  {
    s.(currentPlayer := s.dealerButton)
  }

  /** The seat `k` places after `start`, counting cyclically, for at most
      one full turn of the table. */
  function SeatAfter(start: nat, k: nat, n: nat): (q: nat)
    requires start < n && k <= n
    ensures q < n
  {
    if start + k < n then start + k else start + k - n
  }

  lemma NextSeatMod(c: nat, n: nat)
    requires c < n
    ensures (c + 1) % n == if c + 1 == n then 0 else c + 1
  {
  }

  /** `next_player`: the next seat cyclically is to act; the flag says
      whether that seat is the dealer. The source divides by the seat count,
      so a hand without seats is excluded. */
  function NextPlayer(s: HandState): (r: (HandState, bool))
    requires s.numPlayers > 0
    ensures r.0 == s.(currentPlayer := r.0.currentPlayer) && r.0.currentPlayer < s.numPlayers
    ensures s.currentPlayer < s.numPlayers ==>
      r.0.currentPlayer == SeatAfter(s.currentPlayer, 1, s.numPlayers)
    ensures r.1 <==> IsCurrentDealer(r.0)
  {
    var t := s.(currentPlayer := (s.currentPlayer + 1) % s.numPlayers);
    assert s.currentPlayer < s.numPlayers ==> t.currentPlayer == SeatAfter(s.currentPlayer, 1, s.numPlayers) by {
      if s.currentPlayer < s.numPlayers {
        NextSeatMod(s.currentPlayer, s.numPlayers);
      }
    }
    (t, t.currentPlayer == t.dealerButton)
  }

  /** `k` calls of `next_player`. */
  function Advance(s: HandState, k: nat): (r: HandState)
    requires s.numPlayers > 0
    ensures r == s.(currentPlayer := r.currentPlayer)
  {
    if k == 0 then s else NextPlayer(Advance(s, k - 1)).0
  }

  /** One more step from `k` places after `start` is `k + 1` places after it. */
  lemma SeatAfterStep(start: nat, k: nat, n: nat)
    requires start < n && k < n
    ensures SeatAfter(SeatAfter(start, k, n), 1, n) == SeatAfter(start, k + 1, n)
  {
  }

  lemma {:induction false} AdvanceIsOffset(s: HandState, k: nat)
    requires s.currentPlayer < s.numPlayers && k <= s.numPlayers
    ensures Advance(s, k) == s.(currentPlayer := SeatAfter(s.currentPlayer, k, s.numPlayers))
  {
    if k > 0 {
      AdvanceIsOffset(s, k - 1);
      SeatAfterStep(s.currentPlayer, k - 1, s.numPlayers);
    }
  }

  /** A full rotation: starting at the dealer, `next_player` reports the
      dealer after exactly `n` calls and not before. */
  lemma RotationReturnsToDealer(s: HandState, k: nat)
    requires s.dealerButton < s.numPlayers && IsCurrentDealer(s)
    requires 0 < k <= s.numPlayers
    ensures NextPlayer(Advance(s, k - 1)).1 <==> k == s.numPlayers
  {
    AdvanceIsOffset(s, k - 1);
    SeatAfterStep(s.currentPlayer, k - 1, s.numPlayers);
  }

  /** The loop of `next_player_masked` after `steps` moves from `start`:
      move on, stop at an active seat, or report that the scan is back at
      `start`. */
  function ScanFrom(s: HandState, mask: seq<bool>, start: nat, steps: nat): (r: (HandState, bool))
    requires 0 < s.numPlayers == |mask| && start < s.numPlayers && steps < s.numPlayers
    requires s.currentPlayer == SeatAfter(start, steps, s.numPlayers)
    ensures r.0 == s.(currentPlayer := r.0.currentPlayer) && r.0.currentPlayer < s.numPlayers
    ensures r.1 ==> r.0.currentPlayer == start
    ensures r.1 <==> forall k :: steps < k <= s.numPlayers ==> !mask[SeatAfter(start, k, s.numPlayers)]
    ensures !r.1 ==> (mask[r.0.currentPlayer]
      && exists k :: (steps < k <= s.numPlayers && r.0.currentPlayer == SeatAfter(start, k, s.numPlayers)
                      && forall j :: steps < j < k ==> !mask[SeatAfter(start, j, s.numPlayers)]))
    decreases s.numPlayers - steps
  {
    var n := s.numPlayers;
    var t := NextPlayer(s).0;
    SeatAfterStep(start, steps, n);
    if mask[t.currentPlayer] then (t, false)
    else if start == t.currentPlayer then (t, true)
    else ScanFrom(t, mask, start, steps + 1)
  }

  /** Every seat is some offset in 1..n from any start seat. */
  lemma SeatsCovered(start: nat, q: nat, n: nat)
    requires start < n && q < n
    ensures exists k :: 0 < k <= n && SeatAfter(start, k, n) == q
  {
    var k := if q > start then q - start else q + n - start;
    assert SeatAfter(start, k, n) == q;
  }

  /** `next_player_masked`. With `fromDealer` the dealer is tried first. The
      scan then moves seat by seat from the start seat and stops at the first
      active one, or reports `true` when it came back to the start having
      seen no active seat, i.e. exactly when no seat is active. */
  function NextPlayerMasked(s: HandState, mask: seq<bool>, fromDealer: bool): (r: (HandState, bool))
    requires 0 < s.numPlayers == |mask|
    requires s.dealerButton < s.numPlayers && s.currentPlayer < s.numPlayers
    ensures r.0 == s.(currentPlayer := r.0.currentPlayer) && r.0.currentPlayer < s.numPlayers
    ensures r.1 <==> forall q :: 0 <= q < s.numPlayers ==> !mask[q]
    ensures fromDealer && mask[s.dealerButton] ==> r.0.currentPlayer == s.dealerButton
    ensures var start := if fromDealer then s.dealerButton else s.currentPlayer;
      r.1 ==> r.0.currentPlayer == start
    ensures var start := if fromDealer then s.dealerButton else s.currentPlayer;
      !r.1 && !(fromDealer && mask[s.dealerButton]) ==>
        (mask[r.0.currentPlayer]
         && exists k :: (0 < k <= s.numPlayers && r.0.currentPlayer == SeatAfter(start, k, s.numPlayers)
                         && forall j :: 0 < j < k ==> !mask[SeatAfter(start, j, s.numPlayers)]))
  {
    var t := if fromDealer then NextDealer(s) else s;
    if fromDealer && mask[t.currentPlayer] then (t, false)
    else
      var start := t.currentPlayer;
      var r := ScanFrom(t, mask, start, 0);
      assert r.1 <==> forall q :: 0 <= q < s.numPlayers ==> !mask[q] by {
        if r.1 {
          forall q | 0 <= q < s.numPlayers ensures !mask[q] {
            SeatsCovered(start, q, s.numPlayers);
          }
        }
      }
      r
  }

  /** `next_round`: refuses to pass the last round; otherwise advances the
      round and reports whether it is now the last. An error changes nothing. */
  function NextRound(s: HandState): (r: Result<(HandState, bool)>)
    ensures r.Err? <==> s.currentRound >= s.maxRounds
    ensures r.Err? ==> r.error == NO_NEXT_ROUND_ERROR
    ensures r.Ok? ==> r.value.0 == s.(currentRound := s.currentRound + 1)
    ensures r.Ok? ==> (r.value.1 <==> r.value.0.currentRound == s.maxRounds)
  {
    var next := s.currentRound + 1;
    if next > s.maxRounds then Err(NO_NEXT_ROUND_ERROR)
    else Ok((s.(currentRound := next), next == s.maxRounds))
  }

  /** The phase code of a decoded phase; `Invalid` has none. */
  function PhaseCode(p: Phase): Option<Byte> {
    match p
    case Shuffle(_, _) => Some(SHUFFLE)
    case SmallBlind(_) => Some(SMALL_BLIND)
    case BigBlind(_) => Some(BIG_BLIND)
    case Bet(_, _) => Some(BET)
    case UnmaskHoleCards(_) => Some(UNMASK_HOLE_CARDS)
    case UnmaskCommunityCards(_, _) => Some(UNMASK_COMMUNITY_CARDS)
    case UnmaskShowdown(_) => Some(UNMASK_SHOWDOWN)
    case SubmitPublicKey(_) => Some(SUBMIT_PUBLIC_KEY)
    case Cheated(_) => Some(CHEATED)
    case Finished => Some(FINISHED)
    case Invalid => None
  }

  /** `to_enum`: decodes the phase code. Codes 0 to 9 decode to the phase
      with that code and carry the seat to act (and the round for the betting
      and community phases); any other code is invalid. */
  function ToEnum(s: HandState): (r: Phase)
    ensures r.Invalid? <==> s.currentState > CHEATED
    ensures s.currentState <= CHEATED ==> PhaseCode(r) == Some(s.currentState)
    ensures !r.Invalid? && !r.Finished? ==> r.player == s.currentPlayer
    ensures r.Bet? || r.UnmaskCommunityCards? ==> r.round == s.currentRound
    ensures r.Shuffle? ==> (r.isDealer <==> IsCurrentDealer(s))
  {
    var p := s.currentPlayer;
    if s.currentState == SHUFFLE then Shuffle(p, IsCurrentDealer(s))
    else if s.currentState == SMALL_BLIND then SmallBlind(p)
    else if s.currentState == BIG_BLIND then BigBlind(p)
    else if s.currentState == BET then Bet(s.currentRound, p)
    else if s.currentState == UNMASK_HOLE_CARDS then UnmaskHoleCards(p)
    else if s.currentState == UNMASK_COMMUNITY_CARDS then UnmaskCommunityCards(s.currentRound, p)
    else if s.currentState == UNMASK_SHOWDOWN then UnmaskShowdown(p)
    else if s.currentState == SUBMIT_PUBLIC_KEY then SubmitPublicKey(p)
    else if s.currentState == CHEATED then Cheated(p)
    else if s.currentState == FINISHED then Finished
    else Invalid
  }
}

=== FILE: poker_table.dfy ===
/** The table (lib/crum_pkr/src/poker_table.rs): the joined player ids, the
    dealer button and at most one hand at a time. The older table of
    lib/crum_pkr/src/poker_game.rs has the same fields over the older hand,
    so the table is generic in the hand it holds. */
module PokerTable {

  import opened Wrappers
  import opened BlsSign
  import opened PokerDeck
  import opened PokerState
  import opened PokerHand

  const HAND_IN_PROGRESS := "Hand in progress"

  datatype Table<H> = Table(
    maxPlayers: nat,
    maxRounds: nat,
    players: seq<U32>,
    dealerButton: nat,
    hand: Option<H>)

  /** `new`: nobody has joined, the button is at seat 0 and no hand exists. */
  function New<H>(maxPlayers: nat, maxRounds: nat): (t: Table<H>)
    ensures t.maxPlayers == maxPlayers && t.maxRounds == maxRounds
    ensures t.players == [] && t.dealerButton == 0 && t.hand.None?
  {
    Table(maxPlayers, maxRounds, [], 0, None)
  }

  /** `join`: the id takes the next seat. Nothing stops the same id joining
      twice, nor more than `maxPlayers` ids joining. */
  function Join<H>(t: Table<H>, player: U32): (r: Table<H>)
    ensures |r.players| == |t.players| + 1 && r.players[|t.players|] == player
    ensures forall i :: 0 <= i < |t.players| ==> r.players[i] == t.players[i]
    ensures r == t.(players := r.players)
  {
    t.(players := t.players + [player])
  }

  /** `get_player`: the id at a seat, if the seat is taken. */
  function GetPlayer<H>(t: Table<H>, seat: nat): (r: Option<U32>)
    ensures r.Some? <==> seat < |t.players|
    ensures r.Some? ==> r.value == t.players[seat]
  {
    if seat < |t.players| then Some(t.players[seat]) else None
  }

  /** A joined id can be read back at the seat it took, and the earlier
      seats still hold their ids. */
  lemma JoinThenGetPlayer<H>(t: Table<H>, player: U32, seat: nat)
    ensures GetPlayer(Join(t, player), |t.players|) == Some(player)
    ensures seat < |t.players| ==> GetPlayer(Join(t, player), seat) == GetPlayer(t, seat)
    ensures GetPlayer(Join(t, player), |t.players| + 1) == None
  {
  }

  /** A hand exists and has not finished. */
  predicate HandInProgress(t: Table<Hand>) {
    t.hand.Some? && !IsFinished(t.hand.value.currentState)
  }

  /** `start_hand`: refused while a hand is in progress, leaving the table
      as it was; otherwise a fresh hand over the joined seats replaces any
      finished one, with the dealer to shuffle first. */
  function StartHand(hash: HashToCurve, t: Table<Hand>, initialChips: U64, smallBlind: U64): (r: (Table<Hand>, Result<()>))
    ensures r.1.Err? <==> HandInProgress(t)
    ensures r.1.Err? ==> r == (t, Err(HAND_IN_PROGRESS))
    ensures r.1.Ok? ==> r.0 == t.(hand := r.0.hand) && r.0.hand.Some?
    ensures r.1.Ok? ==>
      (var h := r.0.hand.value;
       h.pokerDeck == NewDeck(hash) && h.shuffledDeck == h.pokerDeck.cardsG1
       && h.shuffleHistory == [] && h.unmaskingSequence == []
       && |h.playerKeys| == |t.players|
       && ToEnum(h.currentState) == Shuffle(t.dealerButton, true)
       && (0 < |t.players| && t.dealerButton < |t.players| ==> Valid(h)))
  {
    if HandInProgress(t) then (t, Err(HAND_IN_PROGRESS))
    else (t.(hand := Some(PokerHand.New(hash, |t.players|, t.maxRounds, t.dealerButton, initialChips, smallBlind))),
          Ok(()))
  }

  /** Two starts in a row: the second is refused, since the first hand has
      only just begun shuffling. */
  lemma SecondStartRefused(hash: HashToCurve, t: Table<Hand>, initialChips: U64, smallBlind: U64)
    requires StartHand(hash, t, initialChips, smallBlind).1.Ok?
    ensures var t1 := StartHand(hash, t, initialChips, smallBlind).0;
      StartHand(hash, t1, initialChips, smallBlind) == (t1, Err(HAND_IN_PROGRESS))
  {
    var t1 := StartHand(hash, t, initialChips, smallBlind).0;
    assert ToEnum(t1.hand.value.currentState).Shuffle?;
  }

  /** Each id of `ids` joins in order. */
  function JoinAll<H>(t: Table<H>, ids: seq<U32>): (r: Table<H>)
    decreases |ids|
  {
    if |ids| == 0 then t else JoinAll(Join(t, ids[0]), ids[1..])
  }

  /** Joining a list of ids seats them in that order after the seated ones
      and touches nothing else. */
  lemma {:induction false} JoinAllSeats<H>(t: Table<H>, ids: seq<U32>)
    ensures JoinAll(t, ids) == t.(players := t.players + ids)
    decreases |ids|
  {
    if |ids| > 0 {
      JoinAllSeats(Join(t, ids[0]), ids[1..]);
      assert t.players + [ids[0]] + ids[1..] == t.players + ids;
    }
  }

  /** On a new table that `ids` have joined, a hand starts at once: it is
      valid, has a seat per id and seat 0 shuffles first. */
  lemma FirstHandStarts(hash: HashToCurve, maxPlayers: nat, maxRounds: nat, ids: seq<U32>,
                        initialChips: U64, smallBlind: U64)
    requires |ids| > 0
    ensures var r := StartHand(hash, JoinAll(New<Hand>(maxPlayers, maxRounds), ids), initialChips, smallBlind);
      r.1.Ok? && r.0.players == ids && Valid(r.0.hand.value)
      && r.0.hand.value.currentState.numPlayers == |ids|
      && ToEnum(r.0.hand.value.currentState) == Shuffle(0, true)
  {
    JoinAllSeats(New<Hand>(maxPlayers, maxRounds), ids);
  }
}

=== FILE: unmask_audit.dfy ===
/** The end-of-hand unmasking audit (lib/crum_pkr/src/poker_hand_verify.rs).
    It replays the logged unmaskings over the final shuffled deck, tracking
    which masked points each seat's hole cards and each street's community
    cards currently are, and collects one (unmasked, masked, actor) triple
    per peeled point. One batched pairing check over all triples decides
    the honest case; when it fails, the triples are checked one by one and
    the actor of the first failing one is named. */
module UnmaskAudit {

  import opened Wrappers
  import opened Field
  import opened Pairing
  import opened BlsSign
  import opened BlsVerify
  import opened PokerState

  const NO_HISTORY_ERROR := "No shuffle history"
  const MISSING_KEY_ERROR := "Missing PK for unmask audit"

  /** Community slots of the street layout: flop, turn, river. */
  const STREETS: nat := 3

  /** One logged unmasking: who acted, in which phase, and the submitted
      card vectors (one per seat for hole cards, one for community cards). */
  datatype Unmasking = Unmasking(actor: nat, kind: Byte, cards: seq<seq<G1>>)

  /** The claim that `actor` peeled its layer off `masked`, giving `unmasked`. */
  datatype Triple = Triple(unmasked: G1, masked: G1, actor: nat)

  /** The replay state: tracked hole cards per seat, tracked community
      cards per street, the street being unmasked, how many seats have
      unmasked it, and the audit trail so far. */
  datatype Replay = Replay(hole: seq<seq<G1>>, community: seq<seq<G1>>,
                           commRound: nat, commCount: nat, trail: seq<Triple>)

  /** The dealing layout over the final deck: seat `i` holds slots `2i` and
      `2i + 1`, then the flop, turn and river take the next 3, 1 and 1. */
  function InitialReplay(deck: seq<G1>, n: nat): (r: Replay)
    requires |deck| >= 2 * n + 5
    ensures |r.hole| == n && |r.community| == STREETS
    ensures forall i :: 0 <= i < n ==> r.hole[i] == deck[2 * i..2 * i + 2]
    ensures r.community[0] == deck[2 * n..2 * n + 3]
    ensures r.community[1] == deck[2 * n + 3..2 * n + 4]
    ensures r.community[2] == deck[2 * n + 4..2 * n + 5]
    ensures r.trail == [] && r.commRound == 0 && r.commCount == 0
  {
    var hole := HoleSlots(deck, n, 0);
    Replay(hole, [deck[2 * n..2 * n + 3], deck[2 * n + 3..2 * n + 4], deck[2 * n + 4..2 * n + 5]], 0, 0, [])
  }

  /** The hole-card loop: two slots per seat from `2 * from` on. */
  function HoleSlots(deck: seq<G1>, n: nat, from: nat): (r: seq<seq<G1>>)
    requires from <= n && |deck| >= 2 * n
    ensures |r| == n - from
    ensures forall i :: from <= i < n ==> r[i - from] == deck[2 * i..2 * i + 2]
    decreases n - from
  {
    if from == n then [] else [deck[2 * from..2 * from + 2]] + HoleSlots(deck, n, from + 1)
  }

  /** The zipped pairs of tracked and submitted points, stopping at the
      shorter vector, as triples attributed to `actor`. */
  function Zip(before: seq<G1>, after: seq<G1>, actor: nat): (r: seq<Triple>)
    ensures |r| == if |before| < |after| then |before| else |after|
    ensures forall k :: 0 <= k < |r| ==> r[k] == Triple(after[k], before[k], actor)
  {
    if |before| == 0 || |after| == 0 then []
    else [Triple(after[0], before[0], actor)] + Zip(before[1..], after[1..], actor)
  }

  /** All triples of a trail carry actors below `bound`. */
  predicate ActorsBelow(trail: seq<Triple>, bound: nat) {
    forall k :: 0 <= k < |trail| ==> trail[k].actor < bound
  }

  /** A hole-card entry, for target seats `target` to `n - 1`: every seat
      but the actor is audited against its submitted vector, which then
      becomes its tracked hole cards. A missing vector is an index panic. */
  function HoleEntry(rp: Replay, n: nat, actor: nat, cards: seq<seq<G1>>, target: nat): (r: Outcome<Replay>)
    requires |rp.hole| == n && target <= n
    ensures r.Panic? <==> var lo := if target < |cards| then |cards| else target;
                          lo < n && !(lo == actor && lo + 1 == n)
    ensures r.Done? ==> (|r.value.hole| == n && r.value.community == rp.community
                         && r.value.commRound == rp.commRound && r.value.commCount == rp.commCount)
    ensures r.Done? ==> forall t :: target <= t < n && t != actor ==> t < |cards| && r.value.hole[t] == cards[t]
    ensures r.Done? ==> forall t :: 0 <= t < n && (t < target || t == actor) ==> r.value.hole[t] == rp.hole[t]
    ensures r.Done? ==> (|r.value.trail| >= |rp.trail| && r.value.trail[..|rp.trail|] == rp.trail
                         && forall k :: |rp.trail| <= k < |r.value.trail| ==> r.value.trail[k].actor == actor)
    decreases n - target
  {
    if target == n then Done(rp)
    else if target == actor then HoleEntry(rp, n, actor, cards, target + 1)
    else if target >= |cards| then Panic(INDEX_PANIC)
    else
      var next := rp.(trail := rp.trail + Zip(rp.hole[target], cards[target], actor),
                      hole := rp.hole[target := cards[target]]);
      var r := HoleEntry(next, n, actor, cards, target + 1);
      assert r.Done? ==> r.value.trail[..|rp.trail|] == rp.trail by {
        if r.Done? {
          assert r.value.trail[..|rp.trail|] == r.value.trail[..|next.trail|][..|rp.trail|];
        }
      }
      r
  }

  /** A community entry: the current street's tracked cards are audited
      against the submitted vector, which replaces them; after `n` entries
      the next street begins. */
  function CommunityEntry(rp: Replay, n: nat, actor: nat, cards: seq<seq<G1>>): (r: Outcome<Replay>)
    ensures r.Panic? <==> rp.commRound >= |rp.community| || |cards| == 0
    ensures r.Done? ==> (r.value.hole == rp.hole && |r.value.community| == |rp.community|
                         && r.value.community[rp.commRound] == cards[0]
                         && r.value.trail == rp.trail + Zip(rp.community[rp.commRound], cards[0], actor))
    ensures r.Done? ==>
      if rp.commCount + 1 == n then r.value.commRound == rp.commRound + 1 && r.value.commCount == 0
      else r.value.commRound == rp.commRound && r.value.commCount == rp.commCount + 1
  {
    if rp.commRound >= |rp.community| || |cards| == 0 then Panic(INDEX_PANIC)
    else
      var count := rp.commCount + 1;
      Done(rp.(trail := rp.trail + Zip(rp.community[rp.commRound], cards[0], actor),
               community := rp.community[rp.commRound := cards[0]],
               commRound := if count == n then rp.commRound + 1 else rp.commRound,
               commCount := if count == n then 0 else count))
  }

  /** A showdown entry: only the actor's own tracked hole cards are audited. */
  function ShowdownEntry(rp: Replay, n: nat, actor: nat, cards: seq<seq<G1>>): (r: Outcome<Replay>)
    requires |rp.hole| == n
    ensures r.Panic? <==> actor >= n || actor >= |cards|
    ensures r.Done? ==> r.value == rp.(hole := rp.hole[actor := cards[actor]],
                                       trail := rp.trail + Zip(rp.hole[actor], cards[actor], actor))
  {
    if actor >= n || actor >= |cards| then Panic(INDEX_PANIC)
    else Done(rp.(trail := rp.trail + Zip(rp.hole[actor], cards[actor], actor),
                  hole := rp.hole[actor := cards[actor]]))
  }

  /** Replays one logged entry; entries of any other phase are skipped. */
  function ReplayEntry(rp: Replay, n: nat, e: Unmasking): (r: Outcome<Replay>)
    requires |rp.hole| == n
    ensures r.Done? ==> |r.value.hole| == n && |r.value.community| == |rp.community|
  {
    if e.kind == UNMASK_HOLE_CARDS then HoleEntry(rp, n, e.actor, e.cards, 0)
    else if e.kind == UNMASK_COMMUNITY_CARDS then CommunityEntry(rp, n, e.actor, e.cards)
    else if e.kind == UNMASK_SHOWDOWN then ShowdownEntry(rp, n, e.actor, e.cards)
    else Done(rp)
  }

  /** Replays the logged entries in order; the first panic aborts. */
  function ReplayAll(rp: Replay, n: nat, entries: seq<Unmasking>): (r: Outcome<Replay>)
    requires |rp.hole| == n
    ensures r.Done? ==> |r.value.hole| == n && |r.value.community| == |rp.community|
    decreases |entries|
  {
    if |entries| == 0 then Done(rp)
    else
      match ReplayEntry(rp, n, entries[0])
      case Panic(reason) => Panic(reason)
      case Done(next) => ReplayAll(next, n, entries[1..])
  }

  /** A street is complete after `n` community entries: the next community
      entry audits the next street. */
  lemma {:induction false} CommunityStreetAdvances(rp: Replay, n: nat, entries: seq<Unmasking>)
    requires |rp.hole| == n && rp.commRound < |rp.community|
    requires rp.commCount + |entries| == n && 0 < |entries|
    requires forall k :: 0 <= k < |entries| ==>
      entries[k].kind == UNMASK_COMMUNITY_CARDS && |entries[k].cards| > 0
    ensures ReplayAll(rp, n, entries).Done?
    ensures ReplayAll(rp, n, entries).value.commRound == rp.commRound + 1
    ensures ReplayAll(rp, n, entries).value.commCount == 0
    ensures ReplayAll(rp, n, entries).value.community[rp.commRound] == entries[|entries| - 1].cards[0]
    decreases |entries|
  {
    var e := entries[0];
    var next := CommunityEntry(rp, n, e.actor, e.cards).value;
    assert ReplayEntry(rp, n, e) == Done(next);
    if |entries| > 1 {
      assert entries[1..][|entries[1..]| - 1] == entries[|entries| - 1];
      CommunityStreetAdvances(next, n, entries[1..]);
    } else {
      assert ReplayAll(next, n, entries[1..]) == Done(next);
    }
  }

  /** `Some` key of every seat. */
  predicate AllKeysPresent(keys: seq<Option<G2>>) {
    forall i :: 0 <= i < |keys| ==> keys[i].Some?
  }

  /** The per-triple check of the fallback: `e(unmasked, pk) * e(masked, -g2) == 1`. */
  predicate TripleValid(t: Triple, keys: seq<Option<G2>>)
    requires AllKeysPresent(keys) && t.actor < |keys|
  {
    VerifyUnmasking(t.masked, t.unmasked, keys[t.actor].value)
  }

  /** The batch: both terms of every triple, in trail order. */
  function BatchTerms(trail: seq<Triple>, keys: seq<Option<G2>>): (r: seq<(G1, G2)>)
    requires AllKeysPresent(keys) && ActorsBelow(trail, |keys|)
    ensures |r| == 2 * |trail|
  {
    if |trail| == 0 then []
    else
      var t := trail[0];
      var terms: seq<(G1, G2)> := [(t.unmasked, keys[t.actor].value), (t.masked, NegG2(G2Generator))];
      terms + BatchTerms(trail[1..], keys)
  }

  /** When every triple is valid, the batch passes. */
  lemma {:induction false} ValidTriplesPassBatch(trail: seq<Triple>, keys: seq<Option<G2>>)
    requires AllKeysPresent(keys) && ActorsBelow(trail, |keys|)
    requires forall k :: 0 <= k < |trail| ==> TripleValid(trail[k], keys)
    ensures ProductIsIdentity(BatchTerms(trail, keys))
  {
    if |trail| > 0 {
      var t := trail[0];
      var terms: seq<(G1, G2)> := [(t.unmasked, keys[t.actor].value), (t.masked, NegG2(G2Generator))];
      assert TripleValid(t, keys);
      ValidTriplesPassBatch(trail[1..], keys);
      MultiPairingAppend(terms, BatchTerms(trail[1..], keys));
    }
  }

  /** The fallback scan: the actor of the first triple that fails its own check. */
  function FirstCheater(trail: seq<Triple>, keys: seq<Option<G2>>): (r: Option<nat>)
    requires AllKeysPresent(keys) && ActorsBelow(trail, |keys|)
    ensures r.None? <==> forall k :: 0 <= k < |trail| ==> TripleValid(trail[k], keys)
    ensures r.Some? ==> exists k :: (0 <= k < |trail| && trail[k].actor == r.value
      && !TripleValid(trail[k], keys) && forall j :: 0 <= j < k ==> TripleValid(trail[j], keys))
  {
    if |trail| == 0 then None
    else if !TripleValid(trail[0], keys) then Some(trail[0].actor)
    else
      var r := FirstCheater(trail[1..], keys);
      assert r.Some? ==> exists k :: (0 <= k < |trail| && trail[k].actor == r.value
        && !TripleValid(trail[k], keys) && forall j :: 0 <= j < k ==> TripleValid(trail[j], keys)) by {
        if r.Some? {
          var k :| 0 <= k < |trail| - 1 && trail[1..][k].actor == r.value
            && !TripleValid(trail[1..][k], keys) && forall j :: 0 <= j < k ==> TripleValid(trail[1..][j], keys);
          assert trail[k + 1].actor == r.value;
          assert forall j :: 0 <= j < k + 1 ==> TripleValid(trail[j], keys) by {
            forall j | 0 <= j < k + 1 ensures TripleValid(trail[j], keys) {
              if j > 0 {
                assert trail[j] == trail[1..][j - 1];
              }
            }
          }
        }
      }
      r
  }

  /** The audit trail the replay of a hand's log produces, or the panic
      that stops it. */
  function AuditTrail(deck: seq<G1>, n: nat, entries: seq<Unmasking>): Outcome<seq<Triple>>
    requires |deck| >= 2 * n + 5
  {
    match ReplayAll(InitialReplay(deck, n), n, entries)
    case Panic(reason) => Panic(reason)
    case Done(rp) => Done(rp.trail)
  }

  /** The first missing key, if any. */
  function MissingKey(keys: seq<Option<G2>>): (r: Option<nat>)
    ensures r.None? <==> AllKeysPresent(keys)
    ensures r.Some? ==> r.value < |keys| && keys[r.value].None?
  {
    if |keys| == 0 then None
    else if keys[0].None? then Some(0)
    else
      match MissingKey(keys[1..])
      case None => None
      case Some(i) => Some(i + 1)
  }

  /** `verify_unmasking` over the final deck of the shuffle history, the
      seat count, the submitted keys and the unmasking log: `Ok(None)` when
      the batch passes, `Ok(Some(p))` naming the actor of the first failing
      triple otherwise. Errors: no shuffle yet, or a seat without a key. A
      final deck too short for the layout, a log entry missing a vector, or
      an actor without a seat's key is an index panic. */
  function Audit(history: seq<seq<G1>>, n: nat, keys: seq<Option<G2>>, entries: seq<Unmasking>)
    : (r: Outcome<Result<Option<nat>>>)
    ensures |history| == 0 ==> r == Done(Err(NO_HISTORY_ERROR))
    ensures |history| > 0 && |history[|history| - 1]| < 2 * n + 5 ==> r.Panic?
    ensures |history| > 0 && |history[|history| - 1]| >= 2 * n + 5 && !AllKeysPresent(keys) ==>
      r == Done(Err(MISSING_KEY_ERROR))
    ensures r.Done? && r.value.Ok? ==>
      |history| > 0 && |history[|history| - 1]| >= 2 * n + 5 && AllKeysPresent(keys)
      && var trail := AuditTrail(history[|history| - 1], n, entries);
         trail.Done? && ActorsBelow(trail.value, |keys|)
         && ((forall k :: 0 <= k < |trail.value| ==> TripleValid(trail.value[k], keys)) ==> r.value.value.None?)
         && (r.value.value.None? <==> ProductIsIdentity(BatchTerms(trail.value, keys)))
         && (r.value.value.Some? ==> r.value.value == FirstCheater(trail.value, keys))
  {
    if |history| == 0 then Done(Err(NO_HISTORY_ERROR))
    else
      var deck := history[|history| - 1];
      if |deck| < 2 * n + 5 then Panic(SLICE_PANIC)
      else if MissingKey(keys).Some? then Done(Err(MISSING_KEY_ERROR))
      else
        match AuditTrail(deck, n, entries)
        case Panic(reason) => Panic(reason)
        case Done(trail) =>
          if !ActorsBelow(trail, |keys|) then Panic(INDEX_PANIC)
          else if ProductIsIdentity(BatchTerms(trail, keys)) then Done(Ok(None))
          else
            var cheater := FirstCheater(trail, keys);
            assert cheater.Some? by {
              if cheater.None? {
                ValidTriplesPassBatch(trail, keys);
              }
            }
            Done(Ok(cheater))
  }
}

=== FILE: wrappers.dfy ===
/** Shared value types: optional values, results carrying the source's error
    messages, and the fixed-width integers the Rust code works with. */
module Wrappers {

  datatype Option<+T> = None | Some(value: T)

  /** A fallible result. The error is the message string the source returns. */
  datatype Result<+T> = Ok(value: T) | Err(error: string)

  /** A computation that completes with a value, or aborts the way a Rust
      panic does (an index or slice out of range, a failed `expect`). */
  datatype Outcome<+T> = Done(value: T) | Panic(reason: string)

  const INDEX_PANIC := "index out of bounds"
  const SLICE_PANIC := "range end index out of range for slice"

  /** An unsigned byte. */
  type Byte = b: int | 0 <= b < 256

  const U64_LIMIT: int := 0x1_0000_0000_0000_0000

  /** Rust `u64`. */
  type U64 = x: int | 0 <= x < U64_LIMIT

  /** Rust `u32`. */
  type U32 = x: int | 0 <= x < 0x1_0000_0000

  /** `a - b` on `u64` as compiled without overflow checks: wraps modulo 2^64. */
  function WrappingSub(a: U64, b: U64): (r: U64)
    ensures b <= a ==> r == a - b
    ensures a < b ==> r == a - b + U64_LIMIT
  {
    (a - b) % U64_LIMIT
  }

  /** `a + b` on `u64` as compiled without overflow checks: wraps modulo 2^64. */
  function WrappingAdd(a: U64, b: U64): (r: U64)
    ensures a + b < U64_LIMIT ==> r == a + b
    ensures a + b >= U64_LIMIT ==> r == a + b - U64_LIMIT
  {
    (a + b) % U64_LIMIT
  }
}
